=== FILE: README.md ===
# Grow-plants farming simulation: a Dafny model of the simulation engine

Grow-plants is a small farming game. It exists twice: once in Python under
`game/` and once as a close JavaScript port under `web/js/`. This
project models the simulation engine the two share.

- **Plant.** A plant grows through five stages. Water and fertiliser set its
  growth rate, and a one-shot mutation can multiply its value.
- **Garden.** A 20x15 garden grid holds per-tile soil, water and fertiliser
  buffers. It indexes its plants twice, by a `grid[y][x]` array and by a
  position-keyed map.
- **Economy.** Integer money is spent only when the balance covers it. Market
  prices drift daily, boom and crash events scale them, and milestones are
  reached by total earnings.
- **Shop.** A catalogue with unlocks, a sale multiplier and per-item daily
  deals.
- **Player.** The player's inventory, selections, energy and level.
- **Game state.** The game state ties these together with a weather clock, a
  day clock, three random events, and the purchase, planting, watering and
  harvest actions.
- **Browser controls.** The browser's overlay/pause key handling and the
  space-bar interaction.

Everything is an immutable datatype with pure step functions. Every random
draw is an explicit parameter: a real roll, a chosen sample, or a per-plant or
per-type roll function. The contracts are therefore deterministic.

Progress, timers, soil and multipliers are exact `real`s. Prices and values
are the `.Floor` of exact rational products. On the non-negative products
involved, that floor is what Python's `int(...)` and JavaScript's
`Math.floor` compute.

Where the port differs from the Python, the difference is a separate small
function with a lemma relating the two:

- the value clamp of `getValue`;
- the `|| 20` price fallback;
- the fluctuation formula;
- the string-keyed `plants` Map with its Fisher-Yates shuffle;
- the field-versus-method `isMutated` in the harvest.

Modules, one file each:

| module | file | covers |
|---|---|---|
| `Common` | `common.dfy` | options, positions, grid size, clamps |
| `Plants` | `plant.dfy` | game/plant.py, web/js/plant.js |
| `Gardens` | `garden.dfy` | game/garden.py, web/js/garden.js |
| `GardenKeys` | `garden_keys.dfy` | the port's `"x,y"` keys and shuffled pest sample |
| `Economies` | `economy.dfy` | game/economy.py, web/js/economy.js |
| `Shops` | `shop.dfy` | game/shop.py, web/js/shop.js |
| `Players` | `player.dfy` | game/player.py, web/js/player.js |
| `Games` | `game_state.dfy` | game/game_state.py, web/js/game.js |
| `WebGame` | `web_game.dfy` | the key handling of web/js/game.js |

Two behaviours of the code are worth stating outright:

- **Carrot growth.** An unwatered carrot grows at half speed, 1/16 per
  second, so after four 2-second updates it is still at stage 0.
  `Plants.CarrotFourTicks` proves this.
- **Price truncation.** Prices are truncated with `int()` / `Math.floor`,
  not rounded, and the model truncates too.

## Model

| member | source | states |
|---|---|---|
| Plants.SpeciesOf | game/plant.py:14-26 | A listed type gets its own table entry; an unknown type silently gets carrot's parameters. Every species needs at least 8 s per stage and water 2, is worth at least 15, and has a mutation chance in (0, 0.08]. |
| Plants.NewPlant | game/plant.py:14-50 | A new plant is valid and keeps the given type name and coordinates. It starts at stage 0 with water 0, max water equal to the species' need, no fertiliser and timers at 0. If the initial roll is below a tenth of the mutation chance it is an early-growth mutant (multiplier 1.2, progress 0.3); otherwise it is unmutated with progress 0. |
| Plants.CheckInitialMutation | game/plant.py:97-100 | A roll below a tenth of the species' mutation chance makes the plant an early-growth mutant, appending that mutation with multiplier at least 1.2. Any other roll changes nothing. Type, stage, water and fertiliser are untouched. |
| Plants.ApplyMutation | game/plant.py:120-136 | Applying a mutation marks the plant mutated and appends that kind. Stage, water and fertiliser are untouched, and the multiplier becomes at least 1.2. |
| Plants.GrowthRate | game/plant.py:71-85 | The growth rate is always positive, so progress never goes backwards. A plant with some water but not full and no fertiliser advances at 1/growth time per second. Care speeds it up at most 1.95-fold (1.5 for full water times 1.3 for fertiliser). |
| Plants.FertiliserSpeedsGrowth | game/plant.py:82-85 | At any water level, fertiliser multiplies the growth rate by exactly 1.3. |
| Plants.FullWaterSpeedsGrowth | game/plant.py:75-79 | Topping up a partly watered plant to its need makes it grow exactly 1.5 times as fast. |
| Plants.CheckMutation | game/plant.py:102-118 | A mutated plant is never mutated again. An unmutated plant becomes a growth-spurt mutant exactly when the roll is below its care-adjusted chance; otherwise nothing changes. |
| Plants.AdvanceStage | game/plant.py:87-95 | Advancing moves exactly one stage up and resets progress and the stage timer. Type, water and fertiliser are kept, and an existing mutation is kept. A new mutation can only arise on reaching stage 2 or later, and it is a growth spurt. `update` only calls it below the final stage (game/plant.py:63-65), which is its precondition. |
| Plants.Update | game/plant.py:52-95 | Validity is kept. The stage rises by at most one, and it rises exactly when the plant is below the final stage and the accrued progress reaches 1; progress and the stage timer then reset. Otherwise progress grows by rate x dt. Water drops by one (not below 0) exactly when more than 10 s have passed since the last watering. An existing mutation and its multiplier are untouched. A new mutation can only arise on a stage advance to stage 2 or later, and it is a growth spurt with multiplier 1.5. |
| Plants.Water | game/plant.py:138-144 | Watering succeeds exactly when water is below the maximum; it then adds one unit and records the watering time. A failure changes nothing, and validity is kept. |
| Plants.Fertilize | game/plant.py:146-151 | Fertilising succeeds exactly once: it reports success only when the plant was unfertilised, and afterwards the plant is fertilised. |
| Plants.StageName | game/plant.py:153-159 | The stage name is "harvestable" exactly when the plant is harvestable (stage 4). |
| Plants.IsHarvestable | game/plant.py:157-159 | A valid harvestable plant is at its final stage: no later update moves it to another stage. |
| Plants.Value | game/plant.py:161-178 | The truncated intrinsic value is never below the species' base value. |
| Plants.ValueJs | web/js/plant.js:168-187 | The port's value is clamped to at least 1. |
| Plants.ValueJsAgrees | web/js/plant.js:186 | On every valid plant the port's clamped value equals the Python value, because the clamp never fires. |
| Plants.RawValueAtLeastBase | game/plant.py:161-178 | Before truncation the value is at least the base value, since every factor is at least 1. |
| Plants.ValueMonotoneInStage | game/plant.py:161-178 | With everything else fixed, a later stage never lowers the intrinsic value. |
| Plants.RawValueMonotone | game/plant.py:166-176 | Two plants that differ only in stage have untruncated values in stage order. |
| Plants.DryGrowsSlower | game/plant.py:71-85 | A plant at full water grows exactly three times as fast as the same plant with no water. |
| Plants.Run | game/plant.py:52-69 | Any sequence of updates keeps the plant valid, with its type and position. |
| Plants.MutationOneShot | game/plant.py:102-106 | Once a plant is mutated, any number of later updates keep its mutation list and multiplier, and its stage never drops. |
| Plants.RunStageBounds | game/plant.py:63-65 | Over n updates the stage never decreases, never passes the final stage, and rises by at most n. |
| Plants.DryingPersists | game/plant.py:67-69 | Once more than 10 s have passed since the last watering, every further non-negative update drains water again, because `last_watered` is never advanced. |
| Plants.CarrotFourTicks | game/plant.py:52-85 | Whatever the rolls, four 2-second updates of a freshly planted carrot leave it at stage 0. |
| Gardens.InitialState | game/garden.py:13-49 | A new garden is valid with no plants and one expansion of three. Every tile has soil 1.0 and fertiliser 0; water is 2 on the centre 5x5 square and 0 elsewhere. |
| Gardens.Seeded | game/garden.py:84-88 | The stored plant is valid, has the given type and coordinates, and is at stage 0. |
| Gardens.PlantSeed | game/garden.py:69-90 | Planting succeeds exactly in bounds, on an empty tile, with soil above 0; a failure changes nothing. On success both indices hold the same new plant at (x, y) and validity (the dual index) is kept. The buffers and the expansion count never change. |
| Gardens.IsPlantableSoil | game/garden.py:213-215 | On a garden whose soil never fell below its starting quality, every tile is plantable. |
| Gardens.Replace | game/garden.py:18-19 | Replacing a stored plant in both indices keeps the dual index. |
| Gardens.WaterPlant | game/garden.py:92-107 | Watering a tile succeeds exactly on a plant below its water need. Only then is the plant watered and the tile's water buffer raised by one, capped at 5. Failure changes nothing, and the plant positions never change. |
| Gardens.FertilizePlant | game/garden.py:109-124 | Fertilising a tile succeeds exactly on an unfertilised plant. Only then is the plant fertilised and the tile's fertiliser buffer raised by one, capped at 3. Failure changes nothing. |
| Gardens.GetPlant | game/garden.py:126-130 | Reading the grid finds a plant exactly when the position is a key of the plant map, and it finds that same plant with matching coordinates. |
| Gardens.RemovePlant | game/garden.py:132-147 | Removal succeeds exactly on an occupied position and empties both indices. The tile's soil rises by 0.1, capped at 1.5. Failure changes nothing. Buffers, expansions, timers and the infestation flag are always kept, and validity and "soil at least 1.0" are kept. |
| Gardens.Expand | game/garden.py:149-168 | An expansion is refused with no change once the count reaches the maximum. Otherwise it counts one more, and soil and water become exactly the upgraded grids of `ExpandedSoil` and `ExpandedWater`. Only the count, soil and water ever change. Soil never decreases. The only tiles whose soil changes are centre-square tiles with soil exactly 0, which become 0.8 with water 1, and tiles with soil keep their water. |
| Gardens.ExpandedSoil | game/garden.py:160-165 | After an expansion, exactly the centre-square tiles with soil 0 have soil 0.8. |
| Gardens.ExpandedWater | game/garden.py:160-165 | After an expansion, exactly the centre-square tiles with soil 0 have water 1. |
| Gardens.ExpandOnlyCounts | game/garden.py:22-49 | From any garden whose soil never fell below its initial 1.0, an expansion changes nothing but the counter. |
| Gardens.MapPlants | game/garden.py:51-56 | Applying a per-plant step to every plant keeps the dual index and the plant positions, and touches no buffer or timer. |
| Gardens.GridOf | game/garden.py:18-19 | The rebuilt grid holds a plant exactly where the plant map does. |
| Gardens.ApplyRain | game/garden.py:170-182 | Rain sets the rain timer to 20 and waters every plant, changing no plant's stage. Every plantable tile gains 2 water, capped at 5, and every other tile keeps its water. The plant positions are kept. |
| Gardens.RainWater | game/garden.py:178-181 | The water buffer after rain: plus 2, capped at 5, exactly on tiles with soil above 0. |
| Gardens.ValidBuffers | game/garden.py:18-36 | Validity depends only on the indices; new buffers of the right shape keep it. |
| Gardens.RemoveAll | game/garden.py:198-202 | Removing each chosen position in turn leaves exactly the other plants, unchanged. Buffers, expansions and timers are kept, and validity and "soil at least 1.0" are kept. |
| Gardens.RemoveAllRaisesSoil | game/garden.py:132-147 | After removing distinct planted positions one by one, each of their tiles has soil raised by 0.1, capped at 1.5, and every other tile's soil is unchanged. |
| Gardens.TriggerPest | game/garden.py:188-202 | An infestation already active changes nothing. Otherwise it becomes active and removes exactly the sampled positions. That is `min(3, n)` distinct plants; the remaining plants are untouched, stage included. Each destroyed plant's tile gains the removal soil bonus of 0.1, capped at 1.5, and no other tile's soil changes. |
| Gardens.Update | game/garden.py:51-67 | Every plant takes its own update step and the plant positions are kept. The rain timer counts down to 0. The pest window stays active exactly while its elapsed time is below 30 s. While it stays active its timer grows by the step; when it ends the timer is reset to 0. |
| Gardens.PestsLastThirtySeconds | game/garden.py:188-207 | A fresh infestation survives a single step exactly when the step is shorter than 30 s, and its timer then reads the step length. |
| Gardens.PlantSeedOnGoodSoil | game/garden.py:69-90 | On a garden whose soil never fell below 1.0, planting fails only off the grid or on an occupied tile, and the poor-soil penalty never applies. |
| Gardens.PoorSoilPenalty | game/garden.py:86-88 | On soil below 0.5 only an early-growth plant is affected: its 0.3 head start becomes 0.24. |
| Gardens.RemoveThenPlant | game/garden.py:132-147 | After a removal the position is in neither index and can be planted again. |
| GardenKeys.NatText | web/js/garden.js:84 | The decimal text of a natural number is a non-empty run of digits. |
| GardenKeys.ParseNat | web/js/garden.js:221 | Reading a digit string gives a natural number. |
| GardenKeys.ParseNatText | web/js/garden.js:221 | Reading back the decimal text of n gives n. |
| GardenKeys.IntText | web/js/garden.js:84 | An integer's text is non-empty and contains no comma. |
| GardenKeys.IntTextRoundTrip | web/js/garden.js:221 | `Number` of an integer's text gives the integer back. |
| GardenKeys.FirstComma | web/js/garden.js:221 | The first comma is found exactly when one exists, and no comma precedes it. |
| GardenKeys.FirstCommaAfter | web/js/garden.js:221 | In `l + "," + rest` with comma-free `l`, the first comma is right after `l`. |
| GardenKeys.KeyRoundTrip | web/js/garden.js:221 | Splitting a position's `"x,y"` key at its comma and reading both halves gives the position back. |
| GardenKeys.KeysRoundTrip | web/js/garden.js:221 | Every position's key reads back as that position. |
| GardenKeys.KeyOfInjective | web/js/garden.js:84 | Two positions have the same key exactly when they are equal. |
| GardenKeys.Rekey | web/js/garden.js:84 | Re-keying a map through an invertible encoding keeps every entry under its encoded key and creates no others. |
| GardenKeys.RekeyInsert | web/js/garden.js:84 | Re-keying commutes with inserting an entry. |
| GardenKeys.RekeyRemove | web/js/garden.js:149 | Re-keying commutes with deleting an entry. |
| GardenKeys.JsPlants | web/js/garden.js:84 | The port's string-keyed Map holds a key exactly for each planted position, with that position's plant, and every key parses back to its position. |
| GardenKeys.JsPlantsSize | web/js/garden.js:84 | The string-keyed Map holds as many entries as the position-keyed map. |
| GardenKeys.RekeySize | web/js/garden.js:84 | Re-keying through an invertible encoding keeps the number of entries. |
| GardenKeys.ImageSize | web/js/garden.js:84 | An invertible encoding maps a set onto a set of the same size. |
| GardenKeys.JsDualIndex | web/js/garden.js:82-84 | In the port, a tile holds a plant exactly when its `"x,y"` key is in the Map, and the Map holds that same plant. |
| GardenKeys.JsPlantSeedKey | web/js/garden.js:82-84 | `plants.set` with the string key is the image of inserting into the position-keyed map. |
| GardenKeys.JsRemoveKey | web/js/garden.js:147-150 | `plants.delete` with the string key is the image of removing from the position-keyed map. |
| GardenKeys.FloorIndexInRange | web/js/garden.js:244 | `Math.floor(Math.random() * (i + 1))` lies in `[0, i]`. |
| GardenKeys.Shuffle | web/js/garden.js:241-248 | `shuffleArray` returns a permutation of its input: same length, same multiset. |
| GardenKeys.DistinctByMultiset | web/js/garden.js:241-248 | A sequence has no repeated element exactly when no element occurs twice in its multiset. |
| GardenKeys.DistinctPermutation | web/js/garden.js:241-248 | A rearrangement of a duplicate-free sequence is duplicate-free. |
| GardenKeys.KeysOf | web/js/garden.js:215 | The Map's key list has one key per position, in order, and is duplicate-free when the positions are. |
| GardenKeys.ParseAll | web/js/garden.js:221 | Parsing the chosen keys gives positions from the garden whose keys they are, distinct when the keys are. |
| GardenKeys.ShuffledKeys | web/js/garden.js:215-218 | A shuffled key list has as many keys as there are plants, each a Map key and none repeated. |
| GardenKeys.ChosenPrefixIsSample | web/js/garden.js:218-221 | The first `min(3, n)` shuffled keys parse back to `min(3, n)` distinct planted positions. |
| GardenKeys.ChooseVictims | web/js/garden.js:215-222 | Shuffling the Map's keys, taking the first `min(3, n)` and parsing them back gives `min(3, n)` distinct planted positions, a valid `random.sample`. |
| GardenKeys.TriggerPestJs | web/js/garden.js:209-226 | The port's pest event changes nothing while active. Otherwise it activates with its timer at 0 and destroys a valid sample of `min(3, n)` existing plants, returned as `destroyed`. Exactly those plants are gone, and each of their tiles gains the soil bonus of `removePlant` (web/js/garden.js:153). Every survivor is unchanged, the expansions and rain timer are kept, and the garden stays valid. |
| GardenKeys.ParsedKeyOf | web/js/garden.js:221 | A chosen key parses back to the position it was made from. |
| Economies.InitialState | game/economy.py:15-51 | A new economy is valid with 100 coins and nothing earned or spent. The base prices are current, every multiplier is 1.0 and every history empty. There is no boom or crash and no milestone reached. |
| Economies.AddMoney | game/economy.py:69-72 | Adding money raises both the balance and the total earned by the amount and changes nothing else. |
| Economies.SpendMoney | game/economy.py:74-80 | Spending succeeds exactly when the balance covers the amount, then lowers the balance and raises the total spent by it. Failure changes nothing, and a non-negative balance stays non-negative. |
| Economies.CanAfford | game/economy.py:82-84 | An affordable cost leaves no debt once paid, and a free item is affordable from any non-negative balance. |
| Economies.EarnThenSpend | game/economy.py:69-80 | Spending what was just earned always succeeds and restores the balance; only both totals grow. |
| Economies.PriceOfJs | web/js/economy.js:91 | The port's `\|\| 20` falls back to 20 both for a missing price and for a price of 0. |
| Economies.PriceOf | game/economy.py:92 | A priced type uses its current price and an unpriced type the default of 20. In a valid economy the price is at least 4, never 0. |
| Economies.PlantValue | game/economy.py:90-120 | A harvest value is at least 1, and above 1 it is the market-adjusted value. |
| Economies.PlantValueJs | web/js/economy.js:90-124 | The port's harvest value is at least 1. |
| Economies.UnpricedUsesDefault | game/economy.py:92 | A type without a price is valued as if it cost 20. |
| Economies.PlantValueJsAgrees | web/js/economy.js:90-124 | On every reachable economy no price is 0, so the two harvest values agree. |
| Economies.BoomBeatsCrash | game/economy.py:114-118 | With both events active only the boom factor 1.5 applies; the crash flag is ignored. |
| Economies.MarketAdjustedMonotone | game/economy.py:114-120 | The market adjustment preserves the order of values. |
| Economies.PlantValueMonotoneInStage | game/economy.py:97-120 | At a non-negative price, a riper plant is never worth less. |
| Economies.BaseValueMonotone | game/economy.py:97-112 | At a fixed price, plants that differ only in stage are valued in stage order. |
| Economies.PyFluctuation | game/economy.py:126 | `uniform(-0.1, 0.1)` lies in `[-0.1, 0.1)`. |
| Economies.JsFluctuation | web/js/economy.js:129 | `(Math.random() - 0.5) * 0.2` lies in `[-0.1, 0.1)`. |
| Economies.FluctuationsAgree | web/js/economy.js:129 | From the same roll the two fluctuation formulas give the same value. |
| Economies.Push | game/economy.py:136-138 | Pushing onto a history keeps at most 10 entries, puts the new one last, and drops the oldest first. |
| Economies.Drift | game/economy.py:127-130 | A drifted multiplier lies in `[0.5, 2.0]`. It is exactly `m + f` when that is in range, and moves in the direction of the fluctuation. |
| Economies.NormalPrices | game/economy.py:133 | Each normal price is `floor(base x multiplier)`, which is at least 7. |
| Economies.NormalPrice | game/economy.py:133 | A normal price `int(base x multiplier)` is at least 7 for any base of at least 15 and multiplier of at least 0.5. |
| Economies.NormalPriceOf | game/economy.py:133 | Every priced type's normal price is at least 7. |
| Economies.PushAll | game/economy.py:136-138 | Every history gets its own new price pushed. |
| Economies.RecordPrices | game/economy.py:132-138 | After recording, each price is `floor(base x multiplier)` and ends its bounded history. |
| Economies.UpdateMarketPrices | game/economy.py:122-138 | Validity is kept. Each multiplier drifts by its fluctuation, clamped to `[0.5, 2.0]`. Each price is recomputed as `floor(base x multiplier)` and pushed onto its history of at most 10. Nothing else changes. |
| Economies.PriceTrend | game/economy.py:216-229 | The trend is rising exactly when the last recorded price is above the one before it, and falling exactly when it is below. With fewer than two prices it is stable. |
| Economies.PushKeepsPrevious | game/economy.py:136-138 | After a push onto a non-empty history, the previous newest entry is second to last. |
| Economies.NormalPriceMonotone | game/economy.py:133 | A larger multiplier never gives a smaller normal price. |
| Economies.TrendFollowsDrift | game/economy.py:122-229 | After a daily update, an upward drift never reads as falling and a downward drift never as rising. |
| Economies.Scaled | game/economy.py:147-148 | Scaling keeps the priced types and floors each scaled price. |
| Economies.TriggerBoom | game/economy.py:140-148 | A boom already running changes nothing. Otherwise it starts a 60 s boom and scales every price to `floor(p x 1.5)`, never lower. Validity is kept. |
| Economies.TriggerCrash | game/economy.py:150-158 | A crash already running changes nothing. Otherwise it starts a 45 s crash and scales every price to `floor(p x 0.7)`, never higher. Validity is kept. |
| Economies.EndBoom | game/economy.py:160-167 | Ending a boom resets every price to `floor(base x multiplier)`, which also discards the scaling of a crash still running. |
| Economies.EndCrash | game/economy.py:169-176 | Ending a crash resets every price to `floor(base x multiplier)`, which also discards the scaling of a boom still running. |
| Economies.TriggersIdempotent | game/economy.py:140-158 | Triggering a boom or a crash twice is the same as triggering it once. |
| Economies.BoomRoundTrip | game/economy.py:140-167 | A boom started and ended from normal prices leaves the market as it was, timer aside. |
| Economies.CrashRoundTrip | game/economy.py:150-176 | A crash started and ended from normal prices leaves the market as it was, timer aside. |
| Economies.AddReached | game/economy.py:180-183 | The milestone loop adds exactly the thresholds reached by the earnings. |
| Economies.CheckMilestones | game/economy.py:178-184 | The milestone set only grows, and afterwards it holds exactly the old set plus every threshold at most the total earned. |
| Economies.CountDownBoom | game/economy.py:56-59 | A boom survives the step exactly while its timer stays above 0, and its timer then drops by the step. When it ends the timer is 0 and prices return to normal. Otherwise prices are unchanged, and nothing but the boom flag, its timer and the prices ever changes. |
| Economies.CountDownCrash | game/economy.py:61-64 | A crash survives the step exactly while its timer stays above 0, and its timer then drops by the step. When it ends the timer is 0 and prices return to normal. Otherwise prices are unchanged, and nothing but the crash flag, its timer and the prices ever changes. |
| Economies.Update | game/economy.py:53-67 | Each event survives exactly while its timer stays above 0, and its timer then drops by the step. An ending event's timer is 0 and prices reset to normal; if no event ends, prices are unchanged. The milestones become the old ones plus every threshold reached. Nothing else changes, so money, multipliers and histories are kept. |
| Economies.EventsLastTheirDuration | game/economy.py:140-176 | A boom started from a calm market survives a step exactly when the step is shorter than 60 s, and a crash likewise for 45 s. The remaining time is then the duration minus the step. |
| Economies.FirstAbove | game/economy.py:211-212 | The search finds the first threshold above the earnings, or reports that none is. |
| Economies.NextMilestone | game/economy.py:209-214 | The next goal is the smallest threshold above the total earned, with its own name and the positive amount still needed. "All achieved" is reported exactly when every threshold has been reached. |
| Shops.CatalogueCategories | game/shop.py:13-37 | The catalogue has exactly the categories seeds, tools, fertilizers and expansions. |
| Shops.KeysOf | game/shop.py:13-37 | The key list of a category lists its items' keys in order. |
| Shops.Find | game/shop.py:54 | Looking up a key finds an item exactly when the category lists that key, and finds that key's own record. |
| Shops.CatalogueWellFormed | game/shop.py:13-37 | Each catalogue category has distinct keys and non-negative costs. |
| Shops.InitialUnlocksListed | game/shop.py:40-46 | Every item unlocked at the start is in the catalogue, once. |
| Shops.InitialState | game/shop.py:12-50 | A new shop is valid and offers the whole catalogue. Seeds and tools are unlocked with only carrot and the basic watering can; there are no deals and no sale. |
| Shops.CatalogueItem | game/shop.py:54 | A catalogue record exists exactly for a listed category and key. |
| Shops.GetItem | game/shop.py:52-64 | An item is quoted exactly when it is in the catalogue. The quote keeps its name and description, and its cost is the catalogue cost times the item's daily deal if it has one (otherwise the sale multiplier), truncated. |
| Shops.QuoteOf | game/shop.py:56-62 | A catalogue item's quote is its record with the discounted cost. |
| Shops.FoundCostNonNegative | game/shop.py:13-37 | A record found in a category with non-negative costs has a non-negative cost. |
| Shops.Discounted | game/shop.py:59-61 | A truncated discount by a factor in `[0, 1]` stays within `[0, cost]`, and factor 1 keeps the cost. |
| Shops.QuoteWithinCatalogue | game/shop.py:58-112 | On a valid shop no quote exceeds the catalogue cost or goes negative, since every factor is clamped to `[0.1, 1.0]`. |
| Shops.QuoteWithinCost | game/shop.py:58-61 | A factor in `[0, 1]` keeps a quote within the catalogue cost. |
| Shops.InitialCarrotQuote | game/shop.py:14-15 | In the initial shop carrot seeds cost 10 under "seeds", and the category "seed" finds nothing. |
| Shops.DealBeatsSale | game/shop.py:58-61 | A daily deal takes precedence: changing the sale multiplier does not affect that item's quote. |
| Shops.GetItemCost | game/shop.py:134-137 | The item cost is the quoted cost, or 0 for an unknown item. |
| Shops.CanAffordItem | game/shop.py:127-132 | Only catalogue items can be afforded. In a valid shop, money covering the catalogue cost always affords the item, and a negative balance never does. |
| Shops.CanAffordMeansCost | game/shop.py:127-132 | An item is affordable exactly when it is known and the money covers its quoted cost. |
| Shops.QuotesOf | game/shop.py:71-77 | Only real quotes of listed keys are collected; when all keys are known, each is quoted in list order. |
| Shops.GetAvailableItems | game/shop.py:66-77 | A locked category offers nothing. An unlocked one offers, in unlock order, exactly the quotes of its unlocked items. |
| Shops.UnlockItem | game/shop.py:83-96 | Unlocking reports true exactly for a catalogue item not yet unlocked, and then appends it. A catalogue item always ends up unlocked with its category. Nothing else is touched, and a non-catalogue item changes nothing. |
| Shops.UnlockItemKeepsValid | game/shop.py:83-96 | Unlocking keeps the shop valid: no category or item is listed twice. |
| Shops.UnlockItemIdempotent | game/shop.py:83-96 | Unlocking the same item again reports false and changes nothing. |
| Shops.UnlockCategory | game/shop.py:98-104 | Unlocking a category reports true exactly for a catalogue category not yet unlocked. It then appends the category and unlocks all its items in catalogue order; otherwise nothing changes. |
| Shops.UnlockedCategoryOffersAll | game/shop.py:66-104 | After unlocking a category, it offers as many items as its catalogue lists. |
| Shops.SetSale | game/shop.py:106-108 | The sale multiplier is clamped into `[0.1, 1.0]`, and a value already in range is kept. |
| Shops.AddDailyDeal | game/shop.py:110-112 | The item's deal factor becomes `1 - discount`, clamped into `[0.1, 1.0]`; other deals are untouched. |
| Shops.InsertByCost | game/shop.py:156 | Inserting adds exactly the one item. |
| Shops.InsertLowerBound | game/shop.py:156 | After inserting into a sorted list, every entry costs at least the new item or the old head. |
| Shops.InsertKeepsSorted | game/shop.py:156 | Inserting into a list sorted by cost keeps it sorted. |
| Shops.SortedCons | game/shop.py:156 | An item no dearer than every entry of a sorted list keeps it sorted in front. |
| Shops.SortByCost | game/shop.py:156 | The sort gives a permutation of its input in ascending cost. |
| Shops.Affordable | game/shop.py:150-153 | The collected quotes are exactly the affordable known items of the list. |
| Shops.Candidates | game/shop.py:143-153 | Items are gathered only from unlocked categories and only when affordable, and every such item is gathered. |
| Shops.GetRecommendedItems | game/shop.py:139-157 | The recommendation is sorted by ascending cost and is a permutation of the gathered candidates. It contains every affordable unlocked item of the chosen categories and nothing else. |
| Players.InitialState | game/player.py:12-32 | A new player is valid with 5 carrot seeds and the basic watering can selected. They start at level 1 with no experience and 100 of 100 energy. |
| Players.Move | game/player.py:48-57 | Pressing left or up makes that axis's velocity negative, and right or down makes it positive. Releasing sets it to 0. The other axis, and any unknown direction, are unchanged. |
| Players.PressThenRelease | game/player.py:48-57 | Pressing and releasing a direction leaves the player still on that axis. |
| Players.HasSeedIsKey | game/player.py:80-87 | On a valid player, holding a seed is the same as having its key. |
| Players.HasSeed | game/player.py:85-87 | Holding a seed is the same as a positive count of it. |
| Players.AddSeed | game/player.py:69-74 | Adding raises that seed's count by the amount, from 0 when absent, and changes no other count. |
| Players.UseSeed | game/player.py:76-83 | Using a seed succeeds exactly when it is held. It then takes one away and drops the key when the count reaches 0; failure changes nothing. |
| Players.AddThenUseSeed | game/player.py:69-83 | Buying one seed and planting it restores the inventory exactly. |
| Players.UseSeeds | game/player.py:76-83 | Repeated seed use changes only the seed counts. |
| Players.UseSeedsCount | game/player.py:76-87 | Holding n seeds allows exactly n successful uses, each taking one. |
| Players.AddTool | game/player.py:89-92 | Afterwards the tool is owned and no tool is listed twice; the tools already owned keep their order. |
| Players.AddToolIdempotent | game/player.py:89-92 | Adding a tool twice is the same as adding it once. |
| Players.SelectTool | game/player.py:94-97 | The selection moves only to an owned tool; an unowned name changes nothing. |
| Players.SelectSeed | game/player.py:99-102 | The selection moves only to a seed in stock; otherwise nothing changes. |
| Players.UseEnergy | game/player.py:112-117 | Using energy succeeds exactly when enough is left, and only then subtracts the amount; energy never goes negative. |
| Players.LevelsGained | game/player.py:124-126 | The levels gained are the new experience total divided by 100. |
| Players.AddExperience | game/player.py:119-128 | The level rises by one per full hundred of the new total. Experience afterwards lies in `[0, 100)`, the energy ceiling gains 10 per level, and energy is refilled when a level was gained. |
| Games.InitialState | game/game_state.py:17-41 | A new game is valid: day 1 at time 0, sunny, 100 coins, 5 carrot seeds, an empty garden, one expansion, no statistics and the initial shop. |
| Games.SampleWeather | game/game_state.py:64-80 | The cumulative walk picks sunny for a roll up to 0.6, cloudy up to 0.85 and rainy up to 1.0, and keeps the current weather beyond that. |
| Games.Pick | game/game_state.py:74-80 | The cumulative walk only picks listed weather. It picks the first entry when the roll is within its chance. On a non-empty table of non-negative chances it finds nothing exactly when the roll exceeds the running total plus all the chances. |
| Games.ValidFrame | game/game_state.py:17-41 | A state that keeps the player, shop, statistics and books of a valid state, with a valid garden and economy, is valid. |
| Games.ValidWithPlayer | game/game_state.py:134-140 | A valid new player and garden keep the state valid. |
| Games.RainEvent | game/game_state.py:92-94 | On a rainy day a roll below 0.3 brings rain; otherwise nothing changes. Either way no plant changes stage. |
| Games.PestEvent | game/game_state.py:101-102 | A roll below 0.05 triggers an infestation that destroys `min(3, n)` plants; otherwise nothing changes. The surviving plants keep their stage. |
| Games.BoomEvent | game/game_state.py:97-98 | A roll below 0.1 triggers a market boom; otherwise nothing changes. |
| Games.CheckRandomEvents | game/game_state.py:90-104 | Rain, boom and pest are decided by their own rolls and thresholds. Only the garden and the economy change, no plant appears, and every surviving plant keeps its stage. |
| Games.EventsIndependent | game/game_state.py:90-104 | The boom roll never affects the garden, and neither the rain nor the pest roll affects the economy. |
| Games.NewDay | game/game_state.py:58-88 | A new day advances the day and restarts the clock. Every multiplier drifts, then the random events run. Player, shop, weather, balance and milestones are kept. Surviving plants keep their stage. The crash keeps its state, and so does the boom unless the day's roll starts one. |
| Games.Tick | game/game_state.py:43-80 | Game time grows by the step and the day is kept. The garden takes exactly one `Gardens.Update` step and the economy one `Economies.Update` step, so their plant-growth and event-timer contracts carry over. Player, shop, plant positions, balance and multipliers are kept, and milestones only grow. Once the weather timer reaches 30 s the weather is re-rolled and the timer zeroed. |
| Games.Update | game/game_state.py:43-62 | Validity is kept, along with player and shop. At 30 s the weather is re-rolled and its timer zeroed; otherwise the timer grows. At 300 s the day advances and game time restarts; otherwise time grows. |
| Games.UpdateEffects | game/game_state.py:43-62 | A step keeps the balance, loses no milestone and adds no plant. The market multipliers drift only when a new day starts; otherwise every plant stays in place. |
| Games.SameDaySteps | game/game_state.py:43-51 | Within a day, a step gives the garden exactly one `Gardens.Update` step and the economy exactly one `Economies.Update` step. So every plant takes its own update and the boom and crash timers count down. |
| Games.NewDayKeepsGrowth | game/game_state.py:43-62 | When a step starts a new day, every plant left after the day's events is one the garden step kept, at the stage that step's `Plants.Update` reached. |
| Games.NewDayKeepsEvents | game/game_state.py:43-62 | When a step starts a new day, the crash flag and timer are those after the economy's own step. So are the boom flag and timer, unless the day's boom roll starts a boom. |
| Games.TimersStayInPeriod | game/game_state.py:43-62 | From timers within their periods, a non-negative step keeps them within their periods and advances the day by at most one. |
| Games.Grant | game/game_state.py:121-129 | The grant changes neither the money nor the shop, and a category matching none of the three names grants nothing. |
| Games.Purchase | game/game_state.py:114-132 | A purchase succeeds exactly when the item is known and affordable, and then costs exactly its quote. Failure changes nothing, and validity (money never negative) is kept. |
| Games.NoSingularCategory | game/game_state.py:123-129 | No shop category is named "seed", "tool" or "expansion". |
| Games.PurchaseItemAsWritten | game/game_state.py:114-132 | As written, a successful purchase takes the quoted cost but never changes the inventory, the garden or the expansion count. |
| Games.PurchaseSeedsGrantsNothing | game/game_state.py:114-132 | From the initial shop, buying carrot seeds under "seeds" succeeds and costs 10 but adds no seed, while "seed" finds no item. |
| Games.PurchaseItem | game/game_state.py:114-132 | With the shop's plural names, a purchase pays the quote and delivers one more seed, the tool owned, or one more expansion. The expansion really expands the garden through `Gardens.Expand`. |
| Games.PlantSeed | game/game_state.py:134-140 | Planting succeeds exactly with a seed in stock and a garden that accepts it. Only then is one seed used; failure changes nothing, and only garden and player change. |
| Games.PlantingEffect | game/game_state.py:134-140 | A successful planting adds exactly that position with a plant of the type, and takes exactly one seed. |
| Games.PlantingConservesSeeds | game/game_state.py:134-140 | Seeds of the type plus plants in the garden stay constant across a planting. |
| Games.WaterPlant | game/game_state.py:142-144 | Watering succeeds exactly on a plant below its need, which gains one unit; only the garden changes. |
| Games.Harvested | game/game_state.py:146-154 | The harvest credits the value, removes the plant and counts one more harvest and the earnings. |
| Games.HarvestAsWritten | game/game_state.py:146-160 | As written, a harvestable plant makes the call raise after the value was credited and the plant removed, with no mutation counted. Any other tile returns false unchanged. |
| Games.Harvest | web/js/game.js:158-174 | A harvest succeeds exactly on a harvestable plant: the value is credited, the tile emptied and a mutated plant counted. Failure changes nothing. |
| Games.HarvestAsWrittenRaises | game/game_state.py:156 | The Python harvest raises exactly when the port succeeds. It leaves the port's result minus the mutation count. |
| WebGame.InitialUi | web/js/game.js:3-42 | The game starts playing with no overlay open. |
| WebGame.Overlay | web/js/game.js:176-219 | Escape closes an open overlay and otherwise toggles pause. E, Q and H toggle their overlay and close the others, unless paused. Space asks for an interaction exactly while playing with no overlay. No key opens two overlays or shows one while paused. |
| WebGame.RunKeepsValid | web/js/game.js:176-219 | No sequence of keys opens two overlays at once or shows one while paused. |
| WebGame.EscapeUndoes | web/js/game.js:180-212 | Opening an overlay and pressing Escape returns to the plain game, and two Escapes pause and resume. |
| WebGame.Tend | web/js/game.js:250-285 | An empty plantable tile is planted with the selected seed when one is held. A harvestable plant is harvested for money. Any other plant keeps the economy, the player and the plant positions. |
| WebGame.Care | web/js/game.js:268-284 | The watering can gives a thirsty plant one unit of water and leaves a full one alone. The fertiliser spreader leaves the plant fertilised, changing nothing if it already was. Any other tool does nothing, and only the garden ever changes. |
| WebGame.HandleInteraction | web/js/game.js:245-287 | A row outside the garden throws. A column outside it, or barren soil, does nothing. A plantable tile is tended. |
| WebGame.WithGarden | web/js/game.js:245-287 | Replacing the garden by a valid one keeps the game valid. |
| WebGame.KeyDown | web/js/game.js:176-219 | Only the space bar, and only when the overlay state allows it, changes the game state. |
| WebGame.OverlayBlocksInteraction | web/js/game.js:213-217 | While an overlay is open or the game is paused, no key changes the game state. |

## Left out

- Rendering, the pygame and browser event loops, input handling and the DOM
  are presentation and plumbing, with no simulation logic. This covers
  game/renderer.py, web/js/renderer.js, game/game_loop.py,
  game/input_handler.py and web/js/main.js. It also covers the
  notifications, `handleKeyUp`, the `keysPressed` set and the mouse handlers.
- Launchers and the Cloudflare worker do process and network work only.
- The per-frame `Player.update` is left out (game/player.py:34-46). It moves
  the player by speed, clamps them to the screen and regenerates energy by
  10 per second up to the maximum. This is why `Games.Tick` and
  `Games.Update` keep the player unchanged. No modelled operation spends
  energy, since nothing in the engine calls `use_energy`.
- `get_grid_position` and `get_world_position` convert float screen
  positions to tiles and back. `handleInteraction` takes the player's grid
  tile as a parameter instead.
- The random generators themselves are not modelled. Every `random()`,
  `uniform`, `choice`, `sample` and `Math.random` draw is a parameter.
- IEEE-754 rounding is not reproduced. Progress, timers and factors are exact
  reals, so float truncation at exact integer boundaries may differ.
- Visual data is not modelled: `get_visual_properties`, colours and the size
  multiplier's effect. The multiplier is stored but never read by the logic.
- Summary and reporting getters are left out: `get_status_summary`,
  `get_garden_summary`, `get_plant_positions`, `get_plantable_positions`,
  `get_market_summary`, `get_economic_summary`, `get_balance`,
  `get_shop_summary`, `get_inventory_summary`, `get_player_position`,
  `get_selected_seed` and `get_selected_tool`. They only read state.
- `get_all_categories` / `getAllCategories` is not modelled. Python returns
  the internal list and the port a copy, a difference that cannot arise
  between immutable values.
- `clear_daily_deals` is left out; it is a plain reset of the deal map.
- `get_best_investment` is left out; it is an arg-max over prices with no
  contract the rest of the engine relies on.
- The `active_events` list is left out, because nothing reads it.
- `_get_next_milestone` builds a formatted message. `Economies.NextMilestone`
  returns the milestone's name, amount and remaining sum instead of the text.
- Games.Update: its own contract covers validity, player, shop, clocks and
  weather. The garden and economy steps are stated by separate lemmas, to keep
  each proof small:
  - `Games.SameDaySteps`: within a day, exactly one garden step and one
    economy step;
  - `Games.NewDayKeepsGrowth` and `Games.NewDayKeepsEvents`: on a new day,
    plant stages and event timers carry through the day's events;
  - `Games.UpdateEffects`: balance, milestones, multipliers and plant positions.
  On a new day, the plants' other fields after rain (water, last watering) are
  not restated at the game level; `Gardens.ApplyRain` states them.
- Economies.PlantValueJs: its contract states only the floor of 1. Its
  agreement with the Python value on every reachable economy is
  `Economies.PlantValueJsAgrees`.
- Plants.ValueJs: its contract states only the clamp at 1. Its agreement with
  the Python value is `Plants.ValueJsAgrees`.
- Shops.SortByCost: stability of the sort among equal costs is not stated.
  Only ascending order and being a permutation are proved.

## Findings

| source | as written | input that shows it | evidently intended | confidence | as-written member | corrected member |
|---|---|---|---|---|---|---|
| game/game_state.py:146-160 | `harvest_plant` ends with `if plant.is_mutated():`, but `is_mutated` is a boolean attribute, so the call raises `TypeError`. It raises after the value was credited, the plant removed and the statistics updated. | Any harvestable plant, e.g. a carrot at stage 4 at (10, 7). | Read the flag as a field, as web/js/game.js:167 does, return true, and count a mutated plant in `mutations_found`. | not executed | Games.HarvestAsWritten (with Games.HarvestAsWrittenRaises) | Games.Harvest |
| game/game_state.py:114-132 | `purchase_item` grants only when the category is `"seed"`, `"tool"` or `"expansion"`. The shop's categories are plural, so a successful purchase takes the money and grants nothing. The same code is at web/js/game.js:121-142. The browser's buy button (web/js/main.js:64 and 145-146) passes the item's display name rather than its key, so in the browser the shop lookup fails first and the purchase returns false before the category test is reached. | `purchase_item("seeds", "carrot")` from the initial state: it returns true and money drops by 10, but the seed count stays 5. `purchase_item("seed", "carrot")` returns false. | Compare with the shop's plural names, so that bought seeds and tools reach the inventory and a bought expansion expands the garden. | not executed | Games.PurchaseItemAsWritten (with Games.PurchaseSeedsGrantsNothing, Games.NoSingularCategory) | Games.PurchaseItem |

=== FILE: common.dfy ===
/** Small shared vocabulary of the farming simulation model: an optional value,
    grid coordinates, the grid dimensions, and the clamping helpers that the
    Python and JavaScript sources spell as `max(lo, min(hi, v))`. */
module Common {

  /** A value that may be missing (Python `None`, JavaScript `null`). */
  datatype Option<+T> = None | Some(value: T) {
    function GetOr(default: T): T {
      match this
      case Some(v) => v
      case None => default
    }
  }

  /** A grid position `(x, y)`; the garden stores the plant of `(x, y)` at `grid[y][x]`. */
  type Pos = (int, int)

  /** Grid dimensions in tiles (GRID_WIDTH and GRID_HEIGHT of the constants files). */
  const GridWidth: int := 20
  const GridHeight: int := 15

  predicate InBounds(x: int, y: int) {
    0 <= x < GridWidth && 0 <= y < GridHeight
  }

  function MinInt(a: int, b: int): (r: int)
    ensures r <= a && r <= b
    ensures r == a || r == b
  {
    if a <= b then a else b
  }

  function MaxInt(a: int, b: int): (r: int)
    ensures r >= a && r >= b
    ensures r == a || r == b
  {
    if a >= b then a else b
  }

  function MinReal(a: real, b: real): (r: real)
    ensures r <= a && r <= b
    ensures r == a || r == b
  {
    if a <= b then a else b
  }

  /** `max(lo, min(hi, v))`: the value clamped into `[lo, hi]`. */
  function Clamp(lo: real, hi: real, v: real): (r: real)
    requires lo <= hi
    ensures lo <= r <= hi
    ensures lo <= v <= hi ==> r == v
    ensures v < lo ==> r == lo
    ensures v > hi ==> r == hi
  {
    if hi <= v then hi else if v <= lo then lo else v
  }

  /** True when no element of `s` occurs twice. */
  predicate Distinct<T(==)>(s: seq<T>) {
    forall i, j :: 0 <= i < j < |s| ==> s[i] != s[j]
  }

  /** Scaling a non-negative amount by a factor in `[0, 1]` keeps it within `[0, amount]`. */
  lemma ScaleWithin(a: real, f: real)
    requires 0.0 <= a && 0.0 <= f <= 1.0
    ensures 0.0 <= a * f <= a
  {
    assert a * f + a * (1.0 - f) == a;
  }

  /** Appending a new element keeps a sequence duplicate-free. */
  lemma DistinctAppend<T>(s: seq<T>, x: T)
    requires Distinct(s) && x !in s
    ensures Distinct(s + [x])
  {
    forall i, j | 0 <= i < j < |s + [x]| ensures (s + [x])[i] != (s + [x])[j] {
      if j == |s| {
        assert (s + [x])[i] == s[i];
      }
    }
  }

  /** A duplicate-free sequence has as many distinct elements as it has entries. */
  lemma {:induction false} DistinctCardinality<T>(s: seq<T>)
    requires Distinct(s)
    ensures |set x | x in s| == |s|
  {
    if |s| > 0 {
      var rest := s[1..];
      assert Distinct(rest) by {
        forall i, j | 0 <= i < j < |rest| ensures rest[i] != rest[j] {
          assert rest[i] == s[i + 1] && rest[j] == s[j + 1];
        }
      }
      DistinctCardinality(rest);
      assert s[0] !in rest by {
        forall i | 0 <= i < |rest| ensures rest[i] != s[0] {
          assert rest[i] == s[i + 1];
        }
      }
      assert (set x | x in s) == (set x | x in rest) + {s[0]} by {
        assert s == [s[0]] + rest;
      }
    }
  }
}

=== FILE: economy.dfy ===
/** The market of game/economy.py and web/js/economy.js: integer money with a
    guarded spend, the harvest value of a plant under the current prices, a
    daily price drift with clamped multipliers and a bounded history, boom and
    crash events, and the milestones reached by total earnings. */
module Economies {
  import opened Common
  import Plants

  const StartingMoney: int := 100

  /** The initial `base_prices`: strawberry and sunflower are priced although
      no species record exists for them. */
  const InitialBasePrices: map<string, int> :=
    map["carrot" := 15, "tomato" := 25, "corn" := 35, "strawberry" := 50, "sunflower" := 40]

  /** The price `calculate_plant_value` falls back to for a type without one. */
  const DefaultPrice: int := 20

  const MinMultiplier: real := 0.5
  const MaxMultiplier: real := 2.0
  const MaxHistory: int := 10
  const BoomFactor: real := 1.5
  const CrashFactor: real := 0.7
  const BoomDuration: real := 60.0
  const CrashDuration: real := 45.0

  /** The milestone thresholds in ascending order, as the sources iterate them. */
  const Thresholds: seq<int> := [100, 500, 1000, 2500, 5000, 10000]

  /** The name of each threshold, position by position. */
  const MilestoneNames: seq<string> := [
    "First Harvest", "Small Farmer", "Established Gardener",
    "Plant Master", "Garden Empire", "Plant Legend"]

  datatype Economy = Economy(
    money: int,
    totalEarned: int,
    totalSpent: int,
    basePrices: map<string, int>,
    currentPrices: map<string, int>,
    multipliers: map<string, real>,
    history: map<string, seq<int>>,
    boom: bool,
    boomTimer: real,
    crash: bool,
    crashTimer: real,
    achieved: set<int>)

  /** The price with no event applied: `int(base * multiplier)`. */
  function NormalPrice(base: int, multiplier: real): (p: int)
    requires base >= 15 && MinMultiplier <= multiplier
    ensures p >= 7
  {
    Plants.MulMonotone(MinMultiplier, multiplier, base as real);
    (base as real * multiplier).Floor
  }

  /** Every price table is keyed by the priced types, base prices are at least
      15 and multipliers stay in `[0.5, 2.0]`. */
  predicate Tables(e: Economy) {
    && e.currentPrices.Keys == e.basePrices.Keys
    && e.multipliers.Keys == e.basePrices.Keys
    && e.history.Keys == e.basePrices.Keys
    && (forall t :: t in e.basePrices ==> e.basePrices[t] >= 15)
    && (forall t :: t in e.multipliers ==> MinMultiplier <= e.multipliers[t] <= MaxMultiplier)
  }

  /** The price of `t` with no event applied. */
  function NormalPriceOf(e: Economy, t: string): (p: int)
    requires Tables(e) && t in e.basePrices
    ensures p >= 7
  {
    NormalPrice(e.basePrices[t], e.multipliers[t])
  }

  /** Each history holds at most ten entries and ends with the normal price. */
  predicate Histories(e: Economy)
    requires Tables(e)
  {
    forall t :: t in e.history ==>
      && |e.history[t]| <= MaxHistory
      && (|e.history[t]| > 0 ==> e.history[t][|e.history[t]| - 1] == NormalPriceOf(e, t))
  }

  /** What every reachable economy satisfies: the tables are consistent, the
      histories bounded, prices never fall below 7 (4 during a crash), so a
      price is never 0, and only real thresholds are achieved. */
  predicate Valid(e: Economy) {
    && Tables(e)
    && Histories(e)
    && (forall t :: t in e.currentPrices ==> e.currentPrices[t] >= (if e.crash then 4 else 7))
    && (forall m :: m in e.achieved ==> m in Thresholds)
  }

  /** `Economy.__init__`. Its properties are stated by `InitialState`. */
  function Initial(): Economy {
    Economy(StartingMoney, 0, 0, InitialBasePrices, InitialBasePrices,
      map t | t in InitialBasePrices :: 1.0, map t | t in InitialBasePrices :: [],
      false, 0.0, false, 0.0, {})
  }

  /** The economy starts valid with 100 coins, nothing earned or spent, the
      base prices current, neutral multipliers, empty histories, no boom or
      crash and no milestone reached. */
  lemma InitialState()
    ensures Valid(Initial())
    ensures Initial().money == StartingMoney && Initial().totalEarned == 0 && Initial().totalSpent == 0
    ensures Initial().basePrices == Initial().currentPrices == InitialBasePrices
    ensures !Initial().boom && !Initial().crash && Initial().achieved == {}
    ensures forall t :: t in Initial().basePrices ==> Initial().multipliers[t] == 1.0 && Initial().history[t] == []
  {
  }

  // ---------------------------------------------------------------- money

  /** `add_money`: unconditional, credited to both the balance and the earnings. */
  function AddMoney(e: Economy, amount: int): (r: Economy)
    ensures r.money - e.money == amount && r.totalEarned - e.totalEarned == amount
    ensures r.(money := e.money, totalEarned := e.totalEarned) == e
    ensures Valid(e) ==> Valid(r)
  {
    e.(money := e.money + amount, totalEarned := e.totalEarned + amount)
  }

  /** `can_afford`: paying would leave no debt; anything free is affordable
      from a non-negative balance. */
  predicate CanAfford(e: Economy, cost: int)
    ensures CanAfford(e, cost) ==> e.money - cost >= 0
    ensures e.money >= 0 && cost <= 0 ==> CanAfford(e, cost)
  {
    e.money >= cost
  }

  /** `spend_money`: succeeds exactly when the balance covers the amount. */
  function SpendMoney(e: Economy, amount: int): (res: (Economy, bool))
    ensures res.1 <==> CanAfford(e, amount)
    ensures !res.1 ==> res.0 == e
    ensures res.1 ==> res.0.money == e.money - amount && res.0.totalSpent == e.totalSpent + amount
    ensures res.0.(money := e.money, totalSpent := e.totalSpent) == e
    ensures e.money >= 0 ==> res.0.money >= 0
    ensures Valid(e) ==> Valid(res.0)
  {
    if e.money >= amount then
      (e.(money := e.money - amount, totalSpent := e.totalSpent + amount), true)
    else
      (e, false)
  }

  /** Spending what was just earned always succeeds and restores the balance. */
  lemma EarnThenSpend(e: Economy, amount: int)
    requires e.money >= 0 && amount >= 0
    ensures SpendMoney(AddMoney(e, amount), amount).1
    ensures SpendMoney(AddMoney(e, amount), amount).0.money == e.money
    ensures SpendMoney(AddMoney(e, amount), amount).0
      == e.(totalEarned := e.totalEarned + amount, totalSpent := e.totalSpent + amount)
  {
  }

  // ---------------------------------------------------------- harvest value

  /** `current_prices.get(plant_type, 20)`. */
  function PriceOf(e: Economy, plantType: string): (p: int)
    ensures plantType in e.currentPrices ==> p == e.currentPrices[plantType]
    ensures plantType !in e.currentPrices ==> p == DefaultPrice
    ensures Valid(e) ==> p >= 4
  {
    if plantType in e.currentPrices then e.currentPrices[plantType] else DefaultPrice
  }

  /** `currentPrices[plantType] || 20`: the fallback also fires for a price of 0. */
  function PriceOfJs(e: Economy, plantType: string): (p: int)
    ensures plantType in e.currentPrices && e.currentPrices[plantType] != 0 ==> p == e.currentPrices[plantType]
    ensures plantType !in e.currentPrices || e.currentPrices[plantType] == 0 ==> p == DefaultPrice
  {
    if plantType in e.currentPrices && e.currentPrices[plantType] != 0 then e.currentPrices[plantType]
    else DefaultPrice
  }

  /** The care bonus of `calculate_plant_value`: +0.2 fertilised, +0.1 at full water. */
  function MarketCare(p: Plants.Plant): real {
    1.0 + (if p.fertilized then 0.2 else 0.0) + (if p.water >= p.maxWater then 0.1 else 0.0)
  }

  /** The value before the market condition: price, stage bonus, mutation
      doubling and care bonus. */
  function BaseValue(price: int, p: Plants.Plant): real {
    price as real * (1.0 + 0.1 * p.stage as real) * (if p.isMutated then 2.0 else 1.0) * MarketCare(p)
  }

  /** The market condition: a boom takes precedence over a crash. */
  function MarketAdjusted(e: Economy, v: real): int {
    if e.boom then (v * BoomFactor).Floor
    else if e.crash then (v * CrashFactor).Floor
    else v.Floor
  }

  /** `calculate_plant_value` of game/economy.py. */
  function PlantValue(e: Economy, p: Plants.Plant): (v: int)
    ensures v >= 1
    ensures v > 1 ==> v == MarketAdjusted(e, BaseValue(PriceOf(e, p.plantType), p))
  {
    MaxInt(1, MarketAdjusted(e, BaseValue(PriceOf(e, p.plantType), p)))
  }

  /** `calculatePlantValue` of web/js/economy.js. */
  function PlantValueJs(e: Economy, p: Plants.Plant): (v: int)
    ensures v >= 1
  {
    MaxInt(1, MarketAdjusted(e, BaseValue(PriceOfJs(e, p.plantType), p)))
  }

  /** A type without a price is valued as if it cost 20. */
  lemma UnpricedUsesDefault(e: Economy, p: Plants.Plant)
    requires p.plantType !in e.currentPrices
    ensures PlantValue(e, p) == PlantValue(e.(currentPrices := e.currentPrices[p.plantType := DefaultPrice]), p)
  {
  }

  /** The two value functions agree on every reachable economy, where no price is 0. */
  lemma PlantValueJsAgrees(e: Economy, p: Plants.Plant)
    requires Valid(e)
    ensures PlantValueJs(e, p) == PlantValue(e, p)
  {
    if p.plantType in e.currentPrices {
      assert e.currentPrices[p.plantType] >= 4;
    }
  }

  /** With both events active the value sees the boom factor only. */
  lemma BoomBeatsCrash(e: Economy, p: Plants.Plant)
    requires e.boom
    ensures PlantValue(e, p) == PlantValue(e.(crash := false), p)
    ensures PlantValue(e, p) == MaxInt(1, (BaseValue(PriceOf(e, p.plantType), p) * BoomFactor).Floor)
  {
  }

  lemma FloorMonotone(a: real, b: real)
    requires a <= b
    ensures a.Floor <= b.Floor
  {
  }

  /** The market condition preserves the order of values. */
  lemma MarketAdjustedMonotone(e: Economy, a: real, b: real)
    requires a <= b
    ensures MarketAdjusted(e, a) <= MarketAdjusted(e, b)
  {
    Plants.MulMonotone(a, b, BoomFactor);
    Plants.MulMonotone(a, b, CrashFactor);
    FloorMonotone(a * BoomFactor, b * BoomFactor);
    FloorMonotone(a * CrashFactor, b * CrashFactor);
    FloorMonotone(a, b);
  }

  /** A riper plant is never worth less, other things equal. */
  lemma PlantValueMonotoneInStage(e: Economy, p: Plants.Plant, stage: int)
    requires PriceOf(e, p.plantType) >= 0 && 0 <= p.stage <= stage
    ensures PlantValue(e, p) <= PlantValue(e, p.(stage := stage))
  {
    var q := p.(stage := stage);
    BaseValueMonotone(PriceOf(e, p.plantType), p, q);
    MarketAdjustedMonotone(e, BaseValue(PriceOf(e, p.plantType), p), BaseValue(PriceOf(e, p.plantType), q));
  }

  /** At a fixed price, two plants that differ only in stage are valued in
      stage order. */
  lemma BaseValueMonotone(price: int, p: Plants.Plant, q: Plants.Plant)
    requires price >= 0 && p.stage <= q.stage && q == p.(stage := q.stage)
    ensures BaseValue(price, p) <= BaseValue(price, q)
  {
    var m, c := if p.isMutated then 2.0 else 1.0, MarketCare(p);
    var s, t := 1.0 + 0.1 * p.stage as real, 1.0 + 0.1 * q.stage as real;
    Plants.ProductMonotone(price as real, s, t, m, c);
  }

  // ----------------------------------------------------------- price drift

  /** `uniform(-0.1, 0.1)` for a draw `u` of `random()`. */
  function PyFluctuation(u: real): (f: real)
    requires 0.0 <= u < 1.0
    ensures -0.1 <= f < 0.1
  {
    -0.1 + (0.1 - -0.1) * u
  }

  /** `(Math.random() - 0.5) * 0.2`. */
  function JsFluctuation(r: real): (f: real)
    requires 0.0 <= r < 1.0
    ensures -0.1 <= f < 0.1
  {
    (r - 0.5) * 0.2
  }

  /** In exact arithmetic the two ports draw the same fluctuation from the same roll. */
  lemma FluctuationsAgree(u: real)
    requires 0.0 <= u < 1.0
    ensures PyFluctuation(u) == JsFluctuation(u)
  {
  }

  /** Appending to a history, dropping the oldest entry beyond ten. */
  function Push(h: seq<int>, v: int): (r: seq<int>)
    requires |h| <= MaxHistory
    ensures |r| == MinInt(MaxHistory, |h| + 1)
    ensures r[|r| - 1] == v
    ensures forall i :: 0 <= i < |r| - 1 ==> r[i] == h[|h| + 1 - |r| + i]
  {
    if |h| + 1 > MaxHistory then (h + [v])[1..] else h + [v]
  }

  /** One multiplier's daily move: shifted by the fluctuation and clamped. */
  function Drift(m: real, f: real): (r: real)
    ensures MinMultiplier <= r <= MaxMultiplier
    ensures MinMultiplier <= m + f <= MaxMultiplier ==> r == m + f
    ensures MinMultiplier <= m <= MaxMultiplier && f >= 0.0 ==> m <= r
    ensures MinMultiplier <= m <= MaxMultiplier && f <= 0.0 ==> r <= m
  {
    Clamp(MinMultiplier, MaxMultiplier, m + f)
  }

  /** The prices with no event applied. */
  function NormalPrices(e: Economy): (prices: map<string, int>)
    requires Tables(e)
    ensures prices.Keys == e.basePrices.Keys
    ensures forall t :: t in prices ==> prices[t] == NormalPriceOf(e, t) && prices[t] >= 7
  {
    map t | t in e.basePrices :: NormalPriceOf(e, t)
  }

  /** Each history with its new price pushed. */
  function PushAll(history: map<string, seq<int>>, prices: map<string, int>): (r: map<string, seq<int>>)
    requires history.Keys == prices.Keys
    requires forall t :: t in history ==> |history[t]| <= MaxHistory
    ensures r.Keys == history.Keys
    ensures forall t :: t in r ==> r[t] == Push(history[t], prices[t])
  {
    map t | t in history :: Push(history[t], prices[t])
  }

  /** The second half of `update_market_prices`: every price recomputed from
      its base and multiplier and appended to its history. */
  function RecordPrices(e: Economy): (r: Economy)
    requires Tables(e) && forall t :: t in e.history ==> |e.history[t]| <= MaxHistory
    ensures r.basePrices == e.basePrices && r.multipliers == e.multipliers
    ensures Tables(r) && Histories(r)
    ensures forall t :: t in r.currentPrices ==> r.currentPrices[t] >= 7
    ensures forall t :: t in e.basePrices ==>
      && r.currentPrices[t] == NormalPriceOf(e, t)
      && r.history[t] == Push(e.history[t], r.currentPrices[t])
    ensures r.(currentPrices := e.currentPrices, history := e.history) == e
  {
    var prices := NormalPrices(e);
    var r := e.(currentPrices := prices, history := PushAll(e.history, prices));
    assert Tables(r);
    assert Histories(r) by {
      forall t | t in r.history
        ensures |r.history[t]| <= MaxHistory
        ensures |r.history[t]| > 0 ==> r.history[t][|r.history[t]| - 1] == NormalPriceOf(r, t)
      {
        assert r.history[t] == Push(e.history[t], prices[t]);
        assert NormalPriceOf(r, t) == NormalPriceOf(e, t);
      }
    }
    r
  }

  /** `update_market_prices`: each priced type's multiplier drifts by
      `fluctuation(t)`, its price is recomputed from the base and recorded in
      its history. Any boom or crash scaling is overwritten. */
  function UpdateMarketPrices(e: Economy, fluctuation: string -> real): (r: Economy)
    requires Valid(e)
    ensures Valid(r) && r.basePrices == e.basePrices
    ensures forall t :: t in e.basePrices ==>
      && r.multipliers[t] == Drift(e.multipliers[t], fluctuation(t))
      && r.currentPrices[t] == NormalPriceOf(r, t)
      && r.history[t] == Push(e.history[t], r.currentPrices[t])
    ensures r.(currentPrices := e.currentPrices, multipliers := e.multipliers, history := e.history) == e
  {
    var mult := map t | t in e.basePrices :: Drift(e.multipliers[t], fluctuation(t));
    var r0 := e.(multipliers := mult);
    assert Tables(r0);
    RecordPrices(r0)
  }

  /** `get_price_trend`: the direction of the last recorded change. */
  datatype Trend = Rising | Falling | Stable

  /** `get_price_trend`: the sign of the last change in the price history;
      stable with fewer than two recorded prices. */
  function PriceTrend(e: Economy, t: string): (tr: Trend)
    ensures tr != Stable ==> t in e.history && |e.history[t]| >= 2
    ensures tr == Rising <==>
      t in e.history && |e.history[t]| >= 2 && e.history[t][|e.history[t]| - 1] > e.history[t][|e.history[t]| - 2]
    ensures tr == Falling <==>
      t in e.history && |e.history[t]| >= 2 && e.history[t][|e.history[t]| - 1] < e.history[t][|e.history[t]| - 2]
  {
    if t !in e.history || |e.history[t]| < 2 then Stable
    else
      var h := e.history[t];
      var change := h[|h| - 1] - h[|h| - 2];
      if change > 0 then Rising else if change < 0 then Falling else Stable
  }

  /** After a push onto a non-empty history the previous newest entry is second to last. */
  lemma PushKeepsPrevious(h: seq<int>, v: int)
    requires 1 <= |h| <= MaxHistory
    ensures |Push(h, v)| >= 2 && Push(h, v)[|Push(h, v)| - 2] == h[|h| - 1]
  {
  }

  /** A larger multiplier never gives a smaller normal price. */
  lemma NormalPriceMonotone(base: int, m0: real, m1: real)
    requires base >= 15 && MinMultiplier <= m0 <= m1
    ensures NormalPrice(base, m0) <= NormalPrice(base, m1)
  {
    Plants.MulMonotone(m0, m1, base as real);
    FloorMonotone(base as real * m0, base as real * m1);
  }

  /** Once a type has a history, an upward drift never reads as falling and a
      downward drift never reads as rising: the recorded price follows the
      multiplier through the floor. */
  lemma TrendFollowsDrift(e: Economy, fluctuation: string -> real, t: string)
    requires Valid(e) && t in e.basePrices && |e.history[t]| >= 1
    ensures fluctuation(t) >= 0.0 ==> PriceTrend(UpdateMarketPrices(e, fluctuation), t) != Falling
    ensures fluctuation(t) <= 0.0 ==> PriceTrend(UpdateMarketPrices(e, fluctuation), t) != Rising
  {
    var r := UpdateMarketPrices(e, fluctuation);
    var h0 := e.history[t];
    PushKeepsPrevious(h0, r.currentPrices[t]);
    var h := r.history[t];
    assert h[|h| - 1] == NormalPrice(e.basePrices[t], r.multipliers[t]);
    assert h[|h| - 2] == NormalPrice(e.basePrices[t], e.multipliers[t]);
    if fluctuation(t) >= 0.0 {
      NormalPriceMonotone(e.basePrices[t], e.multipliers[t], r.multipliers[t]);
    }
    if fluctuation(t) <= 0.0 {
      NormalPriceMonotone(e.basePrices[t], r.multipliers[t], e.multipliers[t]);
    }
  }

  // ---------------------------------------------------------- boom and crash

  function Scaled(prices: map<string, int>, factor: real): (r: map<string, int>)
    ensures r.Keys == prices.Keys
    ensures forall t :: t in prices ==> r[t] == (prices[t] as real * factor).Floor
  {
    map t | t in prices :: (prices[t] as real * factor).Floor
  }

  /** `trigger_market_boom`: once per boom, every price scaled by 1.5 and floored. */
  function TriggerBoom(e: Economy): (r: Economy)
    requires Valid(e)
    ensures Valid(r)
    ensures e.boom ==> r == e
    ensures !e.boom ==> r.boom && r.boomTimer == BoomDuration
    ensures r.currentPrices.Keys == e.currentPrices.Keys
    ensures !e.boom ==> forall t :: t in e.currentPrices ==>
      r.currentPrices[t] == (e.currentPrices[t] as real * BoomFactor).Floor && r.currentPrices[t] >= e.currentPrices[t]
    ensures r.(boom := e.boom, boomTimer := e.boomTimer, currentPrices := e.currentPrices) == e
  {
    if e.boom then e
    else
      var r := e.(boom := true, boomTimer := BoomDuration, currentPrices := Scaled(e.currentPrices, BoomFactor));
      assert forall t :: t in e.currentPrices ==> r.currentPrices[t] >= e.currentPrices[t];
      r
  }

  /** `trigger_market_crash`: once per crash, every price scaled by 0.7 and floored. */
  function TriggerCrash(e: Economy): (r: Economy)
    requires Valid(e)
    ensures Valid(r)
    ensures e.crash ==> r == e
    ensures !e.crash ==> r.crash && r.crashTimer == CrashDuration
    ensures r.currentPrices.Keys == e.currentPrices.Keys
    ensures !e.crash ==> forall t :: t in e.currentPrices ==>
      r.currentPrices[t] == (e.currentPrices[t] as real * CrashFactor).Floor && r.currentPrices[t] <= e.currentPrices[t]
    ensures r.(crash := e.crash, crashTimer := e.crashTimer, currentPrices := e.currentPrices) == e
  {
    if e.crash then e
    else
      var r := e.(crash := true, crashTimer := CrashDuration, currentPrices := Scaled(e.currentPrices, CrashFactor));
      assert forall t :: t in e.currentPrices ==> r.currentPrices[t] >= 4 by {
        forall t | t in e.currentPrices ensures r.currentPrices[t] >= 4 {
          Plants.MulMonotone(7.0, e.currentPrices[t] as real, CrashFactor);
        }
      }
      r
  }

  /** `_end_market_boom`: prices return to base times multiplier, which also
      drops the scaling of a crash that is still running. */
  function EndBoom(e: Economy): (r: Economy)
    requires Valid(e)
    ensures Valid(r) && !r.boom && r.boomTimer == 0.0
    ensures r.currentPrices == NormalPrices(e)
    ensures r.(boom := e.boom, boomTimer := e.boomTimer, currentPrices := e.currentPrices) == e
  {
    e.(boom := false, boomTimer := 0.0, currentPrices := NormalPrices(e))
  }

  /** `_end_market_crash`: prices return to base times multiplier, which also
      drops the scaling of a boom that is still running. */
  function EndCrash(e: Economy): (r: Economy)
    requires Valid(e)
    ensures Valid(r) && !r.crash && r.crashTimer == 0.0
    ensures r.currentPrices == NormalPrices(e)
    ensures r.(crash := e.crash, crashTimer := e.crashTimer, currentPrices := e.currentPrices) == e
  {
    e.(crash := false, crashTimer := 0.0, currentPrices := NormalPrices(e))
  }

  /** Triggering twice is triggering once. */
  lemma TriggersIdempotent(e: Economy)
    requires Valid(e)
    ensures TriggerBoom(TriggerBoom(e)) == TriggerBoom(e)
    ensures TriggerCrash(TriggerCrash(e)) == TriggerCrash(e)
  {
  }

  /** A boom that starts and ends from normal prices leaves the market as it was. */
  lemma BoomRoundTrip(e: Economy)
    requires Valid(e) && !e.boom && e.currentPrices == NormalPrices(e)
    ensures EndBoom(TriggerBoom(e)) == e.(boomTimer := 0.0)
  {
  }

  /** A crash that starts and ends from normal prices leaves the market as it was. */
  lemma CrashRoundTrip(e: Economy)
    requires Valid(e) && !e.crash && e.currentPrices == NormalPrices(e)
    ensures EndCrash(TriggerCrash(e)) == e.(crashTimer := 0.0)
  {
  }

  // --------------------------------------------------------------- milestones

  /** The `_check_milestones` loop over `thresholds`: each threshold reached is
      added once. */
  function AddReached(achieved: set<int>, earned: int, thresholds: seq<int>): (r: set<int>)
    ensures r == achieved + set m | m in thresholds && m <= earned
    decreases |thresholds|
  {
    if thresholds == [] then achieved
    else
      var m := thresholds[0];
      var next := if earned >= m && m !in achieved then achieved + {m} else achieved;
      AddReached(next, earned, thresholds[1..])
  }

  /** `_check_milestones`. */
  function CheckMilestones(e: Economy): (r: Economy)
    ensures r.achieved == e.achieved + set m | m in Thresholds && m <= e.totalEarned
    ensures e.achieved <= r.achieved
    ensures r.(achieved := e.achieved) == e
    ensures Valid(e) ==> Valid(r)
  {
    e.(achieved := AddReached(e.achieved, e.totalEarned, Thresholds))
  }

  /** The boom half of `update`: the timer counts down and the boom ends at 0. */
  function CountDownBoom(e: Economy, dt: real): (r: Economy)
    requires Valid(e)
    ensures Valid(r)
    ensures r.boom <==> e.boom && e.boomTimer - dt > 0.0
    ensures e.boom && !r.boom ==> r.currentPrices == NormalPrices(e)
    ensures !e.boom ==> r == e
    ensures r.boom ==> r.boomTimer == e.boomTimer - dt
    ensures e.boom && !r.boom ==> r.boomTimer == 0.0
    ensures !(e.boom && !r.boom) ==> r.currentPrices == e.currentPrices
    ensures r.(boom := e.boom, boomTimer := e.boomTimer, currentPrices := e.currentPrices) == e
    ensures r.crash == e.crash && r.money == e.money && r.totalEarned == e.totalEarned && r.totalSpent == e.totalSpent
    ensures r.basePrices == e.basePrices && r.multipliers == e.multipliers && r.achieved == e.achieved
  {
    if !e.boom then e
    else
      var counted := e.(boomTimer := e.boomTimer - dt);
      if counted.boomTimer <= 0.0 then EndBoom(counted) else counted
  }

  /** The crash half of `update`: the timer counts down and the crash ends at 0. */
  function CountDownCrash(e: Economy, dt: real): (r: Economy)
    requires Valid(e)
    ensures Valid(r)
    ensures r.crash <==> e.crash && e.crashTimer - dt > 0.0
    ensures e.crash && !r.crash ==> r.currentPrices == NormalPrices(e)
    ensures !e.crash ==> r == e
    ensures r.crash ==> r.crashTimer == e.crashTimer - dt
    ensures e.crash && !r.crash ==> r.crashTimer == 0.0
    ensures !(e.crash && !r.crash) ==> r.currentPrices == e.currentPrices
    ensures r.(crash := e.crash, crashTimer := e.crashTimer, currentPrices := e.currentPrices) == e
    ensures r.boom == e.boom && r.money == e.money && r.totalEarned == e.totalEarned && r.totalSpent == e.totalSpent
    ensures r.basePrices == e.basePrices && r.multipliers == e.multipliers && r.achieved == e.achieved
  {
    if !e.crash then e
    else
      var counted := e.(crashTimer := e.crashTimer - dt);
      if counted.crashTimer <= 0.0 then EndCrash(counted) else counted
  }

  /** `update`: each running event counts down and ends once its timer reaches 0;
      then the milestones are checked. */
  function Update(e: Economy, dt: real): (r: Economy)
    requires Valid(e)
    ensures Valid(r)
    ensures r.boom <==> e.boom && e.boomTimer - dt > 0.0
    ensures r.crash <==> e.crash && e.crashTimer - dt > 0.0
    ensures (e.boom && !r.boom) || (e.crash && !r.crash) ==> r.currentPrices == NormalPrices(e)
    ensures e.achieved <= r.achieved
    ensures forall m :: m in Thresholds && m <= r.totalEarned ==> m in r.achieved
    ensures r.money == e.money && r.totalEarned == e.totalEarned && r.totalSpent == e.totalSpent
    ensures r.basePrices == e.basePrices && r.multipliers == e.multipliers
    ensures r.boom ==> r.boomTimer == e.boomTimer - dt
    ensures r.crash ==> r.crashTimer == e.crashTimer - dt
    ensures e.boom && !r.boom ==> r.boomTimer == 0.0
    ensures e.crash && !r.crash ==> r.crashTimer == 0.0
    ensures !e.boom ==> r.boomTimer == e.boomTimer
    ensures !e.crash ==> r.crashTimer == e.crashTimer
    ensures !((e.boom && !r.boom) || (e.crash && !r.crash)) ==> r.currentPrices == e.currentPrices
    ensures r.achieved == e.achieved + set m | m in Thresholds && m <= e.totalEarned
    ensures r.(boom := e.boom, boomTimer := e.boomTimer, crash := e.crash, crashTimer := e.crashTimer,
               currentPrices := e.currentPrices, achieved := e.achieved) == e
  {
    var e1 := CountDownBoom(e, dt);
    var e2 := CountDownCrash(e1, dt);
    assert NormalPrices(e1) == NormalPrices(e);
    CheckMilestones(e2)
  }

  /** A boom started from a calm market survives one step of `dt` exactly when
      `dt` is shorter than its 60 seconds, and a crash likewise for 45 seconds. */
  lemma EventsLastTheirDuration(e: Economy, dt: real)
    requires Valid(e) && !e.boom && !e.crash
    ensures Update(TriggerBoom(e), dt).boom <==> dt < BoomDuration
    ensures Update(TriggerCrash(e), dt).crash <==> dt < CrashDuration
    ensures dt < BoomDuration ==> Update(TriggerBoom(e), dt).boomTimer == BoomDuration - dt
    ensures dt < CrashDuration ==> Update(TriggerCrash(e), dt).crashTimer == CrashDuration - dt
  {
  }

  /** True when `s` is strictly ascending, as the sorted thresholds are. */
  predicate Ascending(s: seq<int>) {
    forall i, j :: 0 <= i < j < |s| ==> s[i] < s[j]
  }

  /** What `_get_next_milestone` reports: the next threshold with its name and
      the amount still to earn, or that every threshold is reached. */
  datatype NextGoal = Goal(name: string, amount: int, remaining: int) | AllAchieved

  /** The first index from `i` on whose threshold is above `earned`. */
  function FirstAbove(earned: int, i: nat): (r: Option<nat>)
    requires i <= |Thresholds|
    ensures r.Some? ==> i <= r.value < |Thresholds| && Thresholds[r.value] > earned
    ensures r.Some? ==> forall j :: i <= j < r.value ==> Thresholds[j] <= earned
    ensures r.None? ==> forall j :: i <= j < |Thresholds| ==> Thresholds[j] <= earned
    decreases |Thresholds| - i
  {
    if i == |Thresholds| then None
    else if Thresholds[i] > earned then Some(i)
    else FirstAbove(earned, i + 1)
  }

  function NextMilestone(e: Economy): (g: NextGoal)
    ensures g.AllAchieved? <==> forall m :: m in Thresholds ==> m <= e.totalEarned
    ensures g.Goal? ==> g.amount in Thresholds && g.amount > e.totalEarned
    ensures g.Goal? ==> g.remaining == g.amount - e.totalEarned > 0
    ensures g.Goal? ==> exists k :: 0 <= k < |Thresholds| && Thresholds[k] == g.amount && MilestoneNames[k] == g.name
    ensures g.Goal? ==> forall m :: m in Thresholds && m > e.totalEarned ==> g.amount <= m
  {
    assert Ascending(Thresholds);
    match FirstAbove(e.totalEarned, 0)
    case None => AllAchieved
    case Some(k) =>
      assert Thresholds[k] in Thresholds;
      Goal(MilestoneNames[k], Thresholds[k], Thresholds[k] - e.totalEarned)
  }
}

=== FILE: game_state.dfy ===
/** The orchestration of game/game_state.py, ported to web/js/game.js: the
    state that ties player, garden, shop and economy together, the weather and
    day timers with their random events, and the purchase, planting and
    harvest actions. Every random draw is a field of `Rolls`. */
module Games {
  import opened Common
  import Plants
  import Gardens
  import Economies
  import Shops
  import Players

  datatype Weather = Sunny | Cloudy | Rainy

  datatype GameState = GameState(
    gameTime: real,
    day: int,
    player: Players.Player,
    garden: Gardens.Garden,
    shop: Shops.Shop,
    economy: Economies.Economy,
    unlockedPlants: seq<string>,
    unlockedTools: seq<string>,
    gardenExpansions: int,
    weather: Weather,
    weatherTimer: real,
    plantsHarvested: int,
    totalEarnings: int,
    mutationsFound: int)

  /** Seconds between weather re-rolls, and the length of a day. */
  const WeatherPeriod: real := 30.0
  const DayLength: real := 300.0

  /** Chances of the three random events a new day may bring. */
  const RainChance: real := 0.3
  const BoomChance: real := 0.1
  const PestChance: real := 0.05

  /** The random draws one `update` may make. `growth(pos)` is the mutation
      roll of the plant at `pos`, `fluctuation(t)` the daily price drift of
      type `t`, and `pestPicks` the positions `random.sample` picks. */
  datatype Rolls = Rolls(
    growth: Pos -> real,
    weather: real,
    fluctuation: string -> real,
    rain: real,
    boom: real,
    pest: real,
    pestPicks: seq<Pos>)

  /** The pest positions are a genuine sample of the garden's plants. */
  predicate PicksFit(gs: GameState, rolls: Rolls) {
    Gardens.IsSample(rolls.pestPicks, gs.garden.plants.Keys, MinInt(3, |gs.garden.plants|))
  }

  /** What every reachable state satisfies: each part is valid, the shop keeps
      its catalogue, the earnings statistic is the economy's, the balance is
      the starting money plus earnings minus spending and never negative, and
      mutated harvests are counted among all harvests. */
  ghost predicate Valid(gs: GameState) {
    && Players.Valid(gs.player)
    && Gardens.Valid(gs.garden)
    && Shops.Valid(gs.shop)
    && Economies.Valid(gs.economy)
    && gs.shop.items.Keys == Shops.Categories
    && gs.totalEarnings == gs.economy.totalEarned
    && gs.economy.money == Economies.StartingMoney + gs.economy.totalEarned - gs.economy.totalSpent
    && gs.economy.money >= 0
    && 0 <= gs.mutationsFound <= gs.plantsHarvested
    && gs.day >= 1
  }

  /** `GameState.__init__`. Its properties are stated by `InitialState`. */
  function Initial(): GameState {
    GameState(0.0, 1, Players.Initial(), Gardens.Initial(), Shops.Initial(), Economies.Initial(),
      ["carrot"], ["basic_watering_can"], 1, Sunny, 0.0, 0, 0, 0)
  }

  /** A new game is valid: day 1 at time 0, sunny, every part in its initial
      state, 100 coins, one garden expansion and no statistics yet. */
  lemma InitialState()
    ensures Valid(Initial())
    ensures Initial().day == 1 && Initial().gameTime == 0.0 && Initial().weather == Sunny && Initial().weatherTimer == 0.0
    ensures Initial().economy.money == 100 && Initial().player.seeds == map["carrot" := 5]
    ensures Initial().garden.plants == map[] && Initial().gardenExpansions == 1
    ensures Initial().plantsHarvested == 0 && Initial().totalEarnings == 0 && Initial().mutationsFound == 0
    ensures Initial().shop == Shops.Initial()
  {
    Shops.CatalogueCategories();
    Players.InitialState();
    Gardens.InitialState();
    Shops.InitialState();
    Economies.InitialState();
  }

  // ------------------------------------------------------------------ weather

  /** The weather table in iteration order with each weather's chance. */
  const Chances: seq<(Weather, real)> := [(Sunny, 0.6), (Cloudy, 0.25), (Rainy, 0.15)]

  /** The sum of the chances in a weather table. */
  function Total(chances: seq<(Weather, real)>): (t: real)
    ensures (forall i :: 0 <= i < |chances| ==> chances[i].1 >= 0.0) ==> t >= 0.0
    decreases |chances|
  {
    if chances == [] then 0.0 else chances[0].1 + Total(chances[1..])
  }

  /** The cumulative walk of `_update_weather`: the first weather whose
      running total reaches `r`, if any. */
  function Pick(chances: seq<(Weather, real)>, cumulative: real, r: real): (w: Option<Weather>)
    ensures w.Some? ==> exists i :: 0 <= i < |chances| && chances[i].0 == w.value
    ensures |chances| > 0 && r <= cumulative + chances[0].1 ==> w == Some(chances[0].0)
    ensures |chances| > 0 && (forall i :: 0 <= i < |chances| ==> chances[i].1 >= 0.0) ==>
      (w.None? <==> r > cumulative + Total(chances))
    decreases |chances|
  {
    if chances == [] then None
    else
      var total := cumulative + chances[0].1;
      if r <= total then Some(chances[0].0) else Pick(chances[1..], total, r)
  }

  /** `_update_weather` with roll `r`: sunny up to 0.6, cloudy up to 0.85,
      rainy up to 1.0; a roll beyond the table keeps the current weather. */
  function SampleWeather(current: Weather, r: real): (w: Weather)
    ensures w == Sunny <==> r <= 0.6 || (r > 1.0 && current == Sunny)
    ensures w == Cloudy <==> (0.6 < r <= 0.85) || (r > 1.0 && current == Cloudy)
    ensures w == Rainy <==> (0.85 < r <= 1.0) || (r > 1.0 && current == Rainy)
  {
    Pick(Chances, 0.0, r).GetOr(current)
  }

  // ------------------------------------------------------------------ events and timers

  /** A state that keeps the player, the shop, the statistics and the books
      of a valid state, with a valid garden and economy, is valid. */
  lemma ValidFrame(gs: GameState, r: GameState)
    requires Valid(gs) && Gardens.Valid(r.garden) && Economies.Valid(r.economy)
    requires r.player == gs.player && r.shop == gs.shop && r.day >= gs.day
    requires r.plantsHarvested == gs.plantsHarvested && r.mutationsFound == gs.mutationsFound
    requires r.totalEarnings == gs.totalEarnings
    requires r.economy.money == gs.economy.money && r.economy.totalEarned == gs.economy.totalEarned
    requires r.economy.totalSpent == gs.economy.totalSpent
    ensures Valid(r)
  {
  }

  /** Validity survives a new player and garden, both valid, with
      everything else kept. */
  lemma ValidWithPlayer(gs: GameState, r: GameState)
    requires Valid(gs) && Players.Valid(r.player) && Gardens.Valid(r.garden)
    requires r == gs.(player := r.player, garden := r.garden)
    ensures Valid(r)
  {
  }

  /** The rain event: on a rainy day a roll below 0.3 brings rain. */
  function RainEvent(g: Gardens.Garden, weather: Weather, roll: real): (r: Gardens.Garden)
    requires Gardens.Valid(g)
    ensures Gardens.Valid(r)
    ensures r.plants.Keys == g.plants.Keys && r.pestInfestation == g.pestInfestation
    ensures weather == Rainy && roll < RainChance ==> r.rainTimer == 20.0
    ensures !(weather == Rainy && roll < RainChance) ==> r == g
    ensures Gardens.StagesKept(g, r)
  {
    if weather == Rainy && roll < RainChance then Gardens.ApplyRain(g) else g
  }

  /** The pest event: a roll below 0.05 triggers an infestation. */
  function PestEvent(g: Gardens.Garden, roll: real, picks: seq<Pos>): (r: Gardens.Garden)
    requires Gardens.Valid(g) && Gardens.IsSample(picks, g.plants.Keys, MinInt(3, |g.plants|))
    ensures Gardens.Valid(r)
    ensures r.plants.Keys <= g.plants.Keys
    ensures roll >= PestChance ==> r == g
    ensures roll < PestChance && !g.pestInfestation ==>
      r.pestInfestation && |r.plants| == |g.plants| - MinInt(3, |g.plants|)
    ensures Gardens.StagesKept(g, r)
  {
    if roll < PestChance then Gardens.TriggerPest(g, picks) else g
  }

  /** The boom event: a roll below 0.1 triggers a market boom. */
  function BoomEvent(e: Economies.Economy, roll: real): (r: Economies.Economy)
    requires Economies.Valid(e)
    ensures Economies.Valid(r)
    ensures r.money == e.money && r.totalEarned == e.totalEarned && r.totalSpent == e.totalSpent
    ensures r.basePrices == e.basePrices && r.multipliers == e.multipliers && r.achieved == e.achieved
    ensures roll < BoomChance ==> r == Economies.TriggerBoom(e) && r.boom
    ensures roll >= BoomChance ==> r == e
  {
    if roll < BoomChance then Economies.TriggerBoom(e) else e
  }

  /** `_check_random_events`: rain needs rainy weather and a roll below 0.3,
      a market boom a roll below 0.1, and a pest infestation a roll below 0.05.
      The three are decided independently. */
  function CheckRandomEvents(gs: GameState, rolls: Rolls): (r: GameState)
    requires Valid(gs) && PicksFit(gs, rolls)
    ensures Valid(r)
    ensures r.(garden := gs.garden, economy := gs.economy) == gs
    ensures r.economy == BoomEvent(gs.economy, rolls.boom)
    ensures rolls.boom < BoomChance ==> r.economy.boom
    ensures gs.weather == Rainy && rolls.rain < RainChance && rolls.pest >= PestChance ==> r.garden.rainTimer == 20.0
    ensures !(gs.weather == Rainy && rolls.rain < RainChance) && rolls.pest >= PestChance ==> r.garden == gs.garden
    ensures rolls.pest >= PestChance ==> r.garden.plants.Keys == gs.garden.plants.Keys
    ensures rolls.pest < PestChance && !gs.garden.pestInfestation ==>
      r.garden.pestInfestation && |r.garden.plants| == |gs.garden.plants| - MinInt(3, |gs.garden.plants|)
    ensures r.garden.plants.Keys <= gs.garden.plants.Keys
    ensures Gardens.StagesKept(gs.garden, r.garden)
  {
    var rained := RainEvent(gs.garden, gs.weather, rolls.rain);
    Gardens.StagesKeptTransitive(gs.garden, rained, PestEvent(rained, rolls.pest, rolls.pestPicks));
    assert |rained.plants| == |rained.plants.Keys| == |gs.garden.plants.Keys| == |gs.garden.plants|;
    var r := gs.(garden := PestEvent(rained, rolls.pest, rolls.pestPicks), economy := BoomEvent(gs.economy, rolls.boom));
    ValidFrame(gs, r);
    r
  }

  /** The events are independent: the boom roll never touches the garden, and
      neither the rain nor the pest roll touches the economy. */
  lemma EventsIndependent(gs: GameState, rolls: Rolls, rain: real, boom: real, pest: real)
    requires Valid(gs) && PicksFit(gs, rolls)
    ensures CheckRandomEvents(gs, rolls.(boom := boom)).garden == CheckRandomEvents(gs, rolls).garden
    ensures CheckRandomEvents(gs, rolls.(rain := rain, pest := pest)).economy == CheckRandomEvents(gs, rolls).economy
  {
    assert PicksFit(gs, rolls.(boom := boom)) && PicksFit(gs, rolls.(rain := rain, pest := pest));
  }

  /** The market events of `after` are those of `before`: the crash is kept,
      and so is the boom unless `boomRoll` starts one. */
  ghost predicate EventsCarried(before: Economies.Economy, after: Economies.Economy, boomRoll: real) {
    && after.crash == before.crash && after.crashTimer == before.crashTimer
    && (boomRoll < BoomChance ==> after.boom)
    && (boomRoll >= BoomChance ==> after.boom == before.boom && after.boomTimer == before.boomTimer)
  }

  /** The day change of `update` with `_start_new_day`: the day advances and
      the clock restarts, the market prices drift, then the random events. */
  function NewDay(gs: GameState, rolls: Rolls): (r: GameState)
    requires Valid(gs) && PicksFit(gs, rolls)
    ensures Valid(r)
    ensures r.day == gs.day + 1 && r.gameTime == 0.0
    ensures r.player == gs.player && r.shop == gs.shop && r.weather == gs.weather && r.weatherTimer == gs.weatherTimer
    ensures r.economy.multipliers.Keys == gs.economy.basePrices.Keys
    ensures forall t :: t in gs.economy.basePrices ==>
      r.economy.multipliers[t] == Economies.Drift(gs.economy.multipliers[t], rolls.fluctuation(t))
    ensures r.garden.plants.Keys <= gs.garden.plants.Keys
    ensures r.economy.money == gs.economy.money && r.economy.achieved == gs.economy.achieved
    ensures Gardens.StagesKept(gs.garden, r.garden)
    ensures EventsCarried(gs.economy, r.economy, rolls.boom)
  {
    var priced := gs.(day := gs.day + 1, gameTime := 0.0,
                      economy := Economies.UpdateMarketPrices(gs.economy, rolls.fluctuation));
    ValidFrame(gs, priced);
    var r := CheckRandomEvents(priced, rolls);
    assert r.economy.multipliers == priced.economy.multipliers;
    r
  }

  /** The part of `update(dt)` before the day check: both clocks run, the
      garden and the economy advance, and once the weather timer reaches 30
      seconds the weather is re-rolled and the timer zeroed. */
  function Tick(gs: GameState, dt: real, rolls: Rolls): (r: GameState)
    requires Valid(gs)
    ensures Valid(r)
    ensures r.player == gs.player && r.shop == gs.shop && r.day == gs.day && r.gameTime == gs.gameTime + dt
    ensures gs.weatherTimer + dt >= WeatherPeriod ==>
      r.weatherTimer == 0.0 && r.weather == SampleWeather(gs.weather, rolls.weather)
    ensures gs.weatherTimer + dt < WeatherPeriod ==> r.weatherTimer == gs.weatherTimer + dt && r.weather == gs.weather
    ensures r.garden.plants.Keys == gs.garden.plants.Keys
    ensures r.economy.basePrices == gs.economy.basePrices && r.economy.multipliers == gs.economy.multipliers
    ensures gs.economy.achieved <= r.economy.achieved && r.economy.money == gs.economy.money
    ensures r.garden == Gardens.Update(gs.garden, dt, rolls.growth) && r.economy == Economies.Update(gs.economy, dt)
  {
    var timer := gs.weatherTimer + dt;
    var r := gs.(gameTime := gs.gameTime + dt,
                 weatherTimer := if timer >= WeatherPeriod then 0.0 else timer,
                 weather := if timer >= WeatherPeriod then SampleWeather(gs.weather, rolls.weather) else gs.weather,
                 garden := Gardens.Update(gs.garden, dt, rolls.growth),
                 economy := Economies.Update(gs.economy, dt));
    ValidFrame(gs, r);
    r
  }

  /** `update(dt)`: the clocks, garden, economy and weather advance, and once
      the game time reaches 300 seconds a new day starts, under the weather
      just rolled. */
  function Update(gs: GameState, dt: real, rolls: Rolls): (r: GameState)
    requires Valid(gs) && PicksFit(gs, rolls)
    ensures Valid(r)
    ensures r.player == gs.player && r.shop == gs.shop
    ensures gs.weatherTimer + dt >= WeatherPeriod ==>
      r.weatherTimer == 0.0 && r.weather == SampleWeather(gs.weather, rolls.weather)
    ensures gs.weatherTimer + dt < WeatherPeriod ==> r.weatherTimer == gs.weatherTimer + dt && r.weather == gs.weather
    ensures gs.gameTime + dt >= DayLength ==> r.gameTime == 0.0 && r.day == gs.day + 1
    ensures gs.gameTime + dt < DayLength ==> r.gameTime == gs.gameTime + dt && r.day == gs.day
  {
    var ticked := Tick(gs, dt, rolls);
    assert |ticked.garden.plants| == |ticked.garden.plants.Keys| == |gs.garden.plants.Keys| == |gs.garden.plants|;
    assert PicksFit(ticked, rolls);
    if ticked.gameTime >= DayLength then NewDay(ticked, rolls) else ticked
  }

  /** What a step does to the economy and the garden: the balance stays, no
      milestone is lost, no plant appears, and the market multipliers drift
      only when a new day starts; otherwise every plant stays in place. */
  lemma UpdateEffects(gs: GameState, dt: real, rolls: Rolls)
    requires Valid(gs) && PicksFit(gs, rolls)
    ensures var r := Update(gs, dt, rolls);
      && r.economy.multipliers.Keys == gs.economy.multipliers.Keys
      && r.garden.plants.Keys <= gs.garden.plants.Keys
      && gs.economy.achieved <= r.economy.achieved
      && r.economy.money == gs.economy.money
    ensures var r := Update(gs, dt, rolls);
      gs.gameTime + dt >= DayLength ==> forall t :: t in gs.economy.basePrices ==>
        r.economy.multipliers[t] == Economies.Drift(gs.economy.multipliers[t], rolls.fluctuation(t))
    ensures var r := Update(gs, dt, rolls);
      gs.gameTime + dt < DayLength ==>
        r.economy.multipliers == gs.economy.multipliers && r.garden.plants.Keys == gs.garden.plants.Keys
  {
    var ticked := Tick(gs, dt, rolls);
    assert |ticked.garden.plants| == |ticked.garden.plants.Keys| == |gs.garden.plants.Keys| == |gs.garden.plants|;
    assert PicksFit(ticked, rolls);
    if ticked.gameTime >= DayLength {
      assert Update(gs, dt, rolls) == NewDay(ticked, rolls);
    } else {
      assert Update(gs, dt, rolls) == ticked;
    }
  }

  /** Within a day a step is exactly one garden step and one economy step:
      every plant takes its own update and the market events count down. */
  lemma SameDaySteps(gs: GameState, dt: real, rolls: Rolls)
    requires Valid(gs) && PicksFit(gs, rolls) && gs.gameTime + dt < DayLength
    ensures Update(gs, dt, rolls).garden == Gardens.Update(gs.garden, dt, rolls.growth)
    ensures Update(gs, dt, rolls).economy == Economies.Update(gs.economy, dt)
  {
  }

  /** A step that starts a new day still grows the plants first: the garden
      after the day's events keeps, for every surviving plant, the stage the
      garden's own update reached, since rain only waters a plant and pests
      leave the survivors alone. */
  lemma NewDayKeepsGrowth(gs: GameState, dt: real, rolls: Rolls)
    requires Valid(gs) && PicksFit(gs, rolls) && gs.gameTime + dt >= DayLength
    ensures Gardens.StagesKept(Gardens.Update(gs.garden, dt, rolls.growth), Update(gs, dt, rolls).garden)
  {
    var ticked := Tick(gs, dt, rolls);
    assert |ticked.garden.plants| == |ticked.garden.plants.Keys| == |gs.garden.plants.Keys| == |gs.garden.plants|;
    assert PicksFit(ticked, rolls);
    assert Update(gs, dt, rolls) == NewDay(ticked, rolls);
  }

  /** A step that starts a new day still counts the market events down first:
      the crash is as the economy's step left it, and so is the boom unless
      the day's roll starts one. */
  lemma NewDayKeepsEvents(gs: GameState, dt: real, rolls: Rolls)
    requires Valid(gs) && PicksFit(gs, rolls) && gs.gameTime + dt >= DayLength
    ensures EventsCarried(Economies.Update(gs.economy, dt), Update(gs, dt, rolls).economy, rolls.boom)
  {
    var ticked := Tick(gs, dt, rolls);
    assert |ticked.garden.plants| == |ticked.garden.plants.Keys| == |gs.garden.plants.Keys| == |gs.garden.plants|;
    assert PicksFit(ticked, rolls);
    assert Update(gs, dt, rolls) == NewDay(ticked, rolls);
  }

  /** From a state whose timers are below their periods, a non-negative step
      keeps them below their periods. */
  lemma TimersStayInPeriod(gs: GameState, dt: real, rolls: Rolls)
    requires Valid(gs) && PicksFit(gs, rolls)
    requires 0.0 <= dt && 0.0 <= gs.weatherTimer < WeatherPeriod && 0.0 <= gs.gameTime < DayLength
    ensures 0.0 <= Update(gs, dt, rolls).weatherTimer < WeatherPeriod
    ensures 0.0 <= Update(gs, dt, rolls).gameTime < DayLength
    ensures Update(gs, dt, rolls).day <= gs.day + 1
  {
  }

  // ------------------------------------------------------------------ purchases

  /** The category names the purchase branches compare against. */
  datatype Kinds = Kinds(seed: string, tool: string, expansion: string)

  /** The names game/game_state.py and web/js/game.js test: singular. */
  const WrittenKinds: Kinds := Kinds("seed", "tool", "expansion")

  /** The shop's own category names: plural. */
  const ShopKinds: Kinds := Kinds("seeds", "tools", "expansions")

  /** The item a purchase hands over: a seed, a tool, or a garden expansion,
      chosen by comparing the category with `kinds`. */
  function Grant(gs: GameState, kinds: Kinds, itemType: string, itemName: string): (r: GameState)
    requires Valid(gs)
    ensures Valid(r)
    ensures r.economy == gs.economy && r.shop == gs.shop
    ensures itemType !in {kinds.seed, kinds.tool, kinds.expansion} ==> r == gs
  {
    if itemType == kinds.seed then gs.(player := Players.AddSeed(gs.player, itemName, 1))
    else if itemType == kinds.tool then gs.(player := Players.AddTool(gs.player, itemName))
    else if itemType == kinds.expansion then
      gs.(gardenExpansions := gs.gardenExpansions + 1, garden := Gardens.Expand(gs.garden).0)
    else gs
  }

  /** The purchase, parameterised by the category names it tests: unknown and
      unaffordable items are refused with nothing changed; otherwise the
      quoted cost is paid and the grant applied. */
  function Purchase(gs: GameState, kinds: Kinds, itemType: string, itemName: string): (res: (GameState, bool))
    requires Valid(gs)
    ensures Valid(res.0)
    ensures res.1 <==> Shops.CanAffordItem(gs.shop, itemType, itemName, gs.economy.money)
    ensures !res.1 ==> res.0 == gs
    ensures res.1 ==> res.0.economy.money == gs.economy.money - Shops.GetItemCost(gs.shop, itemType, itemName)
    ensures res.1 ==> res.0.economy.totalSpent == gs.economy.totalSpent + Shops.GetItemCost(gs.shop, itemType, itemName)
    ensures res.0.shop == gs.shop
  {
    match Shops.GetItem(gs.shop, itemType, itemName)
    case None => (gs, false)
    case Some(item) =>
      if Economies.CanAfford(gs.economy, item.cost) then
        Shops.QuoteWithinCatalogue(gs.shop, itemType, itemName);
        var paid := gs.(economy := Economies.SpendMoney(gs.economy, item.cost).0);
        (Grant(paid, kinds, itemType, itemName), true)
      else (gs, false)
  }

  /** No shop category has a singular name. */
  lemma NoSingularCategory(itemType: string)
    ensures itemType in Shops.Categories ==> itemType !in {WrittenKinds.seed, WrittenKinds.tool, WrittenKinds.expansion}
  {
  }

  /** `purchase_item` as written: it compares the category with the singular
      names, which no shop category is, so a successful purchase takes the
      money and grants nothing. */
  function PurchaseItemAsWritten(gs: GameState, itemType: string, itemName: string): (res: (GameState, bool))
    requires Valid(gs)
    ensures Valid(res.0)
    ensures res.1 <==> Shops.CanAffordItem(gs.shop, itemType, itemName, gs.economy.money)
    ensures res.1 ==> res.0.economy.money == gs.economy.money - Shops.GetItemCost(gs.shop, itemType, itemName)
    ensures res.0.player == gs.player && res.0.garden == gs.garden && res.0.gardenExpansions == gs.gardenExpansions
  {
    var res := Purchase(gs, WrittenKinds, itemType, itemName);
    assert res.1 ==> itemType in gs.shop.items;
    NoSingularCategory(itemType);
    res
  }

  /** A concrete instance: with the initial shop and at least 10 coins,
      buying carrot seeds under the shop's category name succeeds, costs 10
      coins and leaves the inventory as it was, while the singular name the
      branch expects finds no item at all. The initial state is such a state. */
  lemma PurchaseSeedsGrantsNothing(gs: GameState)
    requires Valid(gs) && gs.shop == Shops.Initial() && gs.economy.money >= 10
    ensures PurchaseItemAsWritten(gs, "seeds", "carrot").1
    ensures PurchaseItemAsWritten(gs, "seeds", "carrot").0.economy.money == gs.economy.money - 10
    ensures PurchaseItemAsWritten(gs, "seeds", "carrot").0.player.seeds == gs.player.seeds
    ensures !PurchaseItemAsWritten(gs, "seed", "carrot").1
  {
    Shops.InitialCarrotQuote();
  }

  /** `purchase_item` as evidently intended: the branches use the shop's
      plural category names, so bought seeds and tools reach the inventory and
      a bought expansion expands the garden. */
  function PurchaseItem(gs: GameState, itemType: string, itemName: string): (res: (GameState, bool))
    requires Valid(gs)
    ensures Valid(res.0)
    ensures res.1 <==> Shops.CanAffordItem(gs.shop, itemType, itemName, gs.economy.money)
    ensures !res.1 ==> res.0 == gs
    ensures res.1 ==> res.0.economy.money == gs.economy.money - Shops.GetItemCost(gs.shop, itemType, itemName)
    ensures res.1 && itemType == "seeds" ==>
      Players.Count(res.0.player, itemName) == Players.Count(gs.player, itemName) + 1
    ensures res.1 && itemType == "tools" ==> itemName in res.0.player.tools
    ensures res.1 && itemType == "expansions" ==> res.0.gardenExpansions == gs.gardenExpansions + 1
    ensures res.1 && itemType == "expansions" ==> res.0.garden == Gardens.Expand(gs.garden).0
    ensures res.1 && itemType !in {"seeds", "tools", "expansions"} ==> res.0.player == gs.player && res.0.garden == gs.garden
  {
    Purchase(gs, ShopKinds, itemType, itemName)
  }

  // ------------------------------------------------------------------ planting and harvesting

  /** `plant_seed`: fails with nothing changed without a seed of the type or
      when the garden refuses; a successful planting both plants the seed and
      uses one up, and touches nothing else. */
  function PlantSeed(gs: GameState, x: int, y: int, seedType: string, roll: real): (res: (GameState, bool))
    requires Valid(gs)
    ensures Valid(res.0)
    ensures res.1 <==> Players.HasSeed(gs.player, seedType) && Gardens.PlantSeed(gs.garden, x, y, seedType, roll).1
    ensures !res.1 ==> res.0 == gs
    ensures res.1 ==> res.0.garden == Gardens.PlantSeed(gs.garden, x, y, seedType, roll).0
    ensures res.1 ==> res.0.player == Players.UseSeed(gs.player, seedType).0
    ensures res.0.(garden := gs.garden, player := gs.player) == gs
  {
    if Players.HasSeed(gs.player, seedType) then
      var (garden, planted) := Gardens.PlantSeed(gs.garden, x, y, seedType, roll);
      if planted then
        var player := Players.UseSeed(gs.player, seedType).0;
        ValidWithPlayer(gs, gs.(garden := garden, player := player));
        (gs.(garden := garden, player := player), true)
      else (gs, false)
    else (gs, false)
  }

  /** A successful planting puts a plant of the type on the tile, adds that
      one position to the garden and takes one seed of the type from the
      inventory, leaving the rest of the player as it was. */
  lemma PlantingEffect(gs: GameState, x: int, y: int, seedType: string, roll: real)
    requires Valid(gs)
    ensures var (r, ok) := PlantSeed(gs, x, y, seedType, roll);
      ok ==> && (x, y) in r.garden.plants && r.garden.plants[(x, y)].plantType == seedType
             && r.garden.plants.Keys == gs.garden.plants.Keys + {(x, y)}
             && (x, y) !in gs.garden.plants
             && Players.Count(r.player, seedType) == Players.Count(gs.player, seedType) - 1
             && r.player.(seeds := gs.player.seeds) == gs.player
  {
    var (r, ok) := PlantSeed(gs, x, y, seedType, roll);
    if ok {
      var g := Gardens.PlantSeed(gs.garden, x, y, seedType, roll).0;
      assert r.garden == g && g.plants == gs.garden.plants[(x, y) := Gardens.Seeded(gs.garden, x, y, seedType, roll)];
    }
  }

  /** A planting moves one seed from the inventory into the garden: seeds of
      the type plus plants in the garden stay constant. */
  lemma PlantingConservesSeeds(gs: GameState, x: int, y: int, seedType: string, roll: real)
    requires Valid(gs) && PlantSeed(gs, x, y, seedType, roll).1
    ensures var r := PlantSeed(gs, x, y, seedType, roll).0;
      Players.Count(r.player, seedType) + |r.garden.plants| == Players.Count(gs.player, seedType) + |gs.garden.plants|
  {
    PlantingEffect(gs, x, y, seedType, roll);
  }

  /** `water_plant`: succeeds exactly on a plant still below its water need,
      which gains one unit; only the garden changes. */
  function WaterPlant(gs: GameState, x: int, y: int): (res: (GameState, bool))
    requires Valid(gs)
    ensures Valid(res.0)
    ensures res.1 <==> (x, y) in gs.garden.plants && gs.garden.plants[(x, y)].water < gs.garden.plants[(x, y)].maxWater
    ensures !res.1 ==> res.0 == gs
    ensures res.0.garden.plants.Keys == gs.garden.plants.Keys
    ensures res.1 ==> res.0.garden.plants[(x, y)].water == gs.garden.plants[(x, y)].water + 1
    ensures res.0.(garden := gs.garden) == gs
  {
    var (garden, ok) := Gardens.WaterPlant(gs.garden, x, y);
    ValidFrame(gs, gs.(garden := garden));
    (gs.(garden := garden), ok)
  }

  /** What a harvest of the plant at `(x, y)` does before it looks at the
      mutation flag: the value is credited, the plant removed and the harvest
      and earnings statistics updated. */
  function Harvested(gs: GameState, x: int, y: int, value: int): (r: GameState)
    requires Valid(gs) && (x, y) in gs.garden.plants && value >= 1
    ensures Valid(r)
    ensures r.economy.money == gs.economy.money + value && (x, y) !in r.garden.plants
    ensures r.garden.plants == gs.garden.plants - {(x, y)}
    ensures r.plantsHarvested == gs.plantsHarvested + 1 && r.totalEarnings == gs.totalEarnings + value
    ensures r.player == gs.player && r.mutationsFound == gs.mutationsFound
  {
    gs.(economy := Economies.AddMoney(gs.economy, value),
        garden := Gardens.RemovePlant(gs.garden, x, y).0,
        plantsHarvested := gs.plantsHarvested + 1,
        totalEarnings := gs.totalEarnings + value)
  }

  /** The result of a Python action that may raise: it returns normally with a
      result, or raises, leaving the effects made before the raise. */
  datatype Outcome = Returned(state: GameState, ok: bool) | Raised(state: GameState)

  /** `harvest_plant` as written: the final step calls the boolean
      `is_mutated` as if it were a method, which raises a type error after the
      money was credited and the plant removed. */
  function HarvestAsWritten(gs: GameState, x: int, y: int): (o: Outcome)
    requires Valid(gs)
    ensures o.Raised? <==> (x, y) in gs.garden.plants && Plants.IsHarvestable(gs.garden.plants[(x, y)])
    ensures o.Returned? ==> o == Returned(gs, false)
    ensures Valid(o.state)
    ensures o.Raised? ==>
      o.state.economy.money == gs.economy.money + Economies.PlantValue(gs.economy, gs.garden.plants[(x, y)])
    ensures o.Raised? ==> (x, y) !in o.state.garden.plants && o.state.mutationsFound == gs.mutationsFound
  {
    match Gardens.GetPlant(gs.garden, x, y)
    case None => Returned(gs, false)
    case Some(p) =>
      if Plants.IsHarvestable(p) then Raised(Harvested(gs, x, y, Economies.PlantValue(gs.economy, p)))
      else Returned(gs, false)
  }

  /** `harvestPlant` of web/js/game.js, which reads the flag as a field: the
      value is credited, the tile emptied, and a mutated plant counted. */
  function Harvest(gs: GameState, x: int, y: int): (res: (GameState, bool))
    requires Valid(gs)
    ensures Valid(res.0)
    ensures res.1 <==> (x, y) in gs.garden.plants && Plants.IsHarvestable(gs.garden.plants[(x, y)])
    ensures !res.1 ==> res.0 == gs
    ensures res.1 ==> res.0.economy.money == gs.economy.money + Economies.PlantValueJs(gs.economy, gs.garden.plants[(x, y)])
    ensures res.1 ==> res.0.economy.money > gs.economy.money && (x, y) !in res.0.garden.plants
    ensures res.1 ==> res.0.plantsHarvested == gs.plantsHarvested + 1
    ensures res.1 ==> res.0.mutationsFound == gs.mutationsFound + (if gs.garden.plants[(x, y)].isMutated then 1 else 0)
    ensures res.0.player == gs.player
  {
    match Gardens.GetPlant(gs.garden, x, y)
    case None => (gs, false)
    case Some(p) =>
      if Plants.IsHarvestable(p) then
        var r := Harvested(gs, x, y, Economies.PlantValueJs(gs.economy, p));
        (r.(mutationsFound := r.mutationsFound + (if p.isMutated then 1 else 0)), true)
      else (gs, false)
  }

  /** The Python harvest raises exactly when the JavaScript one succeeds, and
      the state it leaves is the JavaScript result without the mutation count:
      a mutated harvest is never counted. */
  lemma HarvestAsWrittenRaises(gs: GameState, x: int, y: int)
    requires Valid(gs)
    ensures HarvestAsWritten(gs, x, y).Raised? <==> Harvest(gs, x, y).1
    ensures HarvestAsWritten(gs, x, y).Raised? ==>
      HarvestAsWritten(gs, x, y).state == Harvest(gs, x, y).0.(mutationsFound := gs.mutationsFound)
    ensures HarvestAsWritten(gs, x, y).Returned? ==> HarvestAsWritten(gs, x, y).state == Harvest(gs, x, y).0
  {
    if (x, y) in gs.garden.plants {
      Economies.PlantValueJsAgrees(gs.economy, gs.garden.plants[(x, y)]);
    }
  }
}

=== FILE: garden.dfy ===
/** The garden grid (game/garden.py, ported to web/js/garden.js): a 20x15 field
    of tiles with soil quality, a water buffer and a fertiliser buffer, and the
    plants indexed twice, by a `grid[y][x]` array and by a position-keyed map.
    The central invariant, `DualIndex`, says the two indices always agree. */
module Gardens {
  import opened Common
  import Plants

  type Plant = Plants.Plant

  datatype Garden = Garden(
    grid: seq<seq<Option<Plant>>>,   // grid[y][x]
    plants: map<Pos, Plant>,         // (x, y) -> plant
    soil: seq<seq<real>>,
    waterLevels: seq<seq<int>>,
    fertilizerLevels: seq<seq<int>>,
    expansions: int,
    maxExpansions: int,
    rainTimer: real,
    pestInfestation: bool,
    pestTimer: real)

  /** Caps of the per-tile buffers and of soil quality. */
  const WaterCap: int := 5
  const FertilizerCap: int := 3
  const SoilCap: real := 1.5

  /** A row-major table with `GridHeight` rows of `GridWidth` cells. */
  ghost predicate Shaped<T>(rows: seq<seq<T>>) {
    |rows| == GridHeight && forall y :: 0 <= y < |rows| ==> |rows[y]| == GridWidth
  }

  ghost predicate WellShaped(g: Garden) {
    Shaped(g.grid) && Shaped(g.soil) && Shaped(g.waterLevels) && Shaped(g.fertilizerLevels)
  }

  /** The dual-index invariant: a tile holds a plant exactly when its position
      is a key of `plants`, both indices hold the same plant, and that plant's
      own coordinates are the tile's. */
  ghost predicate DualIndex(g: Garden)
    requires WellShaped(g)
  {
    && (forall pos :: pos in g.plants ==> InBounds(pos.0, pos.1))
    && (forall x, y :: InBounds(x, y) ==> (g.grid[y][x].Some? <==> (x, y) in g.plants))
    && (forall x, y :: InBounds(x, y) && (x, y) in g.plants ==>
          g.grid[y][x] == Some(g.plants[(x, y)]) && g.plants[(x, y)].x == x && g.plants[(x, y)].y == y)
  }

  ghost predicate Valid(g: Garden) {
    && WellShaped(g)
    && DualIndex(g)
    && (forall pos :: pos in g.plants ==> Plants.Valid(g.plants[pos]))
  }

  /** Every tile still has at least the soil quality 1.0 every tile starts with. */
  ghost predicate SoilAtLeastInitial(g: Garden)
    requires WellShaped(g)
  {
    forall x, y :: InBounds(x, y) ==> g.soil[y][x] >= 1.0
  }

  /** Soil `after` is soil `before` raised by 0.1, capped at 1.5, on exactly
      the tiles in `cleared`, as `remove_plant` leaves each tile it empties. */
  ghost predicate SoilRaisedAt(before: seq<seq<real>>, after: seq<seq<real>>, cleared: seq<Pos>)
    requires Shaped(before) && Shaped(after)
  {
    forall x, y :: InBounds(x, y) ==>
      after[y][x] == (if (x, y) in cleared then MinReal(SoilCap, before[y][x] + 0.1) else before[y][x])
  }

  /** Every plant of `after` was already in `before`, at the same stage. */
  ghost predicate StagesKept(before: Garden, after: Garden) {
    forall pos :: pos in after.plants ==> pos in before.plants && after.plants[pos].stage == before.plants[pos].stage
  }

  /** Watering every plant changes no stage. */
  lemma WateringKeepsStages(g: Garden, r: Garden)
    requires r.plants.Keys == g.plants.Keys
    requires forall pos :: pos in g.plants ==> r.plants[pos] == Plants.Water(g.plants[pos]).0
    ensures StagesKept(g, r)
  {
  }

  lemma StagesKeptTransitive(a: Garden, b: Garden, c: Garden)
    requires StagesKept(a, b) && StagesKept(b, c)
    ensures StagesKept(a, c)
  {
  }

  /** `rows` with the cell `(x, y)` replaced by `v`. */
  function Set2<T>(rows: seq<seq<T>>, x: int, y: int, v: T): (r: seq<seq<T>>)
    requires 0 <= y < |rows| && 0 <= x < |rows[y]|
    ensures |r| == |rows| && forall j :: 0 <= j < |r| ==> |r[j]| == |rows[j]|
    ensures r[y][x] == v
    ensures forall j, i :: 0 <= j < |r| && 0 <= i < |r[j]| && (j != y || i != x) ==> r[j][i] == rows[j][i]
  {
    rows[y := rows[y][x := v]]
  }

  /** The 5x5 square around the grid centre, `(width // 2, height // 2)`: the
      starting plot of `_initialize_garden` and the area `expand` upgrades. */
  predicate InCentreSquare(x: int, y: int) {
    GridWidth / 2 - 2 <= x <= GridWidth / 2 + 2 && GridHeight / 2 - 2 <= y <= GridHeight / 2 + 2
  }

  /** `Garden.__init__` with `_initialize_garden`. Its properties are stated
      by `InitialState`. */
  function Initial(): Garden {
    Garden(
      seq(GridHeight, y => seq(GridWidth, x => None)),
      map[],
      seq(GridHeight, y => seq(GridWidth, x => 1.0)),
      seq(GridHeight, y => seq(GridWidth, x => if InCentreSquare(x, y) then 2 else 0)),
      seq(GridHeight, y => seq(GridWidth, x => 0)),
      1, 3, 0.0, false, 0.0)
  }

  /** A new garden is valid with no plants, soil 1.0 on every tile, water 2
      on the centre square and 0 elsewhere, and one expansion of three. */
  lemma InitialState()
    ensures Valid(Initial()) && SoilAtLeastInitial(Initial())
    ensures |Initial().plants| == 0 && Initial().expansions == 1 && Initial().maxExpansions == 3
    ensures forall x, y :: InBounds(x, y) ==>
      Initial().grid[y][x].None? && Initial().soil[y][x] == 1.0 && Initial().fertilizerLevels[y][x] == 0
      && Initial().waterLevels[y][x] == (if InCentreSquare(x, y) then 2 else 0)
  {
  }

  /** `_is_plantable_soil`. The source performs no bounds check here, so the
      caller must supply an in-bounds position. */
  predicate IsPlantableSoil(g: Garden, x: int, y: int)
    requires WellShaped(g) && InBounds(x, y)
    ensures SoilAtLeastInitial(g) ==> IsPlantableSoil(g, x, y)
  {
    g.soil[y][x] > 0.0
  }

  /** The plant `plant_seed` stores: the new plant, with its progress cut by a
      fifth on soil below 0.5. */
  function Seeded(g: Garden, x: int, y: int, plantType: string, roll: real): (p: Plant)
    requires WellShaped(g) && InBounds(x, y)
    ensures Plants.Valid(p) && p.plantType == plantType && p.x == x && p.y == y && p.stage == 0
  {
    var p := Plants.NewPlant(plantType, x, y, roll);
    if g.soil[y][x] < 0.5 then p.(progress := p.progress * 0.8) else p
  }

  /** `plant_seed`: fails with no change out of bounds, on an occupied tile or
      on soil of quality 0 or less; otherwise the same new plant is stored in
      both indices. */
  function PlantSeed(g: Garden, x: int, y: int, plantType: string, roll: real): (res: (Garden, bool))
    requires Valid(g)
    ensures Valid(res.0)
    ensures res.1 <==> InBounds(x, y) && (x, y) !in g.plants && g.soil[y][x] > 0.0
    ensures !res.1 ==> res.0 == g
    ensures res.1 ==> res.0.plants == g.plants[(x, y) := Seeded(g, x, y, plantType, roll)]
    ensures res.1 ==> res.0.grid[y][x] == Some(Seeded(g, x, y, plantType, roll))
    ensures res.0.soil == g.soil && res.0.waterLevels == g.waterLevels
    ensures res.0.fertilizerLevels == g.fertilizerLevels && res.0.expansions == g.expansions
  {
    if !InBounds(x, y) then (g, false)
    else if g.grid[y][x].Some? then (g, false)
    else if !IsPlantableSoil(g, x, y) then (g, false)
    else
      var p := Seeded(g, x, y, plantType, roll);
      (g.(grid := Set2(g.grid, x, y, Some(p)), plants := g.plants[(x, y) := p]), true)
  }

  /** Replaces the plant at an occupied tile in both indices. */
  function Replace(g: Garden, x: int, y: int, p: Plant): (r: Garden)
    requires Valid(g) && InBounds(x, y) && (x, y) in g.plants
    requires Plants.Valid(p) && p.x == x && p.y == y
    ensures Valid(r)
    ensures r.plants == g.plants[(x, y) := p]
    ensures r.soil == g.soil && r.waterLevels == g.waterLevels && r.fertilizerLevels == g.fertilizerLevels
  {
    g.(grid := Set2(g.grid, x, y, Some(p)), plants := g.plants[(x, y) := p])
  }

  /** `water_plant`: waters the tile's plant and, only if that succeeded, raises
      the tile's water buffer by one, capped at 5. */
  function WaterPlant(g: Garden, x: int, y: int): (res: (Garden, bool))
    requires Valid(g)
    ensures Valid(res.0)
    ensures res.1 <==> InBounds(x, y) && (x, y) in g.plants && g.plants[(x, y)].water < g.plants[(x, y)].maxWater
    ensures !res.1 ==> res.0 == g
    ensures res.0.plants.Keys == g.plants.Keys
    ensures res.1 ==> res.0.plants == g.plants[(x, y) := Plants.Water(g.plants[(x, y)]).0]
    ensures res.1 ==> res.0.waterLevels == Set2(g.waterLevels, x, y, MinInt(WaterCap, g.waterLevels[y][x] + 1))
    ensures res.0.soil == g.soil && res.0.fertilizerLevels == g.fertilizerLevels
  {
    if !InBounds(x, y) then (g, false)
    else match g.grid[y][x]
      case None => (g, false)
      case Some(p) =>
        var (watered, ok) := Plants.Water(p);
        if ok then
          var r := Replace(g, x, y, watered);
          (r.(waterLevels := Set2(g.waterLevels, x, y, MinInt(WaterCap, g.waterLevels[y][x] + 1))), true)
        else (g, false)
  }

  /** `fertilize_plant`: fertilises the tile's plant and, only if that
      succeeded, raises the tile's fertiliser buffer by one, capped at 3. */
  function FertilizePlant(g: Garden, x: int, y: int): (res: (Garden, bool))
    requires Valid(g)
    ensures Valid(res.0)
    ensures res.1 <==> InBounds(x, y) && (x, y) in g.plants && !g.plants[(x, y)].fertilized
    ensures !res.1 ==> res.0 == g
    ensures res.0.plants.Keys == g.plants.Keys
    ensures res.1 ==> res.0.plants == g.plants[(x, y) := g.plants[(x, y)].(fertilized := true)]
    ensures res.1 ==>
      res.0.fertilizerLevels == Set2(g.fertilizerLevels, x, y, MinInt(FertilizerCap, g.fertilizerLevels[y][x] + 1))
    ensures res.0.soil == g.soil && res.0.waterLevels == g.waterLevels
  {
    if !InBounds(x, y) then (g, false)
    else match g.grid[y][x]
      case None => (g, false)
      case Some(p) =>
        var (fertilized, ok) := Plants.Fertilize(p);
        if ok then
          var r := Replace(g, x, y, fertilized);
          (r.(fertilizerLevels := Set2(g.fertilizerLevels, x, y, MinInt(FertilizerCap, g.fertilizerLevels[y][x] + 1))), true)
        else (g, false)
  }

  /** `get_plant` reads the grid; by the dual index this is exactly the
      position map's entry. */
  function GetPlant(g: Garden, x: int, y: int): (r: Option<Plant>)
    requires Valid(g)
    ensures r.Some? <==> (x, y) in g.plants
    ensures r.Some? ==> r.value == g.plants[(x, y)] && r.value.x == x && r.value.y == y
  {
    if !InBounds(x, y) then None else g.grid[y][x]
  }

  /** `remove_plant`: empties both indices and improves the soil by 0.1,
      capped at 1.5. */
  function RemovePlant(g: Garden, x: int, y: int): (res: (Garden, bool))
    requires Valid(g)
    ensures Valid(res.0)
    ensures res.1 <==> (x, y) in g.plants
    ensures !res.1 ==> res.0 == g
    ensures res.1 ==> res.0.plants == g.plants - {(x, y)} && res.0.grid[y][x].None?
    ensures res.1 ==> res.0.soil == Set2(g.soil, x, y, MinReal(SoilCap, g.soil[y][x] + 0.1))
    ensures res.0.waterLevels == g.waterLevels && res.0.fertilizerLevels == g.fertilizerLevels
    ensures res.0.expansions == g.expansions && res.0.pestInfestation == g.pestInfestation
    ensures res.0.rainTimer == g.rainTimer && res.0.pestTimer == g.pestTimer && res.0.maxExpansions == g.maxExpansions
    ensures SoilAtLeastInitial(g) ==> SoilAtLeastInitial(res.0)
  {
    if !InBounds(x, y) then (g, false)
    else if g.grid[y][x].Some? then
      (g.(plants := g.plants - {(x, y)},
          grid := Set2(g.grid, x, y, None),
          soil := Set2(g.soil, x, y, MinReal(SoilCap, g.soil[y][x] + 0.1))), true)
    else (g, false)
  }

  /** `expand`: refused once `expansions` reaches `maxExpansions`; otherwise
      counts one more expansion and turns the centre-square tiles whose soil
      is exactly 0 into soil 0.8 with water 1. */
  function Expand(g: Garden): (res: (Garden, bool))
    requires Valid(g)
    ensures Valid(res.0)
    ensures res.1 <==> g.expansions < g.maxExpansions
    ensures !res.1 ==> res.0 == g
    ensures res.1 ==> res.0.expansions == g.expansions + 1 && res.0.plants == g.plants && res.0.grid == g.grid
    ensures forall x, y :: InBounds(x, y) ==> res.0.soil[y][x] >= g.soil[y][x]
    ensures forall x, y :: InBounds(x, y) && res.0.soil[y][x] != g.soil[y][x] ==>
      InCentreSquare(x, y) && g.soil[y][x] == 0.0 && res.0.soil[y][x] == 0.8 && res.0.waterLevels[y][x] == 1
    ensures forall x, y :: InBounds(x, y) && g.soil[y][x] != 0.0 ==> res.0.waterLevels[y][x] == g.waterLevels[y][x]
    ensures res.1 ==> res.0.soil == ExpandedSoil(g) && res.0.waterLevels == ExpandedWater(g)
    ensures res.0.(expansions := g.expansions, soil := g.soil, waterLevels := g.waterLevels) == g
  {
    if g.expansions >= g.maxExpansions then (g, false)
    else
      var r := g.(expansions := g.expansions + 1, soil := ExpandedSoil(g), waterLevels := ExpandedWater(g));
      ValidBuffers(g, r);
      (r, true)
  }

  /** An expansion upgrades the centre-square tiles whose soil is exactly 0. */
  predicate Upgraded(g: Garden, x: int, y: int)
    requires WellShaped(g) && InBounds(x, y)
  {
    InCentreSquare(x, y) && g.soil[y][x] == 0.0
  }

  /** The soil after an expansion: 0.8 on upgraded tiles. */
  function ExpandedSoil(g: Garden): (s: seq<seq<real>>)
    requires WellShaped(g)
    ensures Shaped(s)
    ensures forall x, y :: InBounds(x, y) ==> s[y][x] == if Upgraded(g, x, y) then 0.8 else g.soil[y][x]
  {
    seq(GridHeight, y requires 0 <= y < GridHeight =>
      seq(GridWidth, x requires 0 <= x < GridWidth => if Upgraded(g, x, y) then 0.8 else g.soil[y][x]))
  }

  /** The water buffers after an expansion: 1 on upgraded tiles. */
  function ExpandedWater(g: Garden): (w: seq<seq<int>>)
    requires WellShaped(g)
    ensures Shaped(w)
    ensures forall x, y :: InBounds(x, y) ==> w[y][x] == if Upgraded(g, x, y) then 1 else g.waterLevels[y][x]
  {
    seq(GridHeight, y requires 0 <= y < GridHeight =>
      seq(GridWidth, x requires 0 <= x < GridWidth => if Upgraded(g, x, y) then 1 else g.waterLevels[y][x]))
  }

  /** Since every tile starts at soil 1.0 and soil never decreases, an expansion
      from any such garden finds no tile at exactly 0 and changes nothing but
      the expansion counter. */
  lemma ExpandOnlyCounts(g: Garden)
    requires Valid(g) && SoilAtLeastInitial(g) && g.expansions < g.maxExpansions
    ensures Expand(g).0 == g.(expansions := g.expansions + 1)
  {
    var r := Expand(g).0;
    assert r.soil == g.soil by {
      forall y | 0 <= y < GridHeight ensures r.soil[y] == g.soil[y] {
        assert forall x :: 0 <= x < GridWidth ==> r.soil[y][x] == g.soil[y][x] by {
          forall x | 0 <= x < GridWidth ensures r.soil[y][x] == g.soil[y][x] {
            assert InBounds(x, y);
          }
        }
      }
    }
    assert r.waterLevels == g.waterLevels by {
      forall y | 0 <= y < GridHeight ensures r.waterLevels[y] == g.waterLevels[y] {
        forall x | 0 <= x < GridWidth ensures r.waterLevels[y][x] == g.waterLevels[y][x] {
          assert InBounds(x, y);
        }
      }
    }
  }

  /** Applies `f` to every plant, in both indices at once. */
  function MapPlants(g: Garden, f: (Pos, Plant) --> Plant): (r: Garden)
    requires Valid(g)
    requires forall pos :: pos in g.plants ==> f.requires(pos, g.plants[pos])
    requires forall pos :: pos in g.plants ==>
      Plants.Valid(f(pos, g.plants[pos])) && f(pos, g.plants[pos]).x == pos.0 && f(pos, g.plants[pos]).y == pos.1
    ensures Valid(r)
    ensures r.plants == map pos | pos in g.plants :: f(pos, g.plants[pos])
    ensures r.soil == g.soil && r.waterLevels == g.waterLevels && r.fertilizerLevels == g.fertilizerLevels
    ensures r.expansions == g.expansions && r.rainTimer == g.rainTimer
    ensures r.pestInfestation == g.pestInfestation && r.pestTimer == g.pestTimer
  {
    var plants := map pos | pos in g.plants :: f(pos, g.plants[pos]);
    var r := g.(grid := GridOf(plants), plants := plants);
    assert DualIndex(r) by {
      assert forall pos :: pos in plants ==> pos in g.plants;
    }
    r
  }

  /** The grid array that indexes exactly the plants of `plants`. */
  function GridOf(plants: map<Pos, Plant>): (grid: seq<seq<Option<Plant>>>)
    ensures Shaped(grid)
    ensures forall x, y :: InBounds(x, y) ==> grid[y][x] == (if (x, y) in plants then Some(plants[(x, y)]) else None)
  {
    seq(GridHeight, y requires 0 <= y < GridHeight =>
      seq(GridWidth, x requires 0 <= x < GridWidth =>
        if (x, y) in plants then Some(plants[(x, y)]) else None))
  }

  /** `apply_rain_effect`: starts a 20-second rain, waters every plant and adds
      2 (capped at 5) to the water buffer of every plantable tile. */
  function ApplyRain(g: Garden): (r: Garden)
    requires Valid(g)
    ensures Valid(r)
    ensures r.rainTimer == 20.0
    ensures r.plants.Keys == g.plants.Keys
    ensures forall pos :: pos in g.plants ==> r.plants[pos] == Plants.Water(g.plants[pos]).0
    ensures forall x, y :: InBounds(x, y) ==>
      r.waterLevels[y][x] == (if g.soil[y][x] > 0.0 then MinInt(WaterCap, g.waterLevels[y][x] + 2) else g.waterLevels[y][x])
    ensures r.soil == g.soil && r.fertilizerLevels == g.fertilizerLevels && r.expansions == g.expansions
    ensures r.pestInfestation == g.pestInfestation
    ensures StagesKept(g, r)
  {
    var watered := MapPlants(g, (pos: Pos, p: Plant) => Plants.Water(p).0);
    var r := watered.(rainTimer := 20.0, waterLevels := RainWater(g));
    ValidBuffers(watered, r);
    WateringKeepsStages(g, r);
    r
  }

  /** The plants decide validity: new buffers of the right shape keep it. */
  lemma ValidBuffers(g: Garden, r: Garden)
    requires Valid(g) && r.grid == g.grid && r.plants == g.plants
    requires Shaped(r.soil) && Shaped(r.waterLevels) && Shaped(r.fertilizerLevels)
    ensures Valid(r)
  {
  }

  /** The water buffers after rain: 2 more, capped, on every plantable tile. */
  function RainWater(g: Garden): (w: seq<seq<int>>)
    requires WellShaped(g)
    ensures Shaped(w)
    ensures forall x, y :: InBounds(x, y) ==>
      w[y][x] == (if g.soil[y][x] > 0.0 then MinInt(WaterCap, g.waterLevels[y][x] + 2) else g.waterLevels[y][x])
  {
    seq(GridHeight, y requires 0 <= y < GridHeight =>
      seq(GridWidth, x requires 0 <= x < GridWidth =>
        if IsPlantableSoil(g, x, y) then MinInt(WaterCap, g.waterLevels[y][x] + 2) else g.waterLevels[y][x]))
  }

  /** A `random.sample` of `k` positions from `keys`: `k` distinct members. */
  predicate IsSample(picks: seq<Pos>, keys: set<Pos>, k: int) {
    |picks| == k && Distinct(picks) && forall i :: 0 <= i < |picks| ==> picks[i] in keys
  }

  /** `remove_plant` on each position of `picks`, in order. */
  function RemoveAll(g: Garden, picks: seq<Pos>): (r: Garden)
    requires Valid(g)
    ensures Valid(r)
    ensures r.plants.Keys == g.plants.Keys - set pos | pos in picks
    ensures forall pos :: pos in r.plants ==> r.plants[pos] == g.plants[pos]
    ensures r.expansions == g.expansions && r.pestInfestation == g.pestInfestation
    ensures r.rainTimer == g.rainTimer && r.pestTimer == g.pestTimer
    ensures r.waterLevels == g.waterLevels && r.fertilizerLevels == g.fertilizerLevels
    ensures SoilAtLeastInitial(g) ==> SoilAtLeastInitial(r)
    decreases |picks|
  {
    if |picks| == 0 then g
    else
      var removed := RemovePlant(g, picks[0].0, picks[0].1).0;
      var r := RemoveAll(removed, picks[1..]);
      SetOfConsSeq(picks);
      r
  }

  /** Removing distinct planted positions gives each of their tiles the
      `remove_plant` soil bonus and leaves every other tile's soil alone. */
  lemma {:induction false} RemoveAllRaisesSoil(g: Garden, picks: seq<Pos>)
    requires Valid(g)
    ensures Distinct(picks) && (forall i :: 0 <= i < |picks| ==> picks[i] in g.plants) ==>
      SoilRaisedAt(g.soil, RemoveAll(g, picks).soil, picks)
    decreases |picks|
  {
    if |picks| > 0 {
      var removed := RemovePlant(g, picks[0].0, picks[0].1).0;
      RemoveAllRaisesSoil(removed, picks[1..]);
      RemoveAllStep(g, picks, RemoveAll(g, picks));
    }
  }

  /** One step of `RemoveAll`: if removing the rest raises the soil on the
      rest, removing the first and then the rest raises it on every pick. */
  lemma RemoveAllStep(g: Garden, picks: seq<Pos>, r: Garden)
    requires Valid(g) && |picks| > 0 && WellShaped(r)
    requires (Distinct(picks[1..]) &&
              forall i :: 0 <= i < |picks[1..]| ==> picks[1..][i] in RemovePlant(g, picks[0].0, picks[0].1).0.plants) ==>
      SoilRaisedAt(RemovePlant(g, picks[0].0, picks[0].1).0.soil, r.soil, picks[1..])
    ensures (Distinct(picks) && forall i :: 0 <= i < |picks| ==> picks[i] in g.plants) ==>
      SoilRaisedAt(g.soil, r.soil, picks)
  {
    if Distinct(picks) && forall i :: 0 <= i < |picks| ==> picks[i] in g.plants {
      var removed := RemovePlant(g, picks[0].0, picks[0].1).0;
      forall i | 0 <= i < |picks[1..]| ensures picks[1..][i] in removed.plants && picks[1..][i] != picks[0] {
        assert picks[1..][i] == picks[i + 1];
      }
      assert SoilRaisedAt(removed.soil, r.soil, picks[1..]);
      forall x, y | InBounds(x, y)
        ensures r.soil[y][x] == (if (x, y) in picks then MinReal(SoilCap, g.soil[y][x] + 0.1) else g.soil[y][x])
      {
        if (x, y) == picks[0] {
          assert (x, y) !in picks[1..];
        } else {
          assert removed.soil[y][x] == g.soil[y][x];
        }
      }
    }
  }

  lemma SetOfConsSeq(picks: seq<Pos>)
    requires |picks| > 0
    ensures (set pos | pos in picks) == {picks[0]} + set pos | pos in picks[1..]
  {
    assert picks == [picks[0]] + picks[1..];
  }

  /** `trigger_pest_infestation` with `picks` the positions `random.sample`
      chose: nothing while an infestation is active; otherwise it becomes
      active and exactly `min(3, n)` distinct plants are removed. */
  function TriggerPest(g: Garden, picks: seq<Pos>): (r: Garden)
    requires Valid(g)
    requires g.pestInfestation || IsSample(picks, g.plants.Keys, MinInt(3, |g.plants|))
    ensures Valid(r)
    ensures g.pestInfestation ==> r == g
    ensures !g.pestInfestation ==> r.pestInfestation && r.pestTimer == 0.0
    ensures !g.pestInfestation ==> r.plants.Keys == g.plants.Keys - (set pos | pos in picks)
    ensures !g.pestInfestation ==> |r.plants| == |g.plants| - MinInt(3, |g.plants|)
    ensures !g.pestInfestation ==> forall pos :: pos in r.plants ==> r.plants[pos] == g.plants[pos]
    ensures !g.pestInfestation ==> SoilRaisedAt(g.soil, r.soil, picks)
    ensures StagesKept(g, r)
    ensures SoilAtLeastInitial(g) ==> SoilAtLeastInitial(r)
  {
    if g.pestInfestation then g
    else
      var active := g.(pestInfestation := true, pestTimer := 0.0);
      if |g.plants| > 0 then
        assert forall i :: 0 <= i < |picks| ==> picks[i] in active.plants;
        var r := RemoveAll(active, picks);
        RemoveAllRaisesSoil(active, picks);
        DistinctCardinality(picks);
        assert r.plants.Keys == g.plants.Keys - (set pos | pos in picks);
        assert |r.plants.Keys| == |g.plants.Keys| - |set pos | pos in picks|;
        r
      else
        assert |picks| == 0;
        active
  }

  /** `Garden.update(dt)` with `rolls(pos)` the mutation roll of the plant at
      `pos`: every plant updates, the rain window counts down and the pest
      window ends after 30 seconds. */
  function Update(g: Garden, dt: real, rolls: Pos -> real): (r: Garden)
    requires Valid(g)
    ensures Valid(r)
    ensures r.plants.Keys == g.plants.Keys
    ensures forall pos :: pos in g.plants ==> r.plants[pos] == Plants.Update(g.plants[pos], dt, rolls(pos))
    ensures r.soil == g.soil && r.waterLevels == g.waterLevels && r.fertilizerLevels == g.fertilizerLevels
    ensures r.expansions == g.expansions
    ensures r.rainTimer == (if g.rainTimer > 0.0 && g.rainTimer - dt > 0.0 then g.rainTimer - dt
                            else if g.rainTimer > 0.0 then 0.0 else g.rainTimer)
    ensures r.pestInfestation <==> g.pestInfestation && g.pestTimer + dt < 30.0
    ensures r.pestInfestation ==> r.pestTimer == g.pestTimer + dt
    ensures g.pestInfestation && !r.pestInfestation ==> r.pestTimer == 0.0
    ensures !g.pestInfestation ==> r.pestTimer == g.pestTimer
  {
    var grown := MapPlants(g, (pos: Pos, p: Plant) requires Plants.Valid(p) => Plants.Update(p, dt, rolls(pos)));
    var rain := if g.rainTimer > 0.0 then (if g.rainTimer - dt <= 0.0 then 0.0 else g.rainTimer - dt) else g.rainTimer;
    if g.pestInfestation then
      var t := g.pestTimer + dt;
      if t >= 30.0 then grown.(rainTimer := rain, pestInfestation := false, pestTimer := 0.0)
      else grown.(rainTimer := rain, pestTimer := t)
    else grown.(rainTimer := rain)
  }

  /** A fresh infestation survives one garden step of `dt` exactly when `dt`
      is shorter than 30 seconds, with the elapsed time recorded. */
  lemma PestsLastThirtySeconds(g: Garden, picks: seq<Pos>, dt: real, rolls: Pos -> real)
    requires Valid(g) && !g.pestInfestation && IsSample(picks, g.plants.Keys, MinInt(3, |g.plants|))
    ensures Update(TriggerPest(g, picks), dt, rolls).pestInfestation <==> dt < 30.0
    ensures dt < 30.0 ==> Update(TriggerPest(g, picks), dt, rolls).pestTimer == dt
  {
    var infested := TriggerPest(g, picks);
    assert infested.pestInfestation && infested.pestTimer == 0.0;
    var after := Update(infested, dt, rolls);
    assert after.pestInfestation <==> 0.0 + dt < 30.0;
  }

  /** On a garden whose soil never fell below its starting quality, planting
      fails only off the grid or on an occupied tile, and the poor-soil
      penalty never applies. */
  lemma PlantSeedOnGoodSoil(g: Garden, x: int, y: int, plantType: string, roll: real)
    requires Valid(g) && SoilAtLeastInitial(g)
    ensures PlantSeed(g, x, y, plantType, roll).1 <==> InBounds(x, y) && (x, y) !in g.plants
    ensures InBounds(x, y) ==> Seeded(g, x, y, plantType, roll) == Plants.NewPlant(plantType, x, y, roll)
  {
  }

  /** On soil below 0.5 only an early-growth plant is affected: its 0.3 head
      start becomes 0.24. */
  lemma PoorSoilPenalty(g: Garden, x: int, y: int, plantType: string, roll: real)
    requires WellShaped(g) && InBounds(x, y) && g.soil[y][x] < 0.5
    ensures Seeded(g, x, y, plantType, roll).progress ==
      (if Plants.NewPlant(plantType, x, y, roll).isMutated then 0.24 else 0.0)
  {
  }

  /** Harvest-style removal leaves no orphan: after `remove_plant` the position
      is in neither index, and planting there afresh is possible. */
  lemma RemoveThenPlant(g: Garden, x: int, y: int, plantType: string, roll: real)
    requires Valid(g) && SoilAtLeastInitial(g) && (x, y) in g.plants
    ensures GetPlant(RemovePlant(g, x, y).0, x, y).None?
    ensures PlantSeed(RemovePlant(g, x, y).0, x, y, plantType, roll).1
  {
  }
}

=== FILE: garden_keys.dfy ===
/** Where web/js/garden.js differs from game/garden.py: its `plants` Map is keyed
    by the string `"x,y"` rather than by a coordinate pair, and the pest event
    picks its victims with `shuffleArray` (a Fisher-Yates shuffle) and parses
    the chosen keys back with `split(',').map(Number)`. This module shows that
    the string keys index exactly what the pair keys index, and that the
    shuffled choice is a valid sample for `Gardens.TriggerPest`. */
module GardenKeys {
  import opened Common
  import Plants
  import Gardens

  predicate IsDigit(c: char) {
    '0' <= c <= '9'
  }

  predicate AllDigits(s: string) {
    forall i :: 0 <= i < |s| ==> IsDigit(s[i])
  }

  function DigitChar(d: int): (c: char)
    requires 0 <= d < 10
    ensures IsDigit(c) && c as int - '0' as int == d
  {
    ('0' as int + d) as char
  }

  /** The decimal text of a natural number, as `${n}` renders it. */
  function NatText(n: int): (s: string)
    requires n >= 0
    ensures |s| > 0 && AllDigits(s)
    decreases n
  {
    if n < 10 then [DigitChar(n)] else NatText(n / 10) + [DigitChar(n % 10)]
  }

  /** `Number(s)` on a non-empty string of decimal digits. */
  function ParseNat(s: string): (n: int)
    requires |s| > 0 && AllDigits(s)
    ensures n >= 0
    decreases |s|
  {
    var last := s[|s| - 1] as int - '0' as int;
    if |s| == 1 then last else ParseNat(s[..|s| - 1]) * 10 + last
  }

  /** Reading back the decimal text of `n` gives `n`. */
  lemma {:induction false} ParseNatText(n: int)
    requires n >= 0
    ensures ParseNat(NatText(n)) == n
    decreases n
  {
    if n >= 10 {
      var s := NatText(n);
      assert s[..|s| - 1] == NatText(n / 10);
      ParseNatText(n / 10);
    }
  }

  /** The text `${n}` renders for any integer: a minus sign before the digits of a negative one. */
  function IntText(n: int): (s: string)
    ensures |s| > 0
    ensures forall j :: 0 <= j < |s| ==> s[j] != ','
  {
    if n < 0 then "-" + NatText(-n) else NatText(n)
  }

  /** `Number(s)` on the text of an integer; `None` on text that is not one. */
  function ParseInt(s: string): Option<int> {
    if |s| > 1 && s[0] == '-' && AllDigits(s[1..]) then Some(-ParseNat(s[1..]))
    else if |s| > 0 && AllDigits(s) then Some(ParseNat(s))
    else None
  }

  lemma IntTextRoundTrip(n: int)
    ensures ParseInt(IntText(n)) == Some(n)
  {
    if n < 0 {
      assert IntText(n)[1..] == NatText(-n);
      ParseNatText(-n);
    } else {
      ParseNatText(n);
    }
  }

  /** The Map key `${x},${y}` of a position. */
  function KeyOf(pos: Pos): string {
    IntText(pos.0) + "," + IntText(pos.1)
  }

  /** The index of the first comma in `s`, if there is one. */
  function FirstComma(s: string): (r: Option<int>)
    ensures r.None? ==> forall j :: 0 <= j < |s| ==> s[j] != ','
    ensures r.Some? ==> 0 <= r.value < |s| && s[r.value] == ','
    ensures r.Some? ==> forall j :: 0 <= j < r.value ==> s[j] != ','
    decreases |s|
  {
    if |s| == 0 then None
    else if s[0] == ',' then Some(0)
    else match FirstComma(s[1..])
      case None => None
      case Some(i) => Some(i + 1)
  }

  /** `key.split(',').map(Number)` on a key of the form `int,int`; `None` on
      any other text. */
  function ParseKey(s: string): Option<Pos> {
    match FirstComma(s)
    case None => None
    case Some(i) =>
      match (ParseInt(s[..i]), ParseInt(s[i + 1..]))
      case (Some(x), Some(y)) => Some((x, y))
      case _ => None
  }

  /** The first comma after comma-free text is the one right after it. */
  lemma {:induction false} FirstCommaAfter(l: string, rest: string)
    requires forall j :: 0 <= j < |l| ==> l[j] != ','
    ensures FirstComma(l + "," + rest) == Some(|l|)
    decreases |l|
  {
    if |l| > 0 {
      assert (l + "," + rest)[1..] == l[1..] + "," + rest;
      FirstCommaAfter(l[1..], rest);
    }
  }

  /** Splitting a key at its comma and reading both halves gives back the position. */
  lemma KeyRoundTrip(pos: Pos)
    ensures ParseKey(KeyOf(pos)) == Some(pos)
  {
    var l := IntText(pos.0);
    var s := KeyOf(pos);
    FirstCommaAfter(l, IntText(pos.1));
    assert s[..|l|] == l;
    assert s[|l| + 1..] == IntText(pos.1);
    IntTextRoundTrip(pos.0);
    IntTextRoundTrip(pos.1);
  }

  /** Every position's key reads back as that position. */
  lemma KeysRoundTrip()
    ensures forall pos :: ParseKey(KeyOf(pos)) == Some(pos)
  {
    forall pos ensures ParseKey(KeyOf(pos)) == Some(pos) {
      KeyRoundTrip(pos);
    }
  }

  /** Distinct positions have distinct keys. */
  lemma KeyOfInjective(a: Pos, b: Pos)
    ensures KeyOf(a) == KeyOf(b) <==> a == b
  {
    KeyRoundTrip(a);
    KeyRoundTrip(b);
  }

  /** `m` re-keyed through `enc`, where `dec` undoes `enc`. */
  function Rekey<V>(m: map<Pos, V>, enc: Pos -> string, dec: string -> Option<Pos>): (r: map<string, V>)
    requires forall pos :: dec(enc(pos)) == Some(pos)
    ensures forall pos :: pos in m ==> enc(pos) in r && r[enc(pos)] == m[pos]
    ensures forall k :: k in r ==> dec(k).Some? && dec(k).value in m && enc(dec(k).value) == k
    ensures forall k :: k in r ==> r[k] == m[dec(k).value]
  {
    map pos | pos in m :: enc(pos) := m[pos]
  }

  /** Re-keying commutes with inserting an entry. */
  lemma RekeyInsert<V>(m: map<Pos, V>, enc: Pos -> string, dec: string -> Option<Pos>, pos: Pos, v: V)
    requires forall q :: dec(enc(q)) == Some(q)
    ensures Rekey(m[pos := v], enc, dec) == Rekey(m, enc, dec)[enc(pos) := v]
  {
    var lhs := Rekey(m[pos := v], enc, dec);
    var rhs := Rekey(m, enc, dec)[enc(pos) := v];
    forall k | k in lhs ensures k in rhs && lhs[k] == rhs[k] {
      if dec(k).value != pos {
        assert k != enc(pos);
      }
    }
  }

  /** Re-keying commutes with deleting an entry. */
  lemma RekeyRemove<V>(m: map<Pos, V>, enc: Pos -> string, dec: string -> Option<Pos>, pos: Pos)
    requires forall q :: dec(enc(q)) == Some(q)
    ensures Rekey(m - {pos}, enc, dec) == Rekey(m, enc, dec) - {enc(pos)}
  {
    var lhs := Rekey(m - {pos}, enc, dec);
    var rhs := Rekey(m, enc, dec) - {enc(pos)};
    forall k | k in rhs ensures k in lhs {
      assert dec(k).value != pos;
    }
  }

  /** The string-keyed Map web/js/garden.js keeps for a position-keyed one. */
  function JsPlants(plants: map<Pos, Plants.Plant>): (m: map<string, Plants.Plant>)
    ensures forall pos :: pos in plants <==> KeyOf(pos) in m
    ensures forall pos :: pos in plants ==> m[KeyOf(pos)] == plants[pos]
    ensures forall k :: k in m ==> ParseKey(k).Some? && KeyOf(ParseKey(k).value) == k
  {
    KeysRoundTrip();
    Rekey(plants, KeyOf, ParseKey)
  }

  /** The port's Map holds as many entries as the position-keyed map. */
  lemma JsPlantsSize(plants: map<Pos, Plants.Plant>)
    ensures |JsPlants(plants)| == |plants|
  {
    KeysRoundTrip();
    RekeySize(plants, KeyOf, ParseKey);
  }

  /** Re-keying through an encoding with an inverse keeps the number of entries. */
  lemma RekeySize<V>(m: map<Pos, V>, enc: Pos -> string, dec: string -> Option<Pos>)
    requires forall q :: dec(enc(q)) == Some(q)
    ensures |Rekey(m, enc, dec)| == |m|
  {
    assert Rekey(m, enc, dec).Keys == set pos | pos in m.Keys :: enc(pos);
    ImageSize(m.Keys, enc, dec);
  }

  /** An encoding with an inverse maps a set onto a set of the same size. */
  lemma {:induction false} ImageSize(ps: set<Pos>, enc: Pos -> string, dec: string -> Option<Pos>)
    requires forall q :: dec(enc(q)) == Some(q)
    ensures |set pos | pos in ps :: enc(pos)| == |ps|
    decreases |ps|
  {
    if ps != {} {
      var p :| p in ps;
      var rest := ps - {p};
      ImageSize(rest, enc, dec);
      assert (set pos | pos in ps :: enc(pos)) == (set pos | pos in rest :: enc(pos)) + {enc(p)};
      assert enc(p) !in (set pos | pos in rest :: enc(pos)) by {
        forall q | q in rest ensures enc(q) != enc(p) {
          assert dec(enc(q)) != dec(enc(p));
        }
      }
    }
  }

  /** The dual index of the port: a tile holds a plant exactly when its `"x,y"`
      key is in the Map, and the Map holds that same plant. */
  lemma JsDualIndex(g: Gardens.Garden, x: int, y: int)
    requires Gardens.Valid(g) && InBounds(x, y)
    ensures KeyOf((x, y)) in JsPlants(g.plants) <==> g.grid[y][x].Some?
    ensures g.grid[y][x].Some? ==> g.grid[y][x].value == JsPlants(g.plants)[KeyOf((x, y))]
  {
    var m := JsPlants(g.plants);
    assert KeyOf((x, y)) in m <==> (x, y) in g.plants;
    assert g.grid[y][x].Some? <==> (x, y) in g.plants;
  }

  /** `plants.set(`${x},${y}`, plant)` is the string-keyed image of the pair-keyed insertion. */
  lemma JsPlantSeedKey(plants: map<Pos, Plants.Plant>, pos: Pos, p: Plants.Plant)
    ensures JsPlants(plants[pos := p]) == JsPlants(plants)[KeyOf(pos) := p]
  {
    KeysRoundTrip();
    RekeyInsert(plants, KeyOf, ParseKey, pos, p);
  }

  /** `plants.delete(`${x},${y}`)` is the string-keyed image of the pair-keyed removal. */
  lemma JsRemoveKey(plants: map<Pos, Plants.Plant>, pos: Pos)
    ensures JsPlants(plants - {pos}) == JsPlants(plants) - {KeyOf(pos)}
  {
    KeysRoundTrip();
    RekeyRemove(plants, KeyOf, ParseKey, pos);
  }

  /** `Math.floor(Math.random() * (i + 1))` lies in `[0, i]`. */
  lemma FloorIndexInRange(r: real, n: int)
    requires 0.0 <= r < 1.0 && n >= 1
    ensures 0 <= (r * n as real).Floor < n
  {
    assert r * n as real < n as real by {
      assert (1.0 - r) * n as real > 0.0;
    }
  }

  /** `shuffleArray`: the Fisher-Yates shuffle of a copy of `a`, where
      `rolls[i]` is the `Math.random()` drawn when swapping slot `i`. */
  method Shuffle<T>(a: seq<T>, rolls: seq<real>) returns (s: seq<T>)
    requires |rolls| >= |a|
    requires forall k :: 0 <= k < |rolls| ==> 0.0 <= rolls[k] < 1.0
    ensures |s| == |a|
    ensures multiset(s) == multiset(a)
  {
    s := a;
    var i := |s| - 1;
    while i > 0
      invariant i < |s| == |a|
      invariant multiset(s) == multiset(a)
      decreases i
    {
      FloorIndexInRange(rolls[i], i + 1);
      var j := (rolls[i] * (i + 1) as real).Floor;
      s := s[i := s[j]][j := s[i]];
      i := i - 1;
    }
  }

  /** A sequence has no repeated element exactly when no element occurs twice in its multiset. */
  lemma {:induction false} DistinctByMultiset<T>(s: seq<T>)
    ensures Distinct(s) <==> forall v :: multiset(s)[v] <= 1
  {
    if |s| > 0 {
      var rest := s[1..];
      assert s == [s[0]] + rest;
      DistinctByMultiset(rest);
      if Distinct(s) {
        assert Distinct(rest) by {
          forall i, j | 0 <= i < j < |rest| ensures rest[i] != rest[j] {
            assert rest[i] == s[i + 1] && rest[j] == s[j + 1];
          }
        }
        assert s[0] !in rest by {
          forall i | 0 <= i < |rest| ensures rest[i] != s[0] {
            assert rest[i] == s[i + 1];
          }
        }
        assert multiset(s) == multiset{s[0]} + multiset(rest);
      } else {
        var i, j :| 0 <= i < j < |s| && s[i] == s[j];
        assert multiset(s) == multiset{s[0]} + multiset(rest);
        if i == 0 {
          assert s[0] in rest by { assert rest[j - 1] == s[j]; }
          assert multiset(s)[s[0]] == multiset(rest)[s[0]] + 1;
        } else {
          assert !Distinct(rest) by { assert rest[i - 1] == s[i] && rest[j - 1] == s[j]; }
          var v :| multiset(rest)[v] > 1;
          assert multiset(s)[v] >= multiset(rest)[v];
        }
      }
    }
  }

  /** A rearrangement of a duplicate-free sequence is duplicate-free. */
  lemma DistinctPermutation<T>(a: seq<T>, b: seq<T>)
    requires Distinct(a) && multiset(a) == multiset(b)
    ensures Distinct(b)
  {
    DistinctByMultiset(a);
    DistinctByMultiset(b);
  }

  /** The Map's keys, in insertion order, for positions listed in `order`. */
  function KeysOf(order: seq<Pos>): (keys: seq<string>)
    ensures |keys| == |order|
    ensures forall i :: 0 <= i < |order| ==> keys[i] == KeyOf(order[i])
    ensures Distinct(order) ==> Distinct(keys)
  {
    var keys := seq(|order|, i requires 0 <= i < |order| => KeyOf(order[i]));
    assert Distinct(order) ==> Distinct(keys) by {
      if Distinct(order) {
        forall i, j | 0 <= i < j < |keys| ensures keys[i] != keys[j] {
          KeyOfInjective(order[i], order[j]);
        }
      }
    }
    keys
  }

  /** The positions the chosen keys parse back to. */
  function ParseAll(chosen: seq<string>, order: seq<Pos>): (picks: seq<Pos>)
    requires forall i :: 0 <= i < |chosen| ==> chosen[i] in KeysOf(order)
    ensures |picks| == |chosen|
    ensures forall i :: 0 <= i < |chosen| ==> picks[i] in order && chosen[i] == KeyOf(picks[i])
    ensures Distinct(chosen) ==> Distinct(picks)
  {
    seq(|chosen|, i requires 0 <= i < |chosen| => ParsedKeyOf(chosen[i], KeysOf(order), order))
  }

  /** A rearrangement of the Map's keys holds each key once. */
  lemma ShuffledKeys(order: seq<Pos>, shuffled: seq<string>)
    requires Distinct(order) && multiset(shuffled) == multiset(KeysOf(order))
    ensures |shuffled| == |order| && Distinct(shuffled)
    ensures forall i :: 0 <= i < |shuffled| ==> shuffled[i] in KeysOf(order)
  {
    var ks := KeysOf(order);
    assert |shuffled| == |ks| by {
      assert |multiset(shuffled)| == |multiset(ks)|;
    }
    forall i | 0 <= i < |shuffled| ensures shuffled[i] in ks {
      assert shuffled[i] in multiset(shuffled);
    }
    DistinctPermutation(ks, shuffled);
  }

  /** The first `min(3, n)` keys of a rearrangement of the Map's keys parse
      back to `min(3, n)` distinct planted positions. */
  lemma ChosenPrefixIsSample(order: seq<Pos>, keys: set<Pos>, shuffled: seq<string>)
    requires Distinct(order) && (set pos | pos in order) == keys
    requires multiset(shuffled) == multiset(KeysOf(order))
    ensures forall i :: 0 <= i < MinInt(3, |shuffled|) ==> shuffled[i] in KeysOf(order)
    ensures Gardens.IsSample(ParseAll(shuffled[..MinInt(3, |shuffled|)], order), keys, MinInt(3, |keys|))
  {
    ShuffledKeys(order, shuffled);
    var chosen := shuffled[..MinInt(3, |shuffled|)];
    assert Distinct(chosen);
    var picks := ParseAll(chosen, order);
    DistinctCardinality(order);
    assert forall i :: 0 <= i < |picks| ==> picks[i] in keys;
  }

  /** `triggerPestInfestation` of web/js/garden.js. `order` is
      `Array.from(this.plants.keys())` read back as positions (the Map's
      insertion order), `rolls` the shuffle's draws. The shuffled prefix is a
      valid sample, so the port destroys exactly `min(3, n)` distinct plants,
      as game/garden.py does. `destroyed` lists the positions it removed; each
      of their tiles gets the soil bonus of `removePlant`. */
  method TriggerPestJs(g: Gardens.Garden, order: seq<Pos>, rolls: seq<real>) returns (r: Gardens.Garden, destroyed: seq<Pos>)
    requires Gardens.Valid(g)
    requires Distinct(order) && (set pos | pos in order) == g.plants.Keys
    requires |rolls| >= |order| && forall k :: 0 <= k < |rolls| ==> 0.0 <= rolls[k] < 1.0
    ensures Gardens.Valid(r)
    ensures g.pestInfestation ==> r == g
    ensures !g.pestInfestation ==> r.pestInfestation && r.plants.Keys <= g.plants.Keys
    ensures !g.pestInfestation ==> |r.plants| == |g.plants| - MinInt(3, |g.plants|)
    ensures !g.pestInfestation ==> r.pestTimer == 0.0
    ensures forall pos :: pos in r.plants ==> pos in g.plants && r.plants[pos] == g.plants[pos]
    ensures r.expansions == g.expansions && r.rainTimer == g.rainTimer
    ensures g.pestInfestation ==> destroyed == []
    ensures !g.pestInfestation ==> Gardens.IsSample(destroyed, g.plants.Keys, MinInt(3, |g.plants|))
    ensures !g.pestInfestation ==> r.plants.Keys == g.plants.Keys - set pos | pos in destroyed
    ensures !g.pestInfestation ==> Gardens.SoilRaisedAt(g.soil, r.soil, destroyed)
  {
    if g.pestInfestation {
      return g, [];
    }
    destroyed := ChooseVictims(order, g.plants.Keys, rolls);
    r := Gardens.TriggerPest(g, destroyed);
  }

  /** The victims `triggerPestInfestation` picks: the Map's keys shuffled, the
      first `min(3, n)` taken and parsed back to positions. */
  method ChooseVictims(order: seq<Pos>, keys: set<Pos>, rolls: seq<real>) returns (picks: seq<Pos>)
    requires Distinct(order) && (set pos | pos in order) == keys
    requires |rolls| >= |order| && forall k :: 0 <= k < |rolls| ==> 0.0 <= rolls[k] < 1.0
    ensures Gardens.IsSample(picks, keys, MinInt(3, |keys|))
  {
    var shuffled := Shuffle(KeysOf(order), rolls);
    ChosenPrefixIsSample(order, keys, shuffled);
    picks := ParseAll(shuffled[..MinInt(3, |shuffled|)], order);
  }

  /** The position a chosen key parses back to: the position it was made from. */
  function ParsedKeyOf(key: string, keys: seq<string>, order: seq<Pos>): (pos: Pos)
    requires |keys| == |order| && key in keys
    requires forall i :: 0 <= i < |order| ==> keys[i] == KeyOf(order[i])
    ensures pos in order && key == KeyOf(pos) && ParseKey(key) == Some(pos)
  {
    var i :| 0 <= i < |keys| && keys[i] == key;
    KeyRoundTrip(order[i]);
    ParseKey(key).value
  }
}

=== FILE: plant.dfy ===
/** One plant: the growth stage machine, water and fertiliser care, one-shot
    mutations and the plant's own intrinsic value (game/plant.py, ported line
    for line to web/js/plant.js). Random rolls are parameters: a roll `r`
    "succeeds" against a chance `c` exactly when `r < c`, as in
    `random.random() < c`. */
module Plants {
  import opened Common

  /** The static parameters of a species (the display colour is left out). */
  datatype SpeciesData = SpeciesData(
    name: string,
    growthTime: real,
    waterNeed: int,
    baseValue: int,
    mutationChance: real)

  const Carrot := SpeciesData("Carrot", 8.0, 2, 15, 0.08)
  const Tomato := SpeciesData("Tomato", 12.0, 3, 25, 0.06)
  const Corn := SpeciesData("Corn", 15.0, 4, 35, 0.04)

  /** The species table PLANT_TYPES; `None` for a type it does not list. */
  function Lookup(plantType: string): Option<SpeciesData> {
    if plantType == "carrot" then Some(Carrot)
    else if plantType == "tomato" then Some(Tomato)
    else if plantType == "corn" then Some(Corn)
    else None
  }

  /** The parameters a plant of `plantType` grows with: an unknown type silently
      falls back to carrot. */
  function SpeciesOf(plantType: string): (s: SpeciesData)
    ensures Lookup(plantType).Some? ==> s == Lookup(plantType).value
    ensures Lookup(plantType).None? ==> s == Carrot
    ensures s.growthTime >= 8.0 && s.waterNeed >= 2 && s.baseValue >= 15
    ensures 0.0 < s.mutationChance <= 0.08
  {
    Lookup(plantType).GetOr(Carrot)
  }

  /** GROWTH_STAGES, in order. */
  const StageNames: seq<string> := ["seed", "sprout", "small_plant", "mature_plant", "harvestable"]
  const FinalStage: int := |StageNames| - 1

  const WateringBonus: real := 0.5
  const FertilizerBonus: real := 0.3

  /** The mutation kinds `_apply_mutation` knows; only the first two are ever rolled. */
  datatype Mutation = GrowthSpurt | EarlyGrowth | RareColor | Giant

  datatype Plant = Plant(
    plantType: string,
    x: int,
    y: int,
    stage: int,              // index into StageNames
    progress: real,          // progress towards the next stage
    growthTimer: real,       // simulated seconds since planting
    stageTimer: real,        // simulated seconds since the last stage change
    water: int,
    maxWater: int,
    lastWatered: real,       // growthTimer at the last successful watering
    fertilized: bool,
    mutations: seq<Mutation>,
    isMutated: bool,
    mutationMultiplier: real,
    sizeMultiplier: real,
    colorVariants: seq<string>)

  /** The invariant every plant keeps: the stage stays in range, water stays
      within the species' need, at most one mutation was ever applied and
      `isMutated` records exactly whether one was, and a plant below the final
      stage has not yet reached a full stage of progress. */
  predicate Valid(p: Plant) {
    && 0 <= p.stage <= FinalStage
    && p.maxWater == SpeciesOf(p.plantType).waterNeed
    && 0 <= p.water <= p.maxWater
    && |p.mutations| <= 1
    && (p.isMutated <==> |p.mutations| == 1)
    && (!p.isMutated ==> p.mutationMultiplier == 1.0)
    && p.mutationMultiplier >= 1.0
    && (p.stage < FinalStage ==> p.progress < 1.0)
  }

  /** `_apply_mutation`: mark the plant mutated, record the kind and apply its effect. */
  function ApplyMutation(p: Plant, m: Mutation): (q: Plant)
    ensures q.isMutated && q.mutations == p.mutations + [m]
    ensures q.stage == p.stage && q.water == p.water && q.fertilized == p.fertilized
    ensures q.mutationMultiplier >= 1.2
  {
    var marked := p.(isMutated := true, mutations := p.mutations + [m]);
    match m
    case GrowthSpurt => marked.(mutationMultiplier := 1.5, sizeMultiplier := 1.3)
    case EarlyGrowth => marked.(mutationMultiplier := 1.2, progress := marked.progress + 0.3)
    case RareColor => marked.(colorVariants := marked.colorVariants + ["rare"], mutationMultiplier := 2.0)
    case Giant => marked.(sizeMultiplier := 2.0, mutationMultiplier := 3.0)
  }

  /** `_check_initial_mutation`: a tenth of the species' chance of an early-growth mutation. */
  function CheckInitialMutation(p: Plant, roll: real): (q: Plant)
    ensures q.plantType == p.plantType && q.stage == p.stage && q.water == p.water && q.fertilized == p.fertilized
    ensures roll < SpeciesOf(p.plantType).mutationChance * 0.1 ==>
      q.isMutated && q.mutations == p.mutations + [EarlyGrowth] && q.mutationMultiplier >= 1.2
    ensures !(roll < SpeciesOf(p.plantType).mutationChance * 0.1) ==> q == p
  {
    if roll < SpeciesOf(p.plantType).mutationChance * 0.1 then ApplyMutation(p, EarlyGrowth) else p
  }

  /** `Plant.__init__`: a fresh plant of `plantType` at `(x, y)`, given the
      initial mutation roll. */
  function NewPlant(plantType: string, x: int, y: int, roll: real): (p: Plant)
    ensures Valid(p)
    ensures p.plantType == plantType && p.x == x && p.y == y
    ensures p.stage == 0 && p.water == 0 && p.maxWater == SpeciesOf(plantType).waterNeed
    ensures !p.fertilized && p.growthTimer == 0.0 && p.lastWatered == 0.0
    ensures roll < SpeciesOf(plantType).mutationChance * 0.1 ==>
      p.mutations == [EarlyGrowth] && p.mutationMultiplier == 1.2 && p.progress == 0.3
    ensures !(roll < SpeciesOf(plantType).mutationChance * 0.1) ==>
      !p.isMutated && p.mutations == [] && p.mutationMultiplier == 1.0 && p.progress == 0.0
  {
    var seedling := Plant(plantType, x, y, 0, 0.0, 0.0, 0.0, 0, SpeciesOf(plantType).waterNeed, 0.0,
                       false, [], false, 1.0, 1.0, []);
    CheckInitialMutation(seedling, roll)
  }

  /** The water factor of `_calculate_growth_rate`. */
  function WaterFactor(p: Plant): real {
    if p.water >= p.maxWater then 1.0 + WateringBonus
    else if p.water == 0 then 0.5
    else 1.0
  }

  function FertilizerFactor(p: Plant): real {
    if p.fertilized then 1.0 + FertilizerBonus else 1.0
  }

  /** `_calculate_growth_rate`: stage progress per simulated second. A plant
      with some water but not full and no fertiliser advances one stage per
      growth time; care can at most speed that up 1.95-fold. */
  function GrowthRate(p: Plant): (rate: real)
    ensures rate > 0.0
    ensures !p.fertilized && 0 < p.water < p.maxWater ==> rate == 1.0 / SpeciesOf(p.plantType).growthTime
    ensures rate <= 1.95 / SpeciesOf(p.plantType).growthTime
  {
    (1.0 / SpeciesOf(p.plantType).growthTime) * WaterFactor(p) * FertilizerFactor(p)
  }

  /** The chance of a growth-spurt mutation on a stage advance. */
  function MutationChance(p: Plant): real {
    var base := SpeciesOf(p.plantType).mutationChance;
    var withFertilizer := if p.fertilized then base * 1.5 else base;
    if p.water >= p.maxWater then withFertilizer * 1.2 else withFertilizer
  }

  /** `_check_mutation`: an already mutated plant is never mutated again. */
  function CheckMutation(p: Plant, roll: real): (q: Plant)
    ensures p.isMutated ==> q == p
    ensures !p.isMutated && roll < MutationChance(p) ==> q == ApplyMutation(p, GrowthSpurt)
    ensures !(roll < MutationChance(p)) ==> q == p
  {
    if p.isMutated then p
    else if roll < MutationChance(p) then ApplyMutation(p, GrowthSpurt)
    else p
  }

  /** `_advance_stage`: one stage up, progress reset; the mutation roll is taken
      only on reaching stage 2 or later. */
  function AdvanceStage(p: Plant, roll: real): (q: Plant)
    requires p.stage < FinalStage
    ensures q.stage == p.stage + 1 && q.progress == 0.0 && q.stageTimer == 0.0
    ensures q.plantType == p.plantType && q.water == p.water && q.fertilized == p.fertilized
    ensures p.isMutated ==> q.mutations == p.mutations && q.mutationMultiplier == p.mutationMultiplier
    ensures q.isMutated && !p.isMutated ==> q.stage >= 2 && q.mutations == p.mutations + [GrowthSpurt]
  {
    var next := p.(stage := p.stage + 1, progress := 0.0, stageTimer := 0.0);
    if next.stage > 1 then CheckMutation(next, roll) else next
  }

  /** True when an `update` would drain one unit of water: more than ten
      seconds since the last watering. */
  predicate Drying(p: Plant) {
    p.growthTimer - p.lastWatered > 10.0
  }

  /** `Plant.update(dt)` with `roll` the stage-advance mutation roll. */
  function Update(p: Plant, dt: real, roll: real): (q: Plant)
    requires Valid(p)
    ensures Valid(q)
    ensures q.plantType == p.plantType && q.x == p.x && q.y == p.y && q.fertilized == p.fertilized
    ensures p.stage <= q.stage <= p.stage + 1
    ensures q.stage == p.stage + 1 <==>
      p.stage < FinalStage && p.progress + GrowthRate(p) * dt >= 1.0
    ensures q.stage == p.stage + 1 ==> q.progress == 0.0 && q.stageTimer == 0.0
    ensures q.stage == p.stage ==> q.progress == p.progress + GrowthRate(p) * dt
    ensures q.growthTimer == p.growthTimer + dt && q.lastWatered == p.lastWatered
    ensures q.water == (if Drying(q) then MaxInt(0, p.water - 1) else p.water)
    ensures p.isMutated ==> q.mutations == p.mutations && q.mutationMultiplier == p.mutationMultiplier
    ensures q.isMutated && !p.isMutated ==>
      q.stage == p.stage + 1 && q.stage >= 2 && q.mutations == [GrowthSpurt] && q.mutationMultiplier == 1.5
  {
    var timed := p.(growthTimer := p.growthTimer + dt, stageTimer := p.stageTimer + dt);
    var grown := timed.(progress := timed.progress + GrowthRate(timed) * dt);
    var staged := if grown.progress >= 1.0 && grown.stage < FinalStage then AdvanceStage(grown, roll) else grown;
    if Drying(staged) then staged.(water := MaxInt(0, staged.water - 1)) else staged
  }

  /** `water()`: one more unit of water while below the species' need. */
  function Water(p: Plant): (res: (Plant, bool))
    ensures res.1 <==> p.water < p.maxWater
    ensures res.1 ==> res.0 == p.(water := p.water + 1, lastWatered := p.growthTimer)
    ensures !res.1 ==> res.0 == p
    ensures Valid(p) ==> Valid(res.0)
  {
    if p.water < p.maxWater then
      (p.(water := if p.maxWater <= p.water + 1 then p.maxWater else p.water + 1,
          lastWatered := p.growthTimer), true)
    else
      (p, false)
  }

  /** `fertilize()`: succeeds once per plant lifetime. */
  function Fertilize(p: Plant): (res: (Plant, bool))
    ensures res.1 <==> !p.fertilized
    ensures res.0.fertilized
    ensures res.0 == p.(fertilized := true)
    ensures Valid(p) ==> Valid(res.0)
  {
    if !p.fertilized then (p.(fertilized := true), true) else (p, false)
  }

  /** `is_harvestable`: the final stage, which no later update leaves. */
  predicate IsHarvestable(p: Plant)
    ensures Valid(p) && IsHarvestable(p) ==> forall dt, roll :: Update(p, dt, roll).stage == p.stage
  {
    p.stage == FinalStage
  }

  /** `get_current_stage`: the name of the current stage. */
  function StageName(p: Plant): (name: string)
    requires Valid(p)
    ensures IsHarvestable(p) <==> name == "harvestable"
  {
    StageNames[p.stage]
  }

  /** The care bonus of `get_value`: +0.3 fertilised, +0.2 at full water. */
  function CareBonus(p: Plant): real {
    1.0 + (if p.fertilized then 0.3 else 0.0) + (if p.water >= p.maxWater then 0.2 else 0.0)
  }

  /** The unfloored product `get_value` truncates. */
  function RawValue(p: Plant): real {
    SpeciesOf(p.plantType).baseValue as real * (1.0 + 0.2 * p.stage as real)
      * p.mutationMultiplier * CareBonus(p)
  }

  /** `get_value` of game/plant.py: `int(...)`, which on this non-negative
      product is its floor. */
  function Value(p: Plant): (v: int)
    requires Valid(p)
    ensures v >= SpeciesOf(p.plantType).baseValue
  {
    RawValueAtLeastBase(p);
    RawValue(p).Floor
  }

  /** `getValue` of web/js/plant.js, which additionally clamps at 1. */
  function ValueJs(p: Plant): (v: int)
    ensures v >= 1
  {
    MaxInt(1, RawValue(p).Floor)
  }

  lemma MulMonotone(a: real, b: real, c: real)
    requires 0.0 <= c && a <= b
    ensures a * c <= b * c
  {
  }

  /** Raising one factor of a product of non-negative factors never lowers it. */
  lemma ProductMonotone(k: real, s: real, t: real, m: real, c: real)
    requires 0.0 <= k && s <= t && 0.0 <= m && 0.0 <= c
    ensures k * s * m * c <= k * t * m * c
  {
    MulMonotone(s, t, k);
    MulMonotone(k * s, k * t, m);
    MulMonotone(k * s * m, k * t * m, c);
  }

  lemma RawValueAtLeastBase(p: Plant)
    requires Valid(p)
    ensures RawValue(p) >= SpeciesOf(p.plantType).baseValue as real
  {
    var base := SpeciesOf(p.plantType).baseValue as real;
    var stageFactor := 1.0 + 0.2 * p.stage as real;
    MulMonotone(1.0, stageFactor, base);
    MulMonotone(base, base * stageFactor, 1.0);
    MulMonotone(1.0, p.mutationMultiplier, base * stageFactor);
    MulMonotone(1.0, CareBonus(p), base * stageFactor * p.mutationMultiplier);
  }

  /** Both value formulas agree on every valid plant: each factor is at least 1
      and every species is worth at least 15, so the JavaScript clamp never fires. */
  lemma ValueJsAgrees(p: Plant)
    requires Valid(p)
    ensures ValueJs(p) == Value(p)
  {
    RawValueAtLeastBase(p);
  }

  /** The intrinsic value never drops as the plant grows. */
  lemma ValueMonotoneInStage(p: Plant, stage: int)
    requires Valid(p) && p.stage <= stage <= FinalStage
    ensures Value(p) <= Value(p.(stage := stage))
  {
    RawValueMonotone(p, p.(stage := stage));
  }

  /** Two plants that differ only in stage are valued in stage order. */
  lemma RawValueMonotone(p: Plant, q: Plant)
    requires p.mutationMultiplier >= 1.0 && p.stage <= q.stage
    requires q == p.(stage := q.stage)
    ensures RawValue(p) <= RawValue(q)
  {
    var k := SpeciesOf(p.plantType).baseValue as real;
    var m, c := p.mutationMultiplier, CareBonus(p);
    var s, t := 1.0 + 0.2 * p.stage as real, 1.0 + 0.2 * q.stage as real;
    ProductMonotone(k, s, t, m, c);
  }

  /** A dry plant grows at a third of the rate of the same plant at full water
      (factor 0.5 against 1.5): it is strictly slower. */
  lemma DryGrowsSlower(p: Plant)
    requires Valid(p) && p.water == 0
    ensures GrowthRate(p.(water := p.maxWater)) == 3.0 * GrowthRate(p)
    ensures GrowthRate(p) < GrowthRate(p.(water := p.maxWater))
  {
    var s := SpeciesOf(p.plantType);
  }

  /** Fertiliser multiplies the growth rate by 1.3 whatever the water level. */
  lemma FertiliserSpeedsGrowth(p: Plant)
    ensures GrowthRate(p.(fertilized := true)) == 1.3 * GrowthRate(p.(fertilized := false))
  {
  }

  /** Topping up a partly watered plant speeds its growth by half again. */
  lemma FullWaterSpeedsGrowth(p: Plant)
    requires 0 < p.water < p.maxWater
    ensures GrowthRate(p.(water := p.maxWater)) == 1.5 * GrowthRate(p)
  {
  }

  /** Mutation is one-shot across any number of updates: once mutated, later
      updates keep the recorded mutation and its multiplier. */
  lemma {:induction false} MutationOneShot(p: Plant, dts: seq<real>, rolls: seq<real>)
    requires Valid(p) && p.isMutated && |rolls| == |dts|
    ensures Run(p, dts, rolls).mutations == p.mutations
    ensures Run(p, dts, rolls).mutationMultiplier == p.mutationMultiplier
    ensures Run(p, dts, rolls).stage >= p.stage
    decreases |dts|
  {
    if |dts| > 0 {
      MutationOneShot(Update(p, dts[0], rolls[0]), dts[1..], rolls[1..]);
    }
  }

  /** A sequence of `update` calls with their mutation rolls. */
  function Run(p: Plant, dts: seq<real>, rolls: seq<real>): (q: Plant)
    requires Valid(p) && |rolls| == |dts|
    ensures Valid(q)
    ensures q.plantType == p.plantType && q.x == p.x && q.y == p.y
    decreases |dts|
  {
    if |dts| == 0 then p else Run(Update(p, dts[0], rolls[0]), dts[1..], rolls[1..])
  }

  /** Over any number of updates the stage never decreases, never exceeds the
      final stage, and rises by at most one per call. */
  lemma {:induction false} RunStageBounds(p: Plant, dts: seq<real>, rolls: seq<real>)
    requires Valid(p) && |rolls| == |dts|
    ensures p.stage <= Run(p, dts, rolls).stage <= FinalStage
    ensures Run(p, dts, rolls).stage <= p.stage + |dts|
    decreases |dts|
  {
    if |dts| > 0 {
      RunStageBounds(Update(p, dts[0], rolls[0]), dts[1..], rolls[1..]);
    }
  }

  /** Once more than ten seconds have passed since the last watering, every
      further non-negative tick drains water again, because `update` never
      advances `lastWatered`. */
  lemma DryingPersists(p: Plant, dt: real, roll: real)
    requires Valid(p) && Drying(p) && dt >= 0.0
    ensures Drying(Update(p, dt, roll))
    ensures Update(p, dt, roll).water == MaxInt(0, p.water - 1)
  {
  }

  /** Four two-second ticks of an unwatered carrot leave it a seed: dry, it
      gains 1/16 per second, so 8 seconds add 0.5 progress (0.8 with the
      early-growth bonus), never a full stage. */
  lemma CarrotFourTicks(roll0: real, r1: real, r2: real, r3: real, r4: real)
    ensures Run(NewPlant("carrot", 0, 0, roll0), [2.0, 2.0, 2.0, 2.0], [r1, r2, r3, r4]).stage == 0
  {
    var p0 := NewPlant("carrot", 0, 0, roll0);
    assert GrowthRate(p0) == 1.0 / 16.0;
    var p1 := Update(p0, 2.0, r1);
    var p2 := Update(p1, 2.0, r2);
    var p3 := Update(p2, 2.0, r3);
    var p4 := Update(p3, 2.0, r4);
    assert p4.stage == 0 && p4.progress == p0.progress + 0.5;
    assert Run(p3, [2.0], [r4]) == Run(p4, [], []);
    assert Run(p2, [2.0, 2.0], [r3, r4]) == Run(p3, [2.0], [r4]);
    assert Run(p1, [2.0, 2.0, 2.0], [r2, r3, r4]) == Run(p2, [2.0, 2.0], [r3, r4]);
  }
}

=== FILE: player.dfy ===
/** The player of game/player.py (ported to web/js/player.js): the seed and
    tool inventory, the current selections, energy, and the experience and
    level counters. Position, speed and the per-frame movement and energy
    regeneration are screen geometry and are not part of this model; only the
    direction flags that `move` sets are. */
module Players {
  import opened Common

  datatype Player = Player(
    seeds: map<string, int>,   // seed type -> count
    tools: seq<string>,        // owned tools, in acquisition order
    selectedTool: string,
    selectedSeed: string,
    energy: real,
    maxEnergy: int,
    experience: int,
    level: int,
    dx: int,                   // horizontal direction flag: -1, 0 or 1
    dy: int)                   // vertical direction flag: -1, 0 or 1

  /** Experience needed for one level, and the energy a level adds. */
  const ExperiencePerLevel: int := 100
  const EnergyPerLevel: int := 10
  const StartingEnergy: int := 100

  /** What every reachable player satisfies: stocked seeds have a positive
      count, tools are owned once each and the selected tool is owned, the
      experience counter stays below one level, each level gained added its
      energy, energy is non-negative and the direction flags are unit steps. */
  predicate Valid(p: Player) {
    && (forall s :: s in p.seeds ==> p.seeds[s] > 0)
    && Distinct(p.tools)
    && p.selectedTool in p.tools
    && 0 <= p.experience < ExperiencePerLevel
    && p.level >= 1
    && p.maxEnergy == StartingEnergy + EnergyPerLevel * (p.level - 1)
    && p.energy >= 0.0
    && -1 <= p.dx <= 1 && -1 <= p.dy <= 1
  }

  /** `Player.__init__`. Its properties are stated by `InitialState`. */
  function Initial(): Player {
    Player(map["carrot" := 5], ["basic_watering_can"], "basic_watering_can", "carrot",
      StartingEnergy as real, StartingEnergy, 0, 1, 0, 0)
  }

  /** A new player is valid: five carrot seeds, the basic watering can, level
      1 with no experience, full energy of 100, standing still. */
  lemma InitialState()
    ensures Valid(Initial())
    ensures Initial().seeds == map["carrot" := 5] && Initial().tools == ["basic_watering_can"]
    ensures Initial().selectedTool == "basic_watering_can" && Initial().selectedSeed == "carrot"
    ensures Initial().level == 1 && Initial().experience == 0
    ensures Initial().energy == 100.0 && Initial().maxEnergy == 100
  {
  }

  // ------------------------------------------------------------------ movement

  /** `move(direction, pressed)`: a known direction sets its axis flag to its
      unit step while pressed and to 0 on release; the other axis, and any
      unknown direction, leave the player unchanged. */
  function Move(p: Player, direction: string, pressed: bool): (r: Player)
    ensures Valid(p) ==> Valid(r)
    ensures r.(dx := p.dx, dy := p.dy) == p
    ensures direction in {"left", "right"} ==> r.dy == p.dy
    ensures direction in {"up", "down"} ==> r.dx == p.dx
    ensures direction !in {"left", "right", "up", "down"} ==> r == p
    ensures !pressed && direction in {"left", "right"} ==> r.dx == 0
    ensures !pressed && direction in {"up", "down"} ==> r.dy == 0
    ensures pressed && direction == "left" ==> r.dx < 0
    ensures pressed && direction == "right" ==> r.dx > 0
    ensures pressed && direction == "up" ==> r.dy < 0
    ensures pressed && direction == "down" ==> r.dy > 0
  {
    if direction == "left" then p.(dx := if pressed then -1 else 0)
    else if direction == "right" then p.(dx := if pressed then 1 else 0)
    else if direction == "up" then p.(dy := if pressed then -1 else 0)
    else if direction == "down" then p.(dy := if pressed then 1 else 0)
    else p
  }

  /** Pressing and then releasing a direction leaves the player standing
      still on that axis, whatever it was doing before. */
  lemma PressThenRelease(p: Player, direction: string)
    requires direction in {"left", "right", "up", "down"}
    ensures var r := Move(Move(p, direction, true), direction, false);
      if direction in {"left", "right"} then r == p.(dx := 0) else r == p.(dy := 0)
  {
  }

  // ------------------------------------------------------------------ seeds

  /** The number of `seedType` seeds held (0 when the key is absent). */
  function Count(p: Player, seedType: string): int {
    if seedType in p.seeds then p.seeds[seedType] else 0
  }

  /** `has_seed`: the key is present with a positive count, so holding a seed
      is the same as a positive count. */
  predicate HasSeed(p: Player, seedType: string)
    ensures HasSeed(p, seedType) <==> Count(p, seedType) > 0
  {
    seedType in p.seeds && p.seeds[seedType] > 0
  }

  /** On a valid player, holding a seed is the same as having its key. */
  lemma HasSeedIsKey(p: Player, seedType: string)
    requires Valid(p)
    ensures HasSeed(p, seedType) <==> seedType in p.seeds
    ensures HasSeed(p, seedType) <==> Count(p, seedType) > 0
  {
  }

  /** `add_seed(seed_type, amount)`: the count of `seedType` grows by `amount`
      (from 0 when it was absent); no other count changes. */
  function AddSeed(p: Player, seedType: string, amount: int): (r: Player)
    ensures seedType in r.seeds && Count(r, seedType) == Count(p, seedType) + amount
    ensures r.seeds.Keys == p.seeds.Keys + {seedType}
    ensures forall s :: s != seedType ==> Count(r, s) == Count(p, s)
    ensures r.(seeds := p.seeds) == p
    ensures Valid(p) && amount > 0 ==> Valid(r)
  {
    if seedType in p.seeds then p.(seeds := p.seeds[seedType := p.seeds[seedType] + amount])
    else p.(seeds := p.seeds[seedType := amount])
  }

  /** `use_seed`: succeeds exactly when the seed is held; it then takes one
      seed away and drops the key when the count reaches 0. A failed call
      changes nothing. */
  function UseSeed(p: Player, seedType: string): (res: (Player, bool))
    ensures res.1 <==> HasSeed(p, seedType)
    ensures !res.1 ==> res.0 == p
    ensures res.1 ==> Count(res.0, seedType) == Count(p, seedType) - 1
    ensures res.1 ==> (seedType in res.0.seeds <==> Count(p, seedType) > 1)
    ensures forall s :: s != seedType ==> (s in res.0.seeds <==> s in p.seeds)
    ensures forall s :: s != seedType ==> Count(res.0, s) == Count(p, s)
    ensures res.0.(seeds := p.seeds) == p
    ensures Valid(p) ==> Valid(res.0)
  {
    if HasSeed(p, seedType) then
      var left := p.seeds[seedType] - 1;
      if left <= 0 then (p.(seeds := p.seeds - {seedType}), true)
      else (p.(seeds := p.seeds[seedType := left]), true)
    else (p, false)
  }

  /** Buying one seed and planting it restores the inventory exactly: the key
      added for a new seed type is dropped again. */
  lemma AddThenUseSeed(p: Player, seedType: string)
    requires Valid(p)
    ensures UseSeed(AddSeed(p, seedType, 1), seedType) == (p, true)
  {
    var r := UseSeed(AddSeed(p, seedType, 1), seedType).0;
    assert r.seeds == p.seeds;
  }

  /** `use_seed` called `n` times in a row, stopping at the first failure. */
  function UseSeeds(p: Player, seedType: string, n: nat): (res: (Player, bool))
    ensures res.0.(seeds := p.seeds) == p
    decreases n
  {
    if n == 0 then (p, true)
    else
      var (q, ok) := UseSeed(p, seedType);
      if ok then UseSeeds(q, seedType, n - 1) else (q, false)
  }

  /** Holding `n` seeds allows exactly `n` successful uses, each taking one. */
  lemma {:induction false} UseSeedsCount(p: Player, seedType: string, n: nat)
    requires Valid(p)
    ensures UseSeeds(p, seedType, n).1 <==> n <= Count(p, seedType)
    ensures n <= Count(p, seedType) ==> Count(UseSeeds(p, seedType, n).0, seedType) == Count(p, seedType) - n
    decreases n
  {
    if n > 0 {
      var (q, ok) := UseSeed(p, seedType);
      if ok {
        UseSeedsCount(q, seedType, n - 1);
      }
    }
  }

  // ------------------------------------------------------------------ tools and selection

  /** `add_tool`: the tool is owned afterwards, each tool is listed once, and
      the tools already owned keep their order. */
  function AddTool(p: Player, tool: string): (r: Player)
    ensures tool in r.tools
    ensures forall t :: t in r.tools <==> t in p.tools || t == tool
    ensures Distinct(p.tools) ==> Distinct(r.tools)
    ensures |r.tools| >= |p.tools| && r.tools[..|p.tools|] == p.tools
    ensures r.(tools := p.tools) == p
    ensures Valid(p) ==> Valid(r)
  {
    if tool in p.tools then p else p.(tools := p.tools + [tool])
  }

  lemma AddToolIdempotent(p: Player, tool: string)
    ensures AddTool(AddTool(p, tool), tool) == AddTool(p, tool)
  {
  }

  /** `select_tool`: the selection moves only to an owned tool; an unowned
      name changes nothing. */
  function SelectTool(p: Player, tool: string): (r: Player)
    ensures r.selectedTool in p.tools || r == p
    ensures tool in p.tools ==> r.selectedTool == tool
    ensures tool !in p.tools ==> r == p
    ensures r.(selectedTool := p.selectedTool) == p
    ensures Valid(p) ==> Valid(r)
  {
    if tool in p.tools then p.(selectedTool := tool) else p
  }

  /** `select_seed`: the selection moves only to a seed in stock. */
  function SelectSeed(p: Player, seedType: string): (r: Player)
    ensures HasSeed(p, seedType) ==> r.selectedSeed == seedType
    ensures !HasSeed(p, seedType) ==> r == p
    ensures r.(selectedSeed := p.selectedSeed) == p
    ensures Valid(p) ==> Valid(r)
  {
    if HasSeed(p, seedType) then p.(selectedSeed := seedType) else p
  }

  // ------------------------------------------------------------------ energy and experience

  /** `use_energy`: succeeds exactly when enough energy is left, and only then
      subtracts it; energy never goes negative. */
  function UseEnergy(p: Player, amount: int): (res: (Player, bool))
    ensures res.1 <==> p.energy >= amount as real
    ensures !res.1 ==> res.0 == p
    ensures res.1 ==> res.0.energy + amount as real == p.energy
    ensures res.0.(energy := p.energy) == p
    ensures Valid(p) ==> Valid(res.0)
  {
    if p.energy >= amount as real then (p.(energy := p.energy - amount as real), true)
    else (p, false)
  }

  /** The levels `add_experience(amount)` grants from `experience`: one per
      full hundred of the new total, none when the total is below a hundred. */
  function LevelsGained(experience: int, amount: int): (n: int)
    ensures n >= 0
    ensures experience + amount >= 0 ==> n == (experience + amount) / ExperiencePerLevel
  {
    var total := experience + amount;
    if total >= ExperiencePerLevel then total / ExperiencePerLevel else 0
  }

  /** `add_experience`: the loop takes 100 experience away for each level
      gained, adding 10 to the energy ceiling and refilling energy each time. */
  method AddExperience(p: Player, amount: int) returns (r: Player)
    ensures r.level == p.level + LevelsGained(p.experience, amount)
    ensures r.experience == p.experience + amount - ExperiencePerLevel * LevelsGained(p.experience, amount)
    ensures p.experience + amount >= 0 ==> 0 <= r.experience < ExperiencePerLevel
    ensures r.maxEnergy == p.maxEnergy + EnergyPerLevel * LevelsGained(p.experience, amount)
    ensures LevelsGained(p.experience, amount) > 0 ==> r.energy == r.maxEnergy as real
    ensures LevelsGained(p.experience, amount) == 0 ==> r.energy == p.energy
    ensures r.(experience := p.experience, level := p.level, maxEnergy := p.maxEnergy, energy := p.energy) == p
    ensures Valid(p) && amount >= 0 ==> Valid(r)
  {
    var total := p.experience + amount;
    r := p.(experience := total);
    var gained := 0;
    while r.experience >= ExperiencePerLevel
      invariant 0 <= gained
      invariant r.experience == total - ExperiencePerLevel * gained
      invariant gained > 0 ==> r.experience >= 0
      invariant r.level == p.level + gained
      invariant r.maxEnergy == p.maxEnergy + EnergyPerLevel * gained
      invariant gained > 0 ==> r.energy == r.maxEnergy as real
      invariant gained == 0 ==> r.energy == p.energy
      invariant r.(experience := p.experience, level := p.level, maxEnergy := p.maxEnergy, energy := p.energy) == p
      decreases r.experience
    {
      r := r.(experience := r.experience - ExperiencePerLevel, level := r.level + 1,
              maxEnergy := r.maxEnergy + EnergyPerLevel);
      r := r.(energy := r.maxEnergy as real);
      gained := gained + 1;
    }
    assert gained == LevelsGained(p.experience, amount) by {
      if total >= ExperiencePerLevel {
        assert total / ExperiencePerLevel == gained;
      }
    }
  }
}

=== FILE: shop.dfy ===
/** The shop of game/shop.py and web/js/shop.js: a fixed catalogue of items by
    category, the categories and items unlocked so far, a general sale
    multiplier and per-item daily deals, and the affordable items recommended
    to the player, cheapest first. */
module Shops {
  import opened Common

  datatype Item = Item(name: string, cost: int, description: string)

  /** One catalogue entry: the item's key (`"carrot"`) and its record. */
  datatype Entry = Entry(key: string, item: Item)

  /** The smallest and largest factor a sale or a deal may apply. */
  const MinFactor: real := 0.1
  const MaxFactor: real := 1.0

  /** The catalogue, category by category, in declaration order. */
  const Seeds: seq<Entry> := [
    Entry("carrot", Item("Carrot Seeds", 10, "Fast-growing basic vegetable")),
    Entry("tomato", Item("Tomato Seeds", 25, "Medium growth, good value")),
    Entry("corn", Item("Corn Seeds", 40, "Slow growth, high value")),
    Entry("strawberry", Item("Strawberry Seeds", 60, "Rare fruit, high mutation chance")),
    Entry("sunflower", Item("Sunflower Seeds", 80, "Decorative, attracts beneficial insects"))]
  const Tools: seq<Entry> := [
    Entry("basic_watering_can", Item("Basic Watering Can", 0, "Basic watering tool (starter item)")),
    Entry("advanced_watering_can", Item("Advanced Watering Can", 150, "Waters more efficiently")),
    Entry("fertilizer_spreader", Item("Fertilizer Spreader", 200, "Applies fertilizer to multiple plants")),
    Entry("sprinkler", Item("Sprinkler System", 500, "Automatically waters plants")),
    Entry("pest_repellent", Item("Pest Repellent", 300, "Protects plants from pests"))]
  const Fertilizers: seq<Entry> := [
    Entry("basic_fertilizer", Item("Basic Fertilizer", 25, "Increases growth rate")),
    Entry("premium_fertilizer", Item("Premium Fertilizer", 75, "Significantly increases growth and mutation chance")),
    Entry("organic_fertilizer", Item("Organic Fertilizer", 100, "Improves soil quality over time"))]
  const Expansions: seq<Entry> := [
    Entry("garden_expansion", Item("Garden Expansion", 200, "Unlocks more garden space")),
    Entry("greenhouse", Item("Greenhouse", 1000, "Protects plants from weather, faster growth"))]

  const Catalogue: map<string, seq<Entry>> :=
    map["seeds" := Seeds, "tools" := Tools, "fertilizers" := Fertilizers, "expansions" := Expansions]

  /** The catalogue's category names. */
  const Categories: set<string> := {"seeds", "tools", "fertilizers", "expansions"}

  lemma CatalogueCategories()
    ensures Catalogue.Keys == Categories
  {
  }

  datatype Shop = Shop(
    items: map<string, seq<Entry>>,
    unlockedCategories: seq<string>,
    unlockedItems: map<string, seq<string>>,
    dailyDeals: map<string, real>,
    saleMultiplier: real)

  function KeysOf(entries: seq<Entry>): (keys: seq<string>)
    ensures |keys| == |entries|
    ensures forall i :: 0 <= i < |entries| ==> keys[i] == entries[i].key
  {
    seq(|entries|, i requires 0 <= i < |entries| => entries[i].key)
  }

  /** `items[category][key]`, if the key is listed. */
  function Find(entries: seq<Entry>, key: string): (r: Option<Item>)
    ensures r.Some? <==> key in KeysOf(entries)
    ensures r.Some? ==> exists i :: 0 <= i < |entries| && entries[i] == Entry(key, r.value)
  {
    if entries == [] then None
    else if entries[0].key == key then Some(entries[0].item)
    else
      var r := Find(entries[1..], key);
      assert KeysOf(entries) == [entries[0].key] + KeysOf(entries[1..]);
      assert r.Some? ==> exists i :: 0 <= i < |entries| && entries[i] == Entry(key, r.value) by {
        if r.Some? {
          var i :| 0 <= i < |entries[1..]| && entries[1..][i] == Entry(key, r.value);
          assert entries[i + 1] == Entry(key, r.value);
        }
      }
      r
  }

  /** The items unlocked in `category` (none when it has no list). */
  function UnlockedIn(s: Shop, category: string): seq<string> {
    if category in s.unlockedItems then s.unlockedItems[category] else []
  }

  /** What every reachable shop satisfies: costs are non-negative, keys within a
      category are distinct, the factors are clamped, and every unlocked
      category and item exists and has its list. */
  predicate Valid(s: Shop) {
    && (forall c :: c in s.items ==> Distinct(KeysOf(s.items[c])))
    && (forall c :: c in s.items ==> forall i :: 0 <= i < |s.items[c]| ==> s.items[c][i].item.cost >= 0)
    && MinFactor <= s.saleMultiplier <= MaxFactor
    && (forall k :: k in s.dailyDeals ==> MinFactor <= s.dailyDeals[k] <= MaxFactor)
    && Distinct(s.unlockedCategories)
    && (forall c :: c in s.unlockedCategories ==> c in s.items && c in s.unlockedItems)
    && (forall c :: c in s.unlockedItems ==> c in s.items && Distinct(s.unlockedItems[c]))
    && (forall c, k :: c in s.unlockedItems && k in s.unlockedItems[c] ==> k in KeysOf(s.items[c]))
  }

  /** Within each catalogue category the keys are distinct and the costs non-negative. */
  lemma CatalogueWellFormed()
    ensures forall c :: c in Catalogue ==> Distinct(KeysOf(Catalogue[c]))
    ensures forall c :: c in Catalogue ==> forall i :: 0 <= i < |Catalogue[c]| ==> Catalogue[c][i].item.cost >= 0
  {
    assert KeysOf(Seeds) == ["carrot", "tomato", "corn", "strawberry", "sunflower"];
    assert KeysOf(Tools) == ["basic_watering_can", "advanced_watering_can", "fertilizer_spreader", "sprinkler", "pest_repellent"];
    assert KeysOf(Fertilizers) == ["basic_fertilizer", "premium_fertilizer", "organic_fertilizer"];
    assert KeysOf(Expansions) == ["garden_expansion", "greenhouse"];
  }

  /** The items unlocked at the start: the first seed and the first tool. */
  const InitialUnlocks: map<string, seq<string>> :=
    map["seeds" := ["carrot"], "tools" := ["basic_watering_can"], "fertilizers" := [], "expansions" := []]

  /** Every item unlocked at the start is listed in the catalogue. */
  lemma InitialUnlocksListed()
    ensures forall c :: c in InitialUnlocks ==> c in Catalogue && Distinct(InitialUnlocks[c])
    ensures forall c, k :: c in InitialUnlocks && k in InitialUnlocks[c] ==> k in KeysOf(Catalogue[c])
  {
    assert KeysOf(Seeds)[0] == "carrot";
    assert KeysOf(Tools)[0] == "basic_watering_can";
  }

  /** `Shop.__init__`. Its properties are stated by `InitialState`. */
  function Initial(): Shop {
    Shop(Catalogue, ["seeds", "tools"], InitialUnlocks, map[], 1.0)
  }

  /** A new shop is valid and offers the whole catalogue, with the seeds and
      tools categories unlocked with their first item each, no deals and no
      sale. */
  lemma InitialState()
    ensures Valid(Initial())
    ensures Initial().unlockedCategories == ["seeds", "tools"]
    ensures UnlockedIn(Initial(), "seeds") == ["carrot"] && UnlockedIn(Initial(), "tools") == ["basic_watering_can"]
    ensures Initial().dailyDeals == map[] && Initial().saleMultiplier == 1.0
    ensures Initial().items == Catalogue
  {
    CatalogueWellFormed();
    InitialUnlocksListed();
  }

  // ------------------------------------------------------------------ quotes

  /** The factor applied to `key`: its daily deal if it has one, else the sale. */
  function Factor(s: Shop, key: string): real {
    if key in s.dailyDeals then s.dailyDeals[key] else s.saleMultiplier
  }

  /** The catalogue record of `key` in `category`, if there is one. */
  function CatalogueItem(s: Shop, category: string, key: string): (r: Option<Item>)
    ensures r.Some? <==> category in s.items && key in KeysOf(s.items[category])
  {
    if category in s.items then Find(s.items[category], key) else None
  }

  /** `get_item`: a copy of the catalogue record with its cost discounted by the
      item's factor and truncated. */
  function GetItem(s: Shop, category: string, key: string): (r: Option<Item>)
    ensures r.Some? <==> CatalogueItem(s, category, key).Some?
    ensures r.Some? ==> (
      var it := CatalogueItem(s, category, key).value;
      r.value.name == it.name && r.value.description == it.description
      && r.value.cost == Discounted(it.cost, Factor(s, key)))
  {
    match CatalogueItem(s, category, key)
    case None => None
    case Some(it) => Some(it.(cost := Discounted(it.cost, Factor(s, key))))
  }

  /** The quote of a catalogue item, spelled out. */
  lemma QuoteOf(s: Shop, category: string, key: string)
    requires CatalogueItem(s, category, key).Some?
    ensures GetItem(s, category, key).Some?
    ensures var it := CatalogueItem(s, category, key).value;
      GetItem(s, category, key).value == it.(cost := Discounted(it.cost, Factor(s, key)))
  {
  }

  /** A record found in a list of entries with non-negative costs has a non-negative cost. */
  lemma FoundCostNonNegative(entries: seq<Entry>, key: string)
    requires forall i :: 0 <= i < |entries| ==> entries[i].item.cost >= 0
    requires Find(entries, key).Some?
    ensures Find(entries, key).value.cost >= 0
  {
    var i :| 0 <= i < |entries| && entries[i] == Entry(key, Find(entries, key).value);
  }

  /** `int(cost * factor)`: a cost scaled by a factor and truncated. A factor
      in `[0, 1]` keeps it within `[0, cost]`, and factor 1 leaves it as it is. */
  function Discounted(cost: int, f: real): (r: int)
    ensures 0 <= cost && 0.0 <= f <= 1.0 ==> 0 <= r <= cost
    ensures f == 1.0 ==> r == cost
  {
    var x := cost as real * f;
    assert f == 1.0 ==> x == cost as real;
    assert 0 <= cost && 0.0 <= f <= 1.0 ==> 0.0 <= x <= cost as real by {
      if 0 <= cost && 0.0 <= f <= 1.0 {
        ScaleWithin(cost as real, f);
      }
    }
    x.Floor
  }

  /** Quotes never exceed the catalogue price and never go negative: every
      factor lies in `[0.1, 1.0]`. */
  lemma QuoteWithinCatalogue(s: Shop, category: string, key: string)
    requires Valid(s) && GetItem(s, category, key).Some?
    ensures 0 <= GetItem(s, category, key).value.cost <= CatalogueItem(s, category, key).value.cost
  {
    QuoteWithinCost(s, category, key);
  }

  lemma QuoteWithinCost(s: Shop, category: string, key: string)
    requires GetItem(s, category, key).Some?
    requires forall i :: 0 <= i < |s.items[category]| ==> s.items[category][i].item.cost >= 0
    requires 0.0 <= Factor(s, key) <= 1.0
    ensures 0 <= GetItem(s, category, key).value.cost <= CatalogueItem(s, category, key).value.cost
  {
    var entries := s.items[category];
    var it := Find(entries, key).value;
    assert CatalogueItem(s, category, key) == Find(entries, key);
    FoundCostNonNegative(entries, key);
  }

  /** In the initial shop carrot seeds are quoted at 10 under the category
      "seeds", and the category "seed" does not exist. */
  lemma InitialCarrotQuote()
    ensures GetItem(Initial(), "seeds", "carrot").Some?
    ensures GetItem(Initial(), "seeds", "carrot").value.cost == 10
    ensures GetItem(Initial(), "seed", "carrot").None?
  {
    var s := Initial();
    assert Find(Seeds, "carrot") == Some(Seeds[0].item);
    assert CatalogueItem(s, "seeds", "carrot") == Some(Seeds[0].item);
    assert Factor(s, "carrot") == 1.0;
  }

  /** A daily deal takes precedence: the sale multiplier does not affect the item. */
  lemma DealBeatsSale(s: Shop, category: string, key: string, m: real)
    requires key in s.dailyDeals
    ensures GetItem(s.(saleMultiplier := m), category, key) == GetItem(s, category, key)
  {
    var t := s.(saleMultiplier := m);
    assert Factor(t, key) == Factor(s, key);
    assert CatalogueItem(t, category, key) == CatalogueItem(s, category, key);
    if CatalogueItem(s, category, key).Some? {
      QuoteOf(s, category, key);
      QuoteOf(t, category, key);
      assert GetItem(t, category, key).value == GetItem(s, category, key).value;
    }
  }

  /** `get_item_cost`: the quoted cost, or 0 for an unknown item. */
  function GetItemCost(s: Shop, category: string, key: string): (cost: int)
    ensures GetItem(s, category, key).None? ==> cost == 0
    ensures GetItem(s, category, key).Some? ==> cost == GetItem(s, category, key).value.cost
  {
    match GetItem(s, category, key)
    case None => 0
    case Some(it) => it.cost
  }

  /** `can_afford_item`: false for an unknown item. In a valid shop money
      covering the catalogue cost always affords the item, and a debt never does. */
  predicate CanAffordItem(s: Shop, category: string, key: string, money: int)
    ensures CanAffordItem(s, category, key, money) ==> CatalogueItem(s, category, key).Some?
    ensures Valid(s) && CatalogueItem(s, category, key).Some? && money >= CatalogueItem(s, category, key).value.cost
      ==> CanAffordItem(s, category, key, money)
    ensures Valid(s) && money < 0 ==> !CanAffordItem(s, category, key, money)
  {
    match GetItem(s, category, key)
    case None => false
    case Some(it) =>
      (if Valid(s) then QuoteWithinCatalogue(s, category, key); money >= it.cost else money >= it.cost)
  }

  /** Affordability is exactly a known item whose quoted cost the money covers. */
  lemma CanAffordMeansCost(s: Shop, category: string, key: string, money: int)
    ensures CanAffordItem(s, category, key, money)
      <==> GetItem(s, category, key).Some? && money >= GetItemCost(s, category, key)
  {
  }

  /** The present values of a sequence of options, in order. */
  function Somes<T>(opts: seq<Option<T>>): (r: seq<T>)
    ensures |r| <= |opts|
    ensures forall x :: x in r ==> exists i :: 0 <= i < |opts| && opts[i] == Some(x)
    ensures (forall i :: 0 <= i < |opts| ==> opts[i].Some?) ==>
      |r| == |opts| && forall i :: 0 <= i < |opts| ==> Some(r[i]) == opts[i]
  {
    if opts == [] then []
    else
      var rest := Somes(opts[1..]);
      match opts[0]
      case None => rest
      case Some(v) => [v] + rest
  }

  /** The quotes of the listed keys that are known, in list order. */
  function QuotesOf(s: Shop, category: string, keys: seq<string>): (r: seq<Item>)
    ensures |r| <= |keys|
    ensures forall x :: x in r ==> exists k :: k in keys && GetItem(s, category, k) == Some(x)
    ensures (forall k :: k in keys ==> GetItem(s, category, k).Some?) ==>
      |r| == |keys| && forall i :: 0 <= i < |keys| ==> Some(r[i]) == GetItem(s, category, keys[i])
  {
    var opts := seq(|keys|, i requires 0 <= i < |keys| => GetItem(s, category, keys[i]));
    assert forall i :: 0 <= i < |keys| ==> keys[i] in keys;
    Somes(opts)
  }

  /** `get_available_items`: nothing for a locked category, otherwise the
      quotes of its unlocked items in unlock order. */
  function GetAvailableItems(s: Shop, category: string): (r: seq<Item>)
    requires category in s.unlockedCategories ==> category in s.unlockedItems
    ensures category !in s.unlockedCategories ==> r == []
    ensures forall x :: x in r ==> exists k :: k in UnlockedIn(s, category) && GetItem(s, category, k) == Some(x)
    ensures Valid(s) && category in s.unlockedCategories ==>
      |r| == |UnlockedIn(s, category)|
      && forall i :: 0 <= i < |r| ==> Some(r[i]) == GetItem(s, category, UnlockedIn(s, category)[i])
  {
    if category !in s.unlockedCategories then [] else QuotesOf(s, category, s.unlockedItems[category])
  }

  // ---------------------------------------------------------------- unlocking

  /** `unlock_item`: for a catalogue item, unlocks its category and appends the
      item to the unlocked list; true only when the item was not yet there. */
  function UnlockItem(s: Shop, category: string, key: string): (res: (Shop, bool))
    ensures res.1 <==> category in s.items && key in KeysOf(s.items[category]) && key !in UnlockedIn(s, category)
    ensures !(category in s.items && key in KeysOf(s.items[category])) ==> res.0 == s
    ensures category in s.items && key in KeysOf(s.items[category]) ==>
      category in res.0.unlockedCategories && key in UnlockedIn(res.0, category)
    ensures res.1 ==> UnlockedIn(res.0, category) == UnlockedIn(s, category) + [key]
    ensures !res.1 ==> UnlockedIn(res.0, category) == UnlockedIn(s, category)
    ensures forall c :: c != category ==> UnlockedIn(res.0, c) == UnlockedIn(s, c)
    ensures forall c :: c in s.unlockedCategories ==> c in res.0.unlockedCategories
    ensures res.0.items == s.items && res.0.dailyDeals == s.dailyDeals && res.0.saleMultiplier == s.saleMultiplier
  {
    if category in s.items && Find(s.items[category], key).Some? then
      var cats := if category in s.unlockedCategories then s.unlockedCategories else s.unlockedCategories + [category];
      var list := UnlockedIn(s, category);
      if key !in list then (s.(unlockedCategories := cats, unlockedItems := s.unlockedItems[category := list + [key]]), true)
      else (s.(unlockedCategories := cats, unlockedItems := s.unlockedItems[category := list]), false)
    else (s, false)
  }

  /** Unlocking keeps the shop valid: the item is listed in its category and
      is appended only when it is not already unlocked. */
  lemma UnlockItemKeepsValid(s: Shop, category: string, key: string)
    requires Valid(s)
    ensures Valid(UnlockItem(s, category, key).0)
  {
    var r := UnlockItem(s, category, key).0;
    if category in s.items && key in KeysOf(s.items[category]) {
      if category !in s.unlockedCategories {
        DistinctAppend(s.unlockedCategories, category);
      }
      var list := UnlockedIn(s, category);
      if key !in list {
        DistinctAppend(list, key);
      }
      assert forall k :: k in UnlockedIn(r, category) ==> k in list || k == key;
    }
  }

  /** Unlocking the same item again reports false and changes nothing. */
  lemma UnlockItemIdempotent(s: Shop, category: string, key: string)
    ensures UnlockItem(UnlockItem(s, category, key).0, category, key) == (UnlockItem(s, category, key).0, false)
  {
    var t := UnlockItem(s, category, key).0;
    if category in s.items && key in KeysOf(s.items[category]) {
      assert t.unlockedItems[category := UnlockedIn(t, category)] == t.unlockedItems;
    }
  }

  /** `unlock_category`: for a catalogue category not yet unlocked, unlocks it
      with every one of its items, in catalogue order. */
  function UnlockCategory(s: Shop, category: string): (res: (Shop, bool))
    ensures res.1 <==> category in s.items && category !in s.unlockedCategories
    ensures !res.1 ==> res.0 == s
    ensures res.1 ==> res.0.unlockedCategories == s.unlockedCategories + [category]
    ensures res.1 ==> UnlockedIn(res.0, category) == KeysOf(s.items[category])
    ensures res.1 ==> forall c :: c != category ==> UnlockedIn(res.0, c) == UnlockedIn(s, c)
    ensures res.0.items == s.items && res.0.dailyDeals == s.dailyDeals && res.0.saleMultiplier == s.saleMultiplier
    ensures Valid(s) ==> Valid(res.0)
  {
    if category in s.items && category !in s.unlockedCategories then
      (s.(unlockedCategories := s.unlockedCategories + [category],
          unlockedItems := s.unlockedItems[category := KeysOf(s.items[category])]), true)
    else (s, false)
  }

  /** After unlocking a category every one of its items is offered. */
  lemma UnlockedCategoryOffersAll(s: Shop, category: string)
    requires Valid(s) && UnlockCategory(s, category).1
    ensures |GetAvailableItems(UnlockCategory(s, category).0, category)| == |s.items[category]|
  {
  }

  // ------------------------------------------------------------ sales, deals

  /** `set_sale`: the multiplier clamped into `[0.1, 1.0]`. */
  function SetSale(s: Shop, multiplier: real): (r: Shop)
    ensures MinFactor <= r.saleMultiplier <= MaxFactor
    ensures MinFactor <= multiplier <= MaxFactor ==> r.saleMultiplier == multiplier
    ensures r.(saleMultiplier := s.saleMultiplier) == s
    ensures Valid(s) ==> Valid(r)
  {
    s.(saleMultiplier := Clamp(MinFactor, MaxFactor, multiplier))
  }

  /** `add_daily_deal`: the item's factor becomes `1 - discount`, clamped. */
  function AddDailyDeal(s: Shop, key: string, discount: real): (r: Shop)
    ensures key in r.dailyDeals && MinFactor <= r.dailyDeals[key] <= MaxFactor
    ensures 0.0 <= discount <= 0.9 ==> r.dailyDeals[key] == 1.0 - discount
    ensures forall k :: k != key ==> (k in r.dailyDeals <==> k in s.dailyDeals)
    ensures forall k :: k != key && k in s.dailyDeals ==> r.dailyDeals[k] == s.dailyDeals[k]
    ensures r.(dailyDeals := s.dailyDeals) == s
    ensures Valid(s) ==> Valid(r)
  {
    s.(dailyDeals := s.dailyDeals[key := Clamp(MinFactor, MaxFactor, 1.0 - discount)])
  }

  // ---------------------------------------------------------- recommendation

  predicate SortedByCost(xs: seq<Item>) {
    forall i, j :: 0 <= i < j < |xs| ==> xs[i].cost <= xs[j].cost
  }

  /** `x` placed after every entry of `xs` that costs no more than it. */
  function InsertByCost(x: Item, xs: seq<Item>): (r: seq<Item>)
    ensures multiset(r) == multiset(xs) + multiset{x}
    ensures |r| == |xs| + 1
  {
    if xs == [] then [x]
    else if x.cost < xs[0].cost then [x] + xs
    else
      var rest := InsertByCost(x, xs[1..]);
      assert xs == [xs[0]] + xs[1..];
      assert multiset([xs[0]] + rest) == multiset{xs[0]} + multiset(rest);
      [xs[0]] + rest
  }

  /** Every entry after inserting `x` into a sorted list costs at least as
      much as `x` or as the old head. */
  lemma {:induction false} InsertLowerBound(x: Item, xs: seq<Item>)
    requires SortedByCost(xs)
    ensures forall j :: 0 <= j < |InsertByCost(x, xs)| ==>
      InsertByCost(x, xs)[j].cost >= x.cost || (|xs| > 0 && InsertByCost(x, xs)[j].cost >= xs[0].cost)
  {
    if xs != [] && x.cost >= xs[0].cost {
      var rest := InsertByCost(x, xs[1..]);
      InsertLowerBound(x, xs[1..]);
      assert InsertByCost(x, xs) == [xs[0]] + rest;
      forall j | 0 <= j < |rest| ensures xs[0].cost <= rest[j].cost {
        assert rest[j].cost >= x.cost || (|xs[1..]| > 0 && rest[j].cost >= xs[1..][0].cost);
      }
    }
  }

  /** Inserting into a sorted list keeps it sorted. */
  lemma {:induction false} InsertKeepsSorted(x: Item, xs: seq<Item>)
    requires SortedByCost(xs)
    ensures SortedByCost(InsertByCost(x, xs))
  {
    if xs != [] {
      if x.cost < xs[0].cost {
        assert forall j :: 0 <= j < |xs| ==> x.cost <= xs[j].cost;
        SortedCons(x, xs);
      } else {
        var rest := InsertByCost(x, xs[1..]);
        InsertKeepsSorted(x, xs[1..]);
        InsertLowerBound(x, xs[1..]);
        assert InsertByCost(x, xs) == [xs[0]] + rest;
        forall j | 0 <= j < |rest| ensures xs[0].cost <= rest[j].cost {
          assert rest[j].cost >= x.cost || (|xs[1..]| > 0 && rest[j].cost >= xs[1..][0].cost);
        }
        SortedCons(xs[0], rest);
      }
    }
  }

  /** An item no dearer than the head of a sorted list keeps it sorted in front. */
  lemma SortedCons(a: Item, xs: seq<Item>)
    requires SortedByCost(xs) && forall j :: 0 <= j < |xs| ==> a.cost <= xs[j].cost
    ensures SortedByCost([a] + xs)
  {
  }

  /** The sort `recommended.sort(key=cost)`: an insertion sort by cost. */
  function SortByCost(xs: seq<Item>): (r: seq<Item>)
    ensures SortedByCost(r)
    ensures multiset(r) == multiset(xs)
    ensures |r| == |xs|
  {
    if xs == [] then []
    else
      assert xs == xs[..|xs| - 1] + [xs[|xs| - 1]];
      var sorted := SortByCost(xs[..|xs| - 1]);
      InsertKeepsSorted(xs[|xs| - 1], sorted);
      InsertByCost(xs[|xs| - 1], sorted)
  }

  /** The affordable quotes of `keys` in `category`, in list order. */
  function Affordable(s: Shop, category: string, keys: seq<string>, money: int): (r: seq<Item>)
    ensures forall x :: x in r ==> x.cost <= money
    ensures forall x :: x in r ==> exists k :: k in keys && GetItem(s, category, k) == Some(x)
    ensures forall k :: k in keys && CanAffordItem(s, category, k, money) ==> GetItem(s, category, k).value in r
  {
    if keys == [] then []
    else
      var rest := Affordable(s, category, keys[1..], money);
      assert forall k :: k in keys ==> k == keys[0] || k in keys[1..];
      if CanAffordItem(s, category, keys[0], money) then [GetItem(s, category, keys[0]).value] + rest
      else rest
  }

  /** The gathering loop of `get_recommended_items` over `cats`, skipping the
      ones not unlocked. */
  function Candidates(s: Shop, cats: seq<string>, money: int): (r: seq<Item>)
    requires forall c :: c in s.unlockedCategories ==> c in s.unlockedItems
    ensures forall x :: x in r ==> x.cost <= money
    ensures forall x :: x in r ==>
      exists c, k :: c in cats && c in s.unlockedCategories && k in UnlockedIn(s, c) && GetItem(s, c, k) == Some(x)
    ensures forall c, k ::
      (c in cats && c in s.unlockedCategories && k in UnlockedIn(s, c) && CanAffordItem(s, c, k, money))
      ==> GetItem(s, c, k).value in r
  {
    if cats == [] then []
    else
      var rest := Candidates(s, cats[1..], money);
      assert forall c :: c in cats ==> c == cats[0] || c in cats[1..];
      if cats[0] !in s.unlockedCategories then rest
      else Affordable(s, cats[0], s.unlockedItems[cats[0]], money) + rest
  }

  /** The categories `get_recommended_items` looks at: the given one when it is
      a non-empty string, otherwise every unlocked category. */
  function RecommendedCategories(s: Shop, category: Option<string>): seq<string> {
    if category.Some? && category.value != "" then [category.value] else s.unlockedCategories
  }

  /** `get_recommended_items`: every affordable unlocked item of the chosen
      categories, and nothing else, sorted by cost. */
  function GetRecommendedItems(s: Shop, money: int, category: Option<string>): (r: seq<Item>)
    requires forall c :: c in s.unlockedCategories ==> c in s.unlockedItems
    ensures SortedByCost(r)
    ensures multiset(r) == multiset(Candidates(s, RecommendedCategories(s, category), money))
    ensures forall x :: x in r ==> x.cost <= money
    ensures forall x :: x in r ==>
      exists c, k :: c in RecommendedCategories(s, category) && c in s.unlockedCategories
        && k in UnlockedIn(s, c) && GetItem(s, c, k) == Some(x)
    ensures forall c, k ::
      (c in RecommendedCategories(s, category) && c in s.unlockedCategories
        && k in UnlockedIn(s, c) && CanAffordItem(s, c, k, money))
      ==> GetItem(s, c, k).value in r
  {
    var found := Candidates(s, RecommendedCategories(s, category), money);
    var r := SortByCost(found);
    assert forall x :: x in r <==> x in found by {
      forall x ensures x in r <==> x in found {
        assert x in r <==> x in multiset(r);
        assert x in found <==> x in multiset(found);
      }
    }
    r
  }
}

=== FILE: web_game.dfy ===
/** The browser-only part of web/js/game.js: the overlay and pause state that
    `handleKeyDown` drives, and `handleInteraction`, which acts on the tile
    under the player when the space bar is pressed. The player's tile is a
    parameter: the screen is 32x24 tiles while the garden is 20x15, so it may
    lie beyond the garden. Notifications are not modelled. */
module WebGame {
  import opened Common
  import Plants
  import Gardens
  import Players
  import Games

  /** `currentState`: the keys only ever switch between these two. */
  datatype Mode = Playing | Paused

  /** The overlay flags `showShop`, `showInventory` and `showHelp`. */
  datatype Ui = Ui(mode: Mode, showShop: bool, showInventory: bool, showHelp: bool)

  predicate AnyOverlay(ui: Ui) {
    ui.showShop || ui.showInventory || ui.showHelp
  }

  /** At most one overlay is open, and none while paused. */
  predicate Valid(ui: Ui) {
    && (ui.showShop ==> !ui.showInventory && !ui.showHelp)
    && (ui.showInventory ==> !ui.showHelp)
    && (ui.mode == Paused ==> !AnyOverlay(ui))
  }

  /** The constructor's UI state: playing, no overlay. */
  function InitialUi(): (ui: Ui)
    ensures Valid(ui) && ui.mode == Playing && !AnyOverlay(ui)
  {
    Ui(Playing, false, false, false)
  }

  /** The overlay keys, each in both cases, that are ignored while paused. */
  predicate IsOverlayKey(key: string) {
    key in {"e", "E", "q", "Q", "h", "H"}
  }

  /** `handleKeyDown(key)` on the UI state. The flag says whether the key
      triggers `handleInteraction`: the space bar does, while playing with no
      overlay open. Escape closes an open overlay and otherwise toggles the
      pause; each overlay key toggles its overlay and closes the others, unless
      the game is paused. Any other key changes nothing. */
  function Overlay(ui: Ui, key: string): (res: (Ui, bool))
    ensures Valid(ui) ==> Valid(res.0)
    ensures res.1 <==> key == " " && ui.mode == Playing && !AnyOverlay(ui)
    ensures key == "Escape" && AnyOverlay(ui) ==> !AnyOverlay(res.0) && res.0.mode == ui.mode
    ensures key == "Escape" && !AnyOverlay(ui) ==> res.0.mode != ui.mode && !AnyOverlay(res.0)
    ensures IsOverlayKey(key) && ui.mode == Paused ==> res.0 == ui
    ensures key in {"e", "E"} && ui.mode == Playing ==> res.0 == Ui(Playing, !ui.showShop, false, false)
    ensures key in {"q", "Q"} && ui.mode == Playing ==> res.0 == Ui(Playing, false, !ui.showInventory, false)
    ensures key in {"h", "H"} && ui.mode == Playing ==> res.0 == Ui(Playing, false, false, !ui.showHelp)
    ensures key != "Escape" ==> res.0.mode == ui.mode
    ensures key != "Escape" && !IsOverlayKey(key) ==> res.0 == ui
  {
    if key == "Escape" then
      if AnyOverlay(ui) then (ui.(showShop := false, showInventory := false, showHelp := false), false)
      else (ui.(mode := if ui.mode == Paused then Playing else Paused), false)
    else if key == "e" || key == "E" then
      if ui.mode != Paused then (ui.(showShop := !ui.showShop, showInventory := false, showHelp := false), false)
      else (ui, false)
    else if key == "q" || key == "Q" then
      if ui.mode != Paused then (ui.(showInventory := !ui.showInventory, showShop := false, showHelp := false), false)
      else (ui, false)
    else if key == "h" || key == "H" then
      if ui.mode != Paused then (ui.(showHelp := !ui.showHelp, showShop := false, showInventory := false), false)
      else (ui, false)
    else if key == " " then
      (ui, ui.mode == Playing && !AnyOverlay(ui))
    else (ui, false)
  }

  /** The UI state after a sequence of key presses. */
  function Run(ui: Ui, keys: seq<string>): Ui
    decreases |keys|
  {
    if keys == [] then ui else Run(Overlay(ui, keys[0]).0, keys[1..])
  }

  /** No sequence of key presses ever opens two overlays at once or shows one
      while paused. */
  lemma {:induction false} RunKeepsValid(ui: Ui, keys: seq<string>)
    requires Valid(ui)
    ensures Valid(Run(ui, keys))
    decreases |keys|
  {
    if keys != [] {
      RunKeepsValid(Overlay(ui, keys[0]).0, keys[1..]);
    }
  }

  /** Opening any overlay and pressing Escape returns to the plain game, and
      pressing Escape twice with no overlay pauses and resumes. */
  lemma EscapeUndoes(ui: Ui, key: string)
    requires ui.mode == Playing && !AnyOverlay(ui) && IsOverlayKey(key)
    ensures Overlay(Overlay(ui, key).0, "Escape").0 == ui
    ensures Overlay(Overlay(ui, "Escape").0, "Escape").0 == ui
  {
  }

  /** The outcome of an interaction: it completes, or the browser throws a
      `TypeError` before anything changed. */
  datatype Reaction = Done(state: Games.GameState) | Threw(state: Games.GameState)

  /** What `handleInteraction` does on a plantable tile inside the garden: an
      empty tile is planted with the selected seed, a harvestable plant is
      harvested, and any other plant is watered or fertilised according to
      the selected tool. */
  function Tend(gs: Games.GameState, gx: int, gy: int, roll: real): (r: Games.GameState)
    requires Games.Valid(gs) && InBounds(gx, gy)
    ensures Games.Valid(r)
    ensures r.player.tools == gs.player.tools && r.economy.money >= gs.economy.money
    ensures (gx, gy) !in gs.garden.plants ==>
      r.economy == gs.economy && r.garden.plants.Keys <= gs.garden.plants.Keys + {(gx, gy)}
    ensures (gx, gy) !in gs.garden.plants && gs.garden.soil[gy][gx] > 0.0
      && Players.HasSeed(gs.player, gs.player.selectedSeed)
      ==> (gx, gy) in r.garden.plants && r.garden.plants[(gx, gy)].plantType == gs.player.selectedSeed
    ensures (gx, gy) in gs.garden.plants && Plants.IsHarvestable(gs.garden.plants[(gx, gy)])
      ==> (gx, gy) !in r.garden.plants && r.economy.money > gs.economy.money
    ensures (gx, gy) in gs.garden.plants && !Plants.IsHarvestable(gs.garden.plants[(gx, gy)])
      ==> r.economy == gs.economy && r.player == gs.player && r.garden.plants.Keys == gs.garden.plants.Keys
  {
    match Gardens.GetPlant(gs.garden, gx, gy)
    case None =>
      Games.PlantingEffect(gs, gx, gy, gs.player.selectedSeed, roll);
      Games.PlantSeed(gs, gx, gy, gs.player.selectedSeed, roll).0
    case Some(p) =>
      if Plants.IsHarvestable(p) then Games.Harvest(gs, gx, gy).0 else Care(gs, gx, gy)
  }

  /** Care for a growing plant: the watering can waters it, the fertiliser
      spreader fertilises it, and any other tool does nothing. Only the plant
      and its tile's buffers change. */
  function Care(gs: Games.GameState, gx: int, gy: int): (r: Games.GameState)
    requires Games.Valid(gs) && (gx, gy) in gs.garden.plants
    ensures Games.Valid(r)
    ensures r.(garden := gs.garden) == gs && r.garden.plants.Keys == gs.garden.plants.Keys
    ensures gs.player.selectedTool == "basic_watering_can" ==>
      var p := gs.garden.plants[(gx, gy)];
      if p.water < p.maxWater then r.garden.plants[(gx, gy)].water == p.water + 1 else r == gs
    ensures gs.player.selectedTool == "fertilizer_spreader" ==>
      r.garden.plants[(gx, gy)].fertilized && (gs.garden.plants[(gx, gy)].fertilized ==> r == gs)
    ensures gs.player.selectedTool !in {"basic_watering_can", "fertilizer_spreader"} ==> r == gs
  {
    var p := gs.garden.plants[(gx, gy)];
    if gs.player.selectedTool == "basic_watering_can" then
      var (watered, ok) := Gardens.WaterPlant(gs.garden, gx, gy);
      assert ok ==> watered.plants[(gx, gy)] == Plants.Water(p).0;
      WithGarden(gs, watered)
    else if gs.player.selectedTool == "fertilizer_spreader" then
      var (fed, ok) := Gardens.FertilizePlant(gs.garden, gx, gy);
      assert ok ==> fed.plants[(gx, gy)] == p.(fertilized := true);
      WithGarden(gs, fed)
    else gs
  }

  /** `handleInteraction` on the tile `(gx, gy)` under the player. A row
      outside the garden makes `soilQuality[gy][gx]` throw; a column outside
      it reads `undefined`, which is not above 0, so nothing happens, as on
      barren soil. On a plantable tile the plant there is tended. */
  function HandleInteraction(gs: Games.GameState, gx: int, gy: int, roll: real): (r: Reaction)
    requires Games.Valid(gs)
    ensures Games.Valid(r.state)
    ensures r.Threw? <==> !(0 <= gy < GridHeight)
    ensures r.Threw? || !InBounds(gx, gy) || gs.garden.soil[gy][gx] <= 0.0 ==> r.state == gs
    ensures InBounds(gx, gy) && gs.garden.soil[gy][gx] > 0.0 ==> r == Done(Tend(gs, gx, gy, roll))
  {
    if !(0 <= gy < GridHeight) then Threw(gs)
    else if !(0 <= gx < GridWidth) then Done(gs)
    else if !Gardens.IsPlantableSoil(gs.garden, gx, gy) then Done(gs)
    else Done(Tend(gs, gx, gy, roll))
  }

  /** The state with a tended garden that keeps its plant positions. */
  function WithGarden(gs: Games.GameState, g: Gardens.Garden): (r: Games.GameState)
    requires Games.Valid(gs) && Gardens.Valid(g)
    ensures Games.Valid(r) && r.garden == g && r.(garden := gs.garden) == gs
  {
    Games.ValidFrame(gs, gs.(garden := g));
    gs.(garden := g)
  }

  /** `handleKeyDown(key)` on the whole game: the UI state changes as
      `Overlay` says, and the space bar, when it triggers, interacts with the
      tile `(gx, gy)` under the player. */
  function KeyDown(gs: Games.GameState, ui: Ui, key: string, gx: int, gy: int, roll: real): (res: (Reaction, Ui))
    requires Games.Valid(gs)
    ensures Games.Valid(res.0.state)
    ensures res.1 == Overlay(ui, key).0
    ensures !Overlay(ui, key).1 ==> res.0 == Done(gs)
    ensures key != " " ==> res.0 == Done(gs)
  {
    var (next, interact) := Overlay(ui, key);
    if interact then (HandleInteraction(gs, gx, gy, roll), next) else (Done(gs), next)
  }

  /** While an overlay is open or the game is paused, no key changes the game
      state. */
  lemma OverlayBlocksInteraction(gs: Games.GameState, ui: Ui, key: string, gx: int, gy: int, roll: real)
    requires Games.Valid(gs) && (AnyOverlay(ui) || ui.mode == Paused)
    ensures KeyDown(gs, ui, key, gx, gy, roll).0 == Done(gs)
  {
  }
}
